=== FILE: README.md ===
# Risk assessment core, modelled in Dafny

This project models the scoring and compliance core of a customer risk-assessment back end for an
Iranian financial institution. It covers:

- **Risk calculators.** Geographic risk scores nationality, birth province, border cities and residence
  change. Activity risk scores customer type, high-risk occupations and activities, and PEP status.
  Financial risk uses monthly income bands. Income risk uses annual income and revenue tables and
  expected activity. Occupation risk uses a base score scaled by income deviation. There are also the
  high-risk-area table, the relationship rule, and the aggregator. The aggregator is a stub that always
  reports LOW.
- **Risk assessment service.** The tier summary over a customer list, the detailed view of one
  customer, and the due-diligence level per tier.
- **Configuration and compliance stores.**
  - Risk parameters: validated partial updates, listing, and the per-category weight sums.
  - Documentation requirements: the catalogue, uploads, verification, and the compliance check.
  - Real-time monitoring: the large-transaction alert, its audit-log entries, and escalation.
  - Notifications: severity, acknowledgement, and the newest-first listing.
  - Suspicious/cash transaction reports: drafts, submission, and the date filter.
  - Users: roles, default permissions, sessions, deactivation, and the permission check.
  - Report date-range validation and the fixed report bodies.
  - The sanctions list.

How the model represents the system:

- Every service is a Dafny module of immutable datatypes and pure functions.
- Each in-memory JavaScript `Map` store is an insertion-ordered association list (`OrderedMaps`). `set`
  replaces a present key where it stands and appends a new one, so listing order is that of the source.
- An operation returns the new store next to its result. A failing operation returns the store it was
  given, unchanged.
- Exceptions become `Result` failures that carry the source's message.
- An optional field, a lookup that may find nothing and a `null` return become `Option`. In a partial
  update (`RiskParameters.ApplyPatch`, `Users.ApplyUserPatch`), `None` means the field is absent and the
  stored value is kept; a field sent as `null` is not modelled (see "Left out").
- Clock readings (`new Date()`, `Date.now()`) are a `now: int` parameter in milliseconds.
- The random parts of generated ids are a `randomSuffix` parameter.
- Money amounts and weights are exact `real`s.
- `Math.round(t / k)` on the non-negative integer totals is `(2t + k) div 2k`.
- `toLowerCase`/`toUpperCase` fold the ASCII letters only.
- Every call is sequential, so `async` plays no part.

Modules: `Wrappers`, `Text`, `Seqs`, `OrderedMaps`, `Customers`, `Scoring`, `GeographicRisk`,
`ActivityRisk`, `FinancialRisk`, `IncomeRisk`, `OccupationRisk`, `HighRiskAreas`, `RelationshipRisk`,
`RiskAggregator`, `RiskAssessment`, `RiskParameters`, `Documentation`, `Monitoring`, `Notifications`,
`TransactionReports`, `Users`, `Reporting`, `Sanctions`.

## Model

| member | source | states |
|---|---|---|
| Scoring.RoundDiv | src/risk-assessment/services/geographic-risk.service.ts:88 | the result is the integer nearest to t/k, with halves rounded up as `Math.round` does |
| Scoring.Clamp | src/risk-assessment/services/geographic-risk.service.ts:88 | the result lies within the bounds: a value below is raised to the lower bound, a value above is lowered to the upper bound, a value inside is unchanged |
| GeographicRisk.NationalityPoints | src/risk-assessment/services/geographic-risk.service.ts:53-59 | 5 exactly for the high-risk countries, 3 exactly for the medium ones, 2 otherwise. Iran is on the high list, so the zero branch is unreachable and nationality adds at least 2 |
| GeographicRisk.ExtractProvince | src/risk-assessment/services/geographic-risk.service.ts:95-98 | the province is the text before the first comma, trimmed: only whitespace is removed from either end and the result neither starts nor ends with whitespace, so it is comma-free and no longer than the location |
| Text.Trim | src/risk-assessment/services/geographic-risk.service.ts:97 | the result is a slice of the input with only whitespace cut from either end, which, when non-empty, starts and ends with a non-whitespace character |
| GeographicRisk.ProvincePoints | src/risk-assessment/services/geographic-risk.service.ts:61-65 | 2 exactly when the trimmed text before the first comma is a high-risk province, else 0 |
| GeographicRisk.BorderCityPoints | src/risk-assessment/services/geographic-risk.service.ts:67-70 | 3 exactly when the birth place equals a border city, else 0 |
| GeographicRisk.ResidencePoints | src/risk-assessment/services/geographic-risk.service.ts:72-81 | 0 when residence equals birth place; 3 for a differing border-city residence; otherwise 1 exactly when the provinces differ |
| GeographicRisk.HasMultipleLocations | src/risk-assessment/services/geographic-risk.service.ts:100-107 | the two-element location set has size above 1 exactly when the residence differs from the birth place |
| GeographicRisk.MultipleLocationPoints | src/risk-assessment/services/geographic-risk.service.ts:83-86 | adds exactly 1 when the locations differ, 0 when they are equal |
| GeographicRisk.BorderCityIsOwnProvince | src/risk-assessment/services/geographic-risk.service.ts:31-47 | every border city is its own extracted province and is not a high-risk province |
| GeographicRisk.BorderCityNotProvince | src/risk-assessment/services/geographic-risk.service.ts:31-47 | no border city of the table is a high-risk province |
| GeographicRisk.LettersOnlyBorderCity | src/risk-assessment/services/geographic-risk.service.ts:31-41 | every border city is made of letters only |
| GeographicRisk.PlainNameIsOwnProvince | src/risk-assessment/services/geographic-risk.service.ts:95-98 | a letters-only name extracts to itself |
| GeographicRisk.BirthBonusesExclusive | src/risk-assessment/services/geographic-risk.service.ts:61-70 | the province bonus and the border-city bonus never both apply |
| GeographicRisk.RawScore | src/risk-assessment/services/geographic-risk.service.ts:49-86 | the raw total lies in 2..12 |
| GeographicRisk.CalculateRisk | src/risk-assessment/services/geographic-risk.service.ts:49-89 | the score is the raw total over 3 rounded half up (6r ≤ 2·raw + 3 < 6r + 6): 1 for raw totals up to 4, 2 for 5..7, 3 for 8..10, 4 from 11; never 5, so the upper clamp never binds |
| GeographicRisk.NormaliseBands | src/risk-assessment/services/geographic-risk.service.ts:88 | for raw totals 2..12 the clamp leaves the rounded third unchanged, and the result is 1 up to 4, 2 for 5..7, 3 for 8..10, 4 from 11 |
| GeographicRisk.GetAreaRiskLevel | src/risk-assessment/services/geographic-risk.service.ts:109-119 | always 1, because the private high-risk-area check always answers false |
| GeographicRisk.IsHighRiskArea | src/risk-assessment/services/geographic-risk.service.ts:116-119 | the placeholder: no province and city is high-risk |
| GeographicRisk.PlaceholderMissesTableArea | src/risk-assessment/services/geographic-risk.service.ts:109-119 | a border city the area table rates 5 gets level 1 from this service |
| GeographicRisk.Weightage | src/risk-assessment/services/geographic-risk.service.ts:91-93 | the weightage is a fraction strictly between 0 and 1 |
| ActivityRisk.BasePoints | src/risk-assessment/services/activity-risk.service.ts:24-34 | FOREIGN_INDIVIDUAL 3, LEGAL_ENTITY 2, IRANIAN_INDIVIDUAL 1 |
| ActivityRisk.OnHighRiskList | src/risk-assessment/services/activity-risk.service.ts:37-45 | legal entities match only on activity type and individuals only on occupation; a missing value never matches |
| ActivityRisk.RawScore | src/risk-assessment/services/activity-risk.service.ts:20-50 | the raw total lies in 1..10, is at least 5 for a PEP, and is the base points when there is neither PEP nor list match |
| ActivityRisk.CalculateRisk | src/risk-assessment/services/activity-risk.service.ts:53 | the score is the raw total halved and rounded half up (4r ≤ 2·raw + 2 < 4r + 4): 1 up to 2, 2 for 3..4, 3 for 5..6, 4 for 7..8, 5 from 9; at least 3 for every PEP |
| ActivityRisk.Weightage | src/risk-assessment/services/activity-risk.service.ts:56-58 | the weightage is a fraction strictly between 0 and 1 |
| ActivityRisk.NormaliseMonotone | src/risk-assessment/services/activity-risk.service.ts:53 | normalising never reverses the order of two raw totals |
| ActivityRisk.PepNeverLowers | src/risk-assessment/services/activity-risk.service.ts:47-53 | setting isPEP adds exactly 4 to the raw total and never lowers the score |
| ActivityRisk.ListMatchNeverLowers | src/risk-assessment/services/activity-risk.service.ts:36-53 | gaining a list match adds exactly 3 and never lowers the score |
| ActivityRisk.ScoreExtremes | src/risk-assessment/services/activity-risk.service.ts:20-54 | a non-PEP Iranian individual with an unlisted occupation scores 1; a PEP foreign individual in money exchange scores 5 |
| FinancialRisk.ThresholdsFor | src/risk-assessment/services/financial-risk.service.ts:7-25 | only LEGAL_ENTITY uses 50000/150000/300000; both individual types use 5000/15000/30000 |
| FinancialRisk.IncomePoints | src/risk-assessment/services/financial-risk.service.ts:28-36 | 5 above high, 3 in (medium, high], 2 in (low, medium], 1 up to low |
| FinancialRisk.CalculateRisk | src/risk-assessment/services/financial-risk.service.ts:20-42 | the score is the income bucket on the type's scale: 1 up to the low threshold, 2 up to the medium, 3 up to the high, 5 above it; the clamp changes nothing |
| FinancialRisk.Weightage | src/risk-assessment/services/financial-risk.service.ts:44-46 | the weightage is a fraction strictly between 0 and 1 |
| FinancialRisk.MonotoneInIncome | src/risk-assessment/services/financial-risk.service.ts:28-41 | for one customer type, more income never lowers the score |
| FinancialRisk.EntityAtMostIndividual | src/risk-assessment/services/financial-risk.service.ts:22-25 | at equal income a legal entity never scores above an individual |
| IncomeRisk.IndividualTableWellFormed | src/risk-assessment/services/income-risk.service.ts:12-21 | the individual table is strictly ascending, its levels and documentation flags never decrease, it ends with the unbounded bucket, and every bucket from level 2 up requires documentation |
| IncomeRisk.EntityTableWellFormed | src/risk-assessment/services/income-risk.service.ts:23-33 | the same for the entity revenue table |
| IncomeRisk.WellFormedOrdered | src/risk-assessment/services/income-risk.service.ts:12-33 | in a well-formed table a later bucket has no lower level and keeps documentation once required |
| IncomeRisk.TableFor | src/risk-assessment/services/income-risk.service.ts:42-45 | legal entities use the revenue table and everyone else the individual table; both are well formed and document every bucket from level 2 up |
| IncomeRisk.BucketIndex | src/risk-assessment/services/income-risk.service.ts:48 | the first bucket whose threshold is at least the amount, every earlier one being below it |
| IncomeRisk.BucketIndexMonotone | src/risk-assessment/services/income-risk.service.ts:48 | a larger amount never lands in an earlier bucket |
| IncomeRisk.BucketFound | src/risk-assessment/services/income-risk.service.ts:48-49 | the unbounded last bucket always matches, so the fallback to the last entry is never needed |
| IncomeRisk.CalculateIncomeRisk | src/risk-assessment/services/income-risk.service.ts:35-55 | the result is the matched bucket's level and flag; the level lies in 1..5 and from level 2 documentation is required |
| IncomeRisk.IncomeRiskMonotone | src/risk-assessment/services/income-risk.service.ts:35-55 | more income never lowers the level nor drops a documentation requirement |
| IncomeRisk.LowestBucket | src/risk-assessment/services/income-risk.service.ts:12-33 | up to 100M for individuals and 500M for entities the result is level 1 without documentation |
| IncomeRisk.DocumentationWithoutRisk | src/risk-assessment/services/income-risk.service.ts:26 | an entity revenue of 1.5B needs documentation while staying at level 1 |
| IncomeRisk.ExpectedAnnualActivity | src/risk-assessment/services/income-risk.service.ts:57-63 | the monthly amount times 72 for legal entities and 48 otherwise |
| IncomeRisk.ActivityRiskLevel | src/risk-assessment/services/income-risk.service.ts:65-70 | the level is 1 up to 5B, 2 above 5B up to 50B, 3 above 50B up to 300B, and 5 above 300B |
| IncomeRisk.ActivityRiskLevelMonotone | src/risk-assessment/services/income-risk.service.ts:65-70 | a larger annual amount never lowers the level |
| OccupationRisk.OccupationConfigs | src/risk-assessment/services/occupation-risk.service.ts:112-128 | the configuration map holds only "politician" |
| OccupationRisk.GetOccupationConfig | src/risk-assessment/services/occupation-risk.service.ts:56-64 | the politician configuration for any letter case of "politician", the default configuration otherwise |
| OccupationRisk.ConfigIgnoresCase | src/risk-assessment/services/occupation-risk.service.ts:59 | occupations equal up to case get the same configuration |
| OccupationRisk.IncomeRiskFactor | src/risk-assessment/services/occupation-risk.service.ts:66-76 | around the fixed average of 50000: 0 for incomes in [0, 100000], 0.5 beyond a deviation of 2, 0.3 in between |
| OccupationRisk.BaseRiskScore | src/risk-assessment/services/occupation-risk.service.ts:78-89 | each base score lies in (0, 1) and is classified back to its own level |
| OccupationRisk.DetermineRiskLevel | src/risk-assessment/services/occupation-risk.service.ts:91-95 | HIGH from 0.7, MEDIUM from 0.4, LOW below |
| OccupationRisk.CalculateOccupationRisk | src/risk-assessment/services/occupation-risk.service.ts:24-54 | the score is the base score of the occupation's level times one plus the income factor, so between the base and 1.5 times the base; its level classifies the score; a politician is always HIGH; an unknown occupation is HIGH exactly when the income deviates by more than 2 averages |
| OccupationRisk.FactorsIgnoreIncome | src/risk-assessment/services/occupation-risk.service.ts:45 | the risk factors depend on the occupation only |
| HighRiskAreas.TableFacts | src/risk-assessment/services/high-risk-areas.service.ts:12-93 | the provinces are distinct and every area is listed under its own province with level 5 |
| HighRiskAreas.IsHighRiskArea | src/risk-assessment/services/high-risk-areas.service.ts:95-101 | false for an unknown province; otherwise true exactly when some listed city of that province equals the city ignoring case |
| HighRiskAreas.GetAreaRiskLevel | src/risk-assessment/services/high-risk-areas.service.ts:103-110 | 5 exactly for a high-risk area, 1 otherwise |
| HighRiskAreas.CityIgnoresCase | src/risk-assessment/services/high-risk-areas.service.ts:98-100 | cities equal up to case get the same answer and level |
| HighRiskAreas.GetAllHighRiskAreas | src/risk-assessment/services/high-risk-areas.service.ts:112-114 | the ten areas of the table laid out province by province in table order, every table area present once, each recognised as high-risk |
| HighRiskAreas.AllAreasRecognised | src/risk-assessment/services/high-risk-areas.service.ts:112-114 | flattening the table gives ten areas, each recognised by the area check |
| RelationshipRisk.AssessRelationshipRisk | src/risk-assessment/services/relationship-risk.service.ts:7-13 | HIGH exactly for foreign individuals, otherwise LOW, never MEDIUM |
| RelationshipRisk.DependsOnlyOnType | src/risk-assessment/services/relationship-risk.service.ts:7-13 | the result depends on the customer type only |
| RiskAggregator.CalculateCustomerRisk | src/risk-assessment/services/risk-calculation-aggregator.service.ts:14-32 | overall LOW with no factors; the relationship component is the relationship rule; every other component is LOW |
| RiskAggregator.IgnoresSourceAndType | src/risk-assessment/services/risk-calculation-aggregator.service.ts:14-18 | the source and assessment-type arguments make no difference |
| RiskAggregator.PepStillLow | src/risk-assessment/services/risk-calculation-aggregator.service.ts:19-31 | a foreign PEP still aggregates to LOW although the activity calculator scores it at least 3 |
| RiskAggregator.MapRiskLevelString | src/risk-assessment/services/risk-calculation-aggregator.service.ts:34-43 | HIGH and MEDIUM exactly for those names in any letter case, LOW for everything else |
| RiskAggregator.MapRiskLevelNameRoundTrip | src/risk-assessment/services/risk-calculation-aggregator.service.ts:34-43 | every tier's name, upper or lower case, maps back to the tier |
| RiskAggregator.CalculatorWeightages | src/risk-assessment/services/geographic-risk.service.ts:91-93 | the three calculators report 0.25, 0.35 and 0.35, which sum to 0.95, not 1 |
| RiskAggregator.CalculatorWeightsFailValidation | src/risk-assessment/services/risk-parameter-config.service.ts:106-128 | three parameters of one category weighted as the three calculators report fail the weight-sum check, naming that category |
| RiskAssessment.AssessCustomer | src/risk-assessment/risk-assessment.service.ts:77-83 | every assessment through the aggregator is LOW |
| RiskAssessment.CountInTier | src/risk-assessment/risk-assessment.service.ts:38-51 | a tier count never exceeds the number of customers |
| RiskAssessment.CountInTierAppend | src/risk-assessment/risk-assessment.service.ts:38-51 | one more customer adds one to its own tier's count only |
| RiskAssessment.SummarizeRisk | src/risk-assessment/risk-assessment.service.ts:23-51 | each count is the number of customers assessed in that tier; the counts add up to the total, and all customers count as LOW |
| RiskAssessment.GetRiskSummary | src/risk-assessment/risk-assessment.service.ts:18-51 | the placeholder query finds no customers, so every count is 0 |
| RiskAssessment.DetermineRequiredDueDiligence | src/risk-assessment/risk-assessment.service.ts:110-119 | Enhanced exactly for "HIGH", Standard exactly for "MEDIUM", Simplified for anything else |
| RiskAssessment.DueDiligenceDistinguishesTiers | src/risk-assessment/risk-assessment.service.ts:110-119 | different tiers require different due diligence |
| RiskAssessment.MapToDetailedRisk | src/risk-assessment/risk-assessment.service.ts:90-108 | the customer's id and PEP status, the components in their renamed places, the time, and due diligence matching the overall tier |
| RiskAssessment.AssessLookedUp | src/risk-assessment/risk-assessment.service.ts:65-75 | not-found exactly when the lookup finds nobody; a found customer gets exactly the mapped detailed view of the aggregator's assessment, so its id and Simplified due diligence |
| RiskAssessment.GetCustomerRiskAssessment | src/risk-assessment/risk-assessment.service.ts:65-88 | always fails with "Customer <id> not found", because the lookup returns null |
| RiskParameters.GetParameter | src/risk-assessment/services/risk-parameter-config.service.ts:38-49 | NotFound exactly when the id is absent; otherwise the stored record |
| RiskParameters.ValidateThresholds | src/risk-assessment/services/risk-parameter-config.service.ts:137-146 | accepted exactly when LOW < MEDIUM < HIGH |
| RiskParameters.ApplyPatch | src/risk-assessment/services/risk-parameter-config.service.ts:72-77 | each field comes from the patch when given, else from the record; lastUpdated is now and updatedBy the caller; an empty patch changes only those two fields |
| RiskParameters.UpdateParameter | src/risk-assessment/services/risk-parameter-config.service.ts:51-87 | succeeds exactly for a present id with an acceptable weight and thresholds; the errors come in the order lookup, weight, thresholds; a rejection returns the store unchanged; on success only key id changes, to the patched record |
| RiskParameters.InitialStoreStaysEmpty | src/risk-assessment/services/risk-parameter-config.service.ts:36-104 | the store starts empty and only a found key is ever written, so from the initial store every lookup and update fails NotFound leaving it empty, and every listing is empty |
| RiskParameters.WeightBoundsAccepted | src/risk-assessment/services/risk-parameter-config.service.ts:60-65 | the weights 0 and 1 are accepted |
| RiskParameters.ListParameters | src/risk-assessment/services/risk-parameter-config.service.ts:89-104 | exactly the stored active parameters, of the category when one is given, each as often as stored and in store order (a subsequence of the store) |
| RiskParameters.CategoryOrder | src/risk-assessment/services/risk-parameter-config.service.ts:109-115 | the grouping keys are exactly the categories present, each once |
| RiskParameters.CategoryOrderAppend | src/risk-assessment/services/risk-parameter-config.service.ts:111-115 | one more parameter appends its category exactly when it is new: map insertion order |
| RiskParameters.ValidateParameters | src/risk-assessment/services/risk-parameter-config.service.ts:106-135 | succeeds exactly when every category present sums to 1 within 0.0001, so empty input succeeds; otherwise names the first failing category in grouping order |
| Documentation.GetRequiredDocuments | src/risk-assessment/services/documentation-requirement.service.ts:92-101 | exactly the catalogue entries whose type and tier lists contain the inputs |
| Documentation.RequiredLegalEntityLow | src/risk-assessment/services/documentation-requirement.service.ts:28-101 | a legal entity at LOW needs company registration only |
| Documentation.RequiredLegalEntityMedium | src/risk-assessment/services/documentation-requirement.service.ts:28-101 | a legal entity at MEDIUM needs company registration, financial statements and beneficial ownership, in catalogue order |
| Documentation.RequiredLegalEntityHigh | src/risk-assessment/services/documentation-requirement.service.ts:28-101 | a legal entity at HIGH needs company registration, financial statements, source of funds and beneficial ownership, in catalogue order |
| Documentation.RequiredIranianIndividualLow | src/risk-assessment/services/documentation-requirement.service.ts:28-101 | an Iranian individual at LOW needs identity verification only |
| Documentation.RequiredIranianIndividualMedium | src/risk-assessment/services/documentation-requirement.service.ts:28-101 | an Iranian individual at MEDIUM needs identity verification and income proof |
| Documentation.RequiredIranianIndividualHigh | src/risk-assessment/services/documentation-requirement.service.ts:28-101 | an Iranian individual at HIGH needs identity verification, income proof and source of funds |
| Documentation.ForeignLikeIranian | src/risk-assessment/services/documentation-requirement.service.ts:28-101 | at every tier a foreign individual needs exactly what an Iranian individual needs |
| Documentation.RequiredIds | src/risk-assessment/services/documentation-requirement.service.ts:28-101 | the required ids for each type and tier; for LEGAL_ENTITY at HIGH: company registration, financial statements, source of funds, beneficial ownership |
| Documentation.AlwaysSomethingRequired | src/risk-assessment/services/documentation-requirement.service.ts:28-47 | every type and tier requires at least one document |
| Documentation.RequirementsNest | src/risk-assessment/services/documentation-requirement.service.ts:28-88 | what LOW requires MEDIUM requires, and what MEDIUM requires HIGH requires |
| Documentation.UploadDocument | src/risk-assessment/services/documentation-requirement.service.ts:103-114 | appends exactly one PENDING document, carrying the upload's fields, with the time as id and upload date |
| Documentation.VerifyDocument | src/risk-assessment/services/documentation-requirement.service.ts:116-133 | false with nothing changed when no document has the id; otherwise only the first match gets the verdict, verifier and time, and its expiry is overwritten, even cleared; the prior status is not checked |
| Documentation.GetCustomerDocuments | src/risk-assessment/services/documentation-requirement.service.ts:135-139 | exactly the customer's documents, each as often as stored, in upload order (a subsequence of the store) |
| Documentation.MissingDocuments | src/risk-assessment/services/documentation-requirement.service.ts:153-161 | a requirement is listed exactly when it is required and none of the customer's documents is approved, for it and unexpired; the list keeps requirement order and multiplicity |
| Documentation.ExpiredDocuments | src/risk-assessment/services/documentation-requirement.service.ts:163-165 | exactly the customer's documents with an expiry at or before now, each as often as stored, in upload order |
| Documentation.CheckDocumentationCompliance | src/risk-assessment/services/documentation-requirement.service.ts:141-172 | a required document is missing exactly when none of the customer's documents for it is approved and unexpired; expired holds the customer's documents with expiry at or before now, whatever their status; both lists keep their source order and multiplicity; compliant exactly when both are empty |
| Documentation.NoDocumentsAllMissing | src/risk-assessment/services/documentation-requirement.service.ts:150-171 | a customer with no documents misses the whole required list and is never compliant |
| Documentation.UploadThenApprove | src/risk-assessment/services/documentation-requirement.service.ts:103-161 | after an upload approved without expiry, its requirement is no longer missing, provided no earlier document shares the new id |
| Monitoring.DetectSuspiciousPatterns | src/risk-assessment/services/real-time-monitoring.service.ts:73-94 | one alert exactly when the amount exceeds 100000, strictly; it is LARGE_TRANSACTION, MEDIUM and carries the customer's id |
| Monitoring.AlertLog | src/risk-assessment/services/real-time-monitoring.service.ts:96-109 | one ALERT_GENERATED entry per alert, in order, with the alert's description |
| Monitoring.CheckRiskEscalation | src/risk-assessment/services/real-time-monitoring.service.ts:111-123 | escalate exactly when at least three alerts are HIGH |
| Monitoring.MonitorCustomerActivity | src/risk-assessment/services/real-time-monitoring.service.ts:31-71 | missing activity data is an error; otherwise one alert exactly for a large amount, each LARGE_TRANSACTION, MEDIUM, for the customer |
| Monitoring.NeverEscalates | src/risk-assessment/services/real-time-monitoring.service.ts:46-61 | only MEDIUM alerts exist, so escalation never fires: the log is exactly one ALERT_GENERATED entry per alert, and empty without alerts |
| Monitoring.AlertMonotoneInAmount | src/risk-assessment/services/real-time-monitoring.service.ts:83 | a larger amount never removes the alert |
| Monitoring.ThresholdIsStrict | src/risk-assessment/services/real-time-monitoring.service.ts:73-94 | exactly 100000 raises nothing; 100000.01 raises the alert |
| Notifications.DetermineSeverity | src/risk-assessment/services/notification.service.ts:93-107 | HIGH exactly for suspicious activity and for a risk-level change of a HIGH customer; LOW exactly for review and compliance alerts; MEDIUM otherwise |
| Notifications.SeverityIgnoresTierExceptLevelChange | src/risk-assessment/services/notification.service.ts:97-106 | only a risk-level change depends on the customer's tier |
| Notifications.NotificationId | src/risk-assessment/services/notification.service.ts:89-91 | ids start with "NOTIF-" and end with the random part |
| Notifications.CreateNotification | src/risk-assessment/services/notification.service.ts:31-56 | stores under its id a notification with the determined severity, the customer's id and no read or acknowledgement; other keys unchanged |
| Notifications.AcknowledgeNotification | src/risk-assessment/services/notification.service.ts:58-75 | an unknown id is an error and changes nothing; otherwise only that notification changes, gaining the time and user and keeping its other fields |
| Notifications.Insert | src/risk-assessment/services/notification.service.ts:86 | inserting into a newest-first list keeps it newest first |
| Notifications.InsertPermutes | src/risk-assessment/services/notification.service.ts:86 | inserting adds exactly the one notification |
| Notifications.SortNewestFirst | src/risk-assessment/services/notification.service.ts:86 | the sorted list is newest first and as long as the input |
| Notifications.SortPermutes | src/risk-assessment/services/notification.service.ts:86 | the sorted list is a permutation of the input |
| Notifications.InsertStable | src/risk-assessment/services/notification.service.ts:86 | an inserted notification goes after those created at the same time |
| Notifications.SortStable | src/risk-assessment/services/notification.service.ts:86 | notifications created at the same time keep their store order, as in a stable sort |
| Notifications.GetCustomerNotifications | src/risk-assessment/services/notification.service.ts:77-87 | newest first, a permutation of the customer's notifications, without the acknowledged ones unless they are asked for |
| Notifications.AcknowledgedLeavesDefaultListing | src/risk-assessment/services/notification.service.ts:58-86 | after acknowledgement a notification leaves the default listing and stays in the inclusive one |
| TransactionReports.ReportId | src/risk-assessment/services/transaction-report.service.ts:113-115 | ids start with "REP-" and end with the random part |
| TransactionReports.CreateReport | src/risk-assessment/services/transaction-report.service.ts:27-54 | stores a DRAFT with empty comments, unsubmitted, with the given details and risk level; other keys unchanged |
| TransactionReports.AddComment | src/risk-assessment/services/transaction-report.service.ts:72-74 | a comment is appended only when given and non-empty |
| TransactionReports.SubmitReport | src/risk-assessment/services/transaction-report.service.ts:56-85 | an unknown id is NotFound and changes nothing; otherwise only that report becomes SUBMITTED with submitter, time and the comment, other fields kept, whatever its prior status |
| TransactionReports.NoOperationDecides | src/risk-assessment/services/transaction-report.service.ts:27-85 | creation gives DRAFT and submission SUBMITTED; neither gives ACCEPTED or REJECTED |
| TransactionReports.CommentsOnlyGrow | src/risk-assessment/services/transaction-report.service.ts:72-74 | submission keeps every earlier comment and adds at most one |
| TransactionReports.GetCustomerReports | src/risk-assessment/services/transaction-report.service.ts:87-111 | exactly the customer's stored reports whose date lies within the inclusive period (all of them without dates), each as often as stored and in store order |
| TransactionReports.DraftDatedNow | src/risk-assessment/services/transaction-report.service.ts:97-100 | an unsubmitted report is dated now, so it is listed exactly when now is within the bounds |
| Users.AllPermissionsComplete | src/risk-assessment/services/user-management.service.ts:27 | the enum's value list holds every permission |
| Users.DefaultPermissions | src/risk-assessment/services/user-management.service.ts:154-200 | ADMIN gets every permission in declaration order |
| Users.DefaultPermissionsNest | src/risk-assessment/services/user-management.service.ts:154-200 | AUDITOR within COMPLIANCE_OFFICER within RISK_OFFICER within ADMIN, and RELATIONSHIP_MANAGER within ADMIN |
| Users.OnlyAdminAdministers | src/risk-assessment/services/user-management.service.ts:154-200 | MANAGE_USERS, MANAGE_RISK_PARAMETERS, MANAGE_SYSTEM_CONFIG and OVERRIDE_RISK_RATING are default exactly for ADMIN |
| Users.InitialUsers | src/risk-assessment/services/user-management.service.ts:20-34 | the store starts with user "1", the active admin holding every permission |
| Users.CreateUser | src/risk-assessment/services/user-management.service.ts:36-60 | a new active user with the role's default permissions, keyed by the time, logged as USER_CREATED; other keys unchanged |
| Users.CreateUserIgnoresPermissions | src/risk-assessment/services/user-management.service.ts:42 | supplied permissions make no difference |
| Users.ApplyUserPatch | src/risk-assessment/services/user-management.service.ts:72-76 | each field comes from the patch when given, else from the user; updatedAt is now |
| Users.UpdateUser | src/risk-assessment/services/user-management.service.ts:62-89 | an unknown id fails and changes nothing; otherwise only that user changes, to the patched record, logged as USER_UPDATED |
| Users.RoleChangeKeepsPermissions | src/risk-assessment/services/user-management.service.ts:72-76 | changing the role by an update keeps the old permissions |
| Users.DeactivateSessions | src/risk-assessment/services/user-management.service.ts:202-208 | every session of the user becomes inactive in place; other sessions are unchanged |
| Users.DeactivateUser | src/risk-assessment/services/user-management.service.ts:91-110 | an unknown id fails and changes nothing; otherwise the user becomes inactive with the time, only that user changes, and all its sessions are deactivated; both stores keep their keys distinct |
| Users.DeactivationEndsOwnSessionsOnly | src/risk-assessment/services/user-management.service.ts:91-110 | after deactivation each of the user's sessions is inactive and every other session is as it was |
| Users.CreateSession | src/risk-assessment/services/user-management.service.ts:112-134 | fails exactly for an unknown or inactive user, changing nothing; otherwise stores one active session for that user keyed by the time; the session store keeps its keys distinct |
| Users.ValidatePermission | src/risk-assessment/services/user-management.service.ts:136-152 | true exactly when user and session exist and are active and the user holds the permission; the session's owner is not checked |
| Users.DeactivatedUserHasNoPermission | src/risk-assessment/services/user-management.service.ts:91-152 | after deactivation the user passes no permission check through any session |
| Users.InvalidateSession | src/risk-assessment/services/user-management.service.ts:214-220 | an unknown id changes nothing; otherwise only that session becomes inactive |
| Users.AdminSessionGrantsEverything | src/risk-assessment/services/user-management.service.ts:20-152 | a fresh session of the initial admin grants every permission, and none once invalidated |
| Reporting.CeilDiv | src/risk-assessment/services/reporting.service.ts:157-159 | the ceiling of the quotient |
| Reporting.DaysSpanned | src/risk-assessment/services/reporting.service.ts:156-161 | at most 366 days exactly when the span is at most 366 times 86400000 ms |
| Reporting.ValidateDateRange | src/risk-assessment/services/reporting.service.ts:147-164 | accepted exactly when both dates are present and 0 < end − start ≤ 366 days; missing dates, start ≥ end and a span over 366 days each give their own error |
| Reporting.GeneratedReportId | src/risk-assessment/services/reporting.service.ts:166-170 | the id starts with the type and a dash, the type is the text before the first dash, and the random part ends it |
| Reporting.ReportKindsDistinct | src/risk-assessment/services/reporting.service.ts:166-170 | a risk report id never equals a compliance report id |
| Reporting.GenerateRiskReport | src/risk-assessment/services/reporting.service.ts:61-104 | fails exactly when the range is invalid; otherwise echoes the period and generatedBy, carries a RISK report id for the time, and 600 + 300 + 100 equals the 1000 customers |
| Reporting.GenerateComplianceReport | src/risk-assessment/services/reporting.service.ts:106-145 | fails exactly when the range is invalid; otherwise echoes the period and generatedBy, carries a COMPLIANCE report id for the time; 950 + 50 equals the 1000 checks, and the rate is 950/1000 |
| Reporting.QuarterAccepted | src/risk-assessment/services/reporting.service.spec.ts:17-44 | 2024-01-01 to 2024-03-31 is accepted and the reverse refused as start not before end |
| Reporting.ThirteenMonthsRejected | src/risk-assessment/services/reporting.service.spec.ts:66-74 | 2024-01-01 to 2025-02-01 spans 397 days and is refused |
| Reporting.LeapYearIsTheLimit | src/risk-assessment/services/reporting.service.ts:156-163 | exactly 366 days is accepted; one millisecond more is refused |
| Sanctions.CheckSanctions | src/risk-assessment/services/sanctions-list.service.ts:16-28 | none exactly when no entity has the type and a name equal up to case; otherwise the first such entity in list order |
| Sanctions.AddToSanctionsList | src/risk-assessment/services/sanctions-list.service.ts:30-40 | appends one entity with the given fields and the time as id and date; the list before it is kept |
| Sanctions.AddedIsFound | src/risk-assessment/services/sanctions-list.service.ts:16-40 | after adding, the name in any letter case with the type is found, and an earlier match still comes first |

## Left out

- Controllers, middleware, guards, decorators and module wiring are HTTP plumbing and are not modelled.
  So are the external-system integration mock, the console-only audit-log and transaction-monitoring
  services, and the cron-driven scheduled assessment.
- Floating point: amounts, weights and scores are exact reals. A weight sum that floating-point addition
  would put just outside the 0.0001 tolerance, or a score rounded differently in binary, is not modelled.
- RiskAssessment.SummarizeRisk: the percentages of the risk summary (floating-point division) are left out; the counts are modelled.
- Logger calls and the `lastActivityTime` update that `validatePermission` makes to the session are left out.
  That update changes no answer of any operation.
- Clock readings and random id parts are parameters. Two operations in the same millisecond produce the
  same id. The model keeps that collision: a document upload, session or user created in the same
  millisecond as an earlier one shares its id, and `set` then overwrites.
- Text.ToLower: only the ASCII letters are case-folded, not full Unicode case mapping.
- The display name and description of each documentation requirement are a lookup by id (`Documentation.Display`), not fields of the requirement record. No operation reads them.
- Untyped payloads (`any`) keep only the fields the code reads. For monitoring that is the `amount`, absent
  or numeric; non-numeric amounts are not modelled. Notification metadata is a list of string pairs.
- Users.CreateUser: the input has the shape of the create-user request, so the role is always present.
  The `default` branch of the role switch, which returns no permissions for an undefined role, is therefore not reachable.
- The `IncomeThreshold` fallback to the last table entry is not modelled as a separate branch. The last
  threshold is unbounded, so the fallback is never taken (IncomeRisk.BucketFound).
- RiskParameters.ApplyPatch: a patch field present with the value `null` is not modelled. The object
  spread would store that `null` over the field, and `UpdateParameter`'s checks let a `null` weight or
  `null` thresholds through. The patch has only two states per field, absent or a value, because the
  stored record's fields are not nullable.
- Users.ApplyUserPatch: the same. A user patch field sent as `null` would overwrite the stored field;
  the model treats a field as either absent or a value.
- The aggregator is a stub: it returns LOW with no factors and does not combine the calculators' scores
  or weights (RiskAggregator.CalculatorWeightsFailValidation shows those weights would not even pass
  the parameter check).
- The relationship rule looks only at the customer type; no further relationship metrics are computed.
- The `logAction` calls in monitoring and user management pass their arguments in a different order from
  the audit-log service's parameter names. They are modelled by position, as passed.

=== FILE: activity_risk.dfy ===
/**
 * Activity risk: a 1..5 score from the customer type, a high-risk occupation or business
 * activity, and politically-exposed-person status.
 */
module ActivityRisk {
  import opened Wrappers
  import opened Customers
  import opened Scoring

  const HighRiskOccupations: seq<string> := ["Money Exchange", "Jewelry Trading", "Real Estate", "Car Dealer"]

  const HighRiskActivities: seq<string> := ["Cryptocurrency", "International Trade", "Precious Metals"]

  /** `getWeightage`: the share of this score in an overall score, a fraction strictly between 0 and 1. */
  function Weightage(): (r: real)
    ensures 0.0 < r < 1.0
  {
    0.35
  }

  /** Base points by customer type. */
  function BasePoints(t: CustomerType): (r: nat)
    ensures 1 <= r <= 3
    ensures r == 3 <==> t == FOREIGN_INDIVIDUAL
    ensures r == 1 <==> t == IRANIAN_INDIVIDUAL
  {
    match t
    case FOREIGN_INDIVIDUAL => 3
    case LEGAL_ENTITY => 2
    case IRANIAN_INDIVIDUAL => 1
  }

  /** `list.includes(value)` for an optional field: `undefined` is never on a list of strings. */
  predicate Listed(value: Option<string>, list: seq<string>) {
    value.Some? && value.value in list
  }

  /**
   * Whether the customer's line of work is on the high-risk list: a legal entity is judged
   * only by its activity type, an individual only by occupation.
   */
  function OnHighRiskList(c: Customer): (r: bool)
    ensures c.customerType == LEGAL_ENTITY ==> (r <==> Listed(c.activityType, HighRiskActivities))
    ensures c.customerType != LEGAL_ENTITY ==> (r <==> Listed(c.occupation, HighRiskOccupations))
    ensures c.customerType == LEGAL_ENTITY && c.activityType.None? ==> !r
    ensures c.customerType != LEGAL_ENTITY && c.occupation.None? ==> !r
  {
    if c.customerType == LEGAL_ENTITY then Listed(c.activityType, HighRiskActivities)
    else Listed(c.occupation, HighRiskOccupations)
  }

  /** The raw total: base, plus 3 for a listed line of work, plus 4 for a PEP. */
  function RawScore(c: Customer): (r: nat)
    ensures 1 <= r <= 10
    ensures c.isPEP ==> r >= 5
    ensures !c.isPEP && !OnHighRiskList(c) ==> r == BasePoints(c.customerType)
  {
    BasePoints(c.customerType) + (if OnHighRiskList(c) then 3 else 0) + (if c.isPEP then 4 else 0)
  }

  /** `calculateRisk`: the raw total halved, rounded half up, clamped to 1..5. */
  function CalculateRisk(c: Customer): (r: int)
    ensures 1 <= r <= 5
    ensures c.isPEP ==> r >= 3
    ensures r == 1 <==> RawScore(c) <= 2
    ensures r == 5 <==> RawScore(c) >= 9
    ensures r == 2 <==> 3 <= RawScore(c) <= 4
    ensures r == 3 <==> 5 <= RawScore(c) <= 6
    ensures r == 4 <==> 7 <= RawScore(c) <= 8
    ensures 4 * r <= 2 * RawScore(c) + 2 < 4 * r + 4
  {
    Clamp(RoundDiv(RawScore(c), 2), 1, 5)
  }

  /** Normalisation is monotone: a larger raw total never scores lower. */
  lemma NormaliseMonotone(c: Customer, d: Customer)
    requires RawScore(c) <= RawScore(d)
    ensures CalculateRisk(c) <= CalculateRisk(d)
  {
  }

  /** Turning on the PEP flag never lowers the score, and raises the raw total by exactly 4. */
  lemma PepNeverLowers(c: Customer)
    requires !c.isPEP
    ensures RawScore(c.(isPEP := true)) == RawScore(c) + 4
    ensures CalculateRisk(c.(isPEP := true)) >= CalculateRisk(c)
  {
    NormaliseMonotone(c, c.(isPEP := true));
  }

  /** Gaining a high-risk list match, all else equal, never lowers the score. */
  lemma ListMatchNeverLowers(c: Customer, d: Customer)
    requires c.customerType == d.customerType && c.isPEP == d.isPEP
    requires !OnHighRiskList(c) && OnHighRiskList(d)
    ensures RawScore(d) == RawScore(c) + 3
    ensures CalculateRisk(c) <= CalculateRisk(d)
  {
    NormaliseMonotone(c, d);
  }

  /** The two extremes: a plain domestic individual scores 1, a money-changing foreign PEP scores 5. */
  lemma ScoreExtremes(c: Customer, d: Customer)
    requires c.customerType == IRANIAN_INDIVIDUAL && !c.isPEP && !Listed(c.occupation, HighRiskOccupations)
    requires d.customerType == FOREIGN_INDIVIDUAL && d.isPEP && d.occupation == Some("Money Exchange")
    ensures CalculateRisk(c) == 1
    ensures CalculateRisk(d) == 5
  {
    assert HighRiskOccupations[0] == "Money Exchange";
  }
}

=== FILE: customers.dfy ===
/** The customer record and the enumerations shared by every service. */
module Customers {
  import opened Wrappers

  datatype CustomerType = IRANIAN_INDIVIDUAL | FOREIGN_INDIVIDUAL | LEGAL_ENTITY

  /** The risk tier; also the `'LOW' | 'MEDIUM' | 'HIGH'` severity of alerts and notifications. */
  datatype RiskLevel = LOW | MEDIUM | HIGH {
    /** The enum's string value. */
    function Name(): string {
      match this
      case LOW => "LOW"
      case MEDIUM => "MEDIUM"
      case HIGH => "HIGH"
    }
  }

  /** A customer snapshot. Money amounts are exact reals; optional fields are `Option`s. */
  datatype Customer = Customer(
    id: int,
    customerType: CustomerType,
    name: Option<string>,
    companyName: Option<string>,
    identityUniqueId: string,
    nationality: string,
    birthPlace: string,
    legalResidence: string,
    occupation: Option<string>,
    isPEP: bool,
    activityType: Option<string>,
    monthlyIncome: real,
    riskLevel: RiskLevel)
}

=== FILE: documentation.dfy ===
/**
 * Documentation requirements: the catalogue of documents each customer type must provide at each
 * risk tier, the store of uploaded documents and their verification, and the compliance check.
 */
module Documentation {
  import opened Wrappers
  import opened Seqs
  import opened Customers
  import Text

  /**
   * A catalogue entry. Its display name and description are looked up from the id by `Display`
   * rather than stored here, so that proofs about the catalogue need not carry the long texts.
   */
  datatype DocumentRequirement = DocumentRequirement(
    id: string,
    mandatory: bool,
    applicableCustomerTypes: seq<CustomerType>,
    applicableRiskLevels: seq<RiskLevel>)

  datatype DocumentStatus = PENDING | APPROVED | REJECTED

  /** An uploaded document; dates are milliseconds since the epoch. */
  datatype CustomerDocument = CustomerDocument(
    id: string,
    customerId: string,
    requirementId: string,
    documentUrl: string,
    status: DocumentStatus,
    uploadDate: int,
    verificationDate: Option<int>,
    verifiedBy: Option<string>,
    expiryDate: Option<int>)

  /** What an upload supplies: a document without `id`, `status` and `uploadDate`. */
  datatype DocumentUpload = DocumentUpload(
    customerId: string,
    requirementId: string,
    documentUrl: string,
    verificationDate: Option<int>,
    verifiedBy: Option<string>,
    expiryDate: Option<int>)

  datatype ComplianceResult = ComplianceResult(
    compliant: bool,
    missingDocuments: seq<DocumentRequirement>,
    expiredDocuments: seq<CustomerDocument>)

  const Individuals: seq<CustomerType> := [IRANIAN_INDIVIDUAL, FOREIGN_INDIVIDUAL]

  const IdVerification := DocumentRequirement("ID_VERIFICATION", true, Individuals, [LOW, MEDIUM, HIGH])
  const CompanyRegistration := DocumentRequirement("COMPANY_REGISTRATION", true, [LEGAL_ENTITY], [LOW, MEDIUM, HIGH])
  const IncomeProof := DocumentRequirement("INCOME_PROOF", true, Individuals, [MEDIUM, HIGH])
  const FinancialStatements := DocumentRequirement("FINANCIAL_STATEMENTS", true, [LEGAL_ENTITY], [MEDIUM, HIGH])
  const SourceOfFunds := DocumentRequirement("SOURCE_OF_FUNDS", true,
    [IRANIAN_INDIVIDUAL, FOREIGN_INDIVIDUAL, LEGAL_ENTITY], [HIGH])
  const BeneficialOwnership := DocumentRequirement("BENEFICIAL_OWNERSHIP", true, [LEGAL_ENTITY], [MEDIUM, HIGH])

  /** The name and description the catalogue gives each requirement, by id. */
  function Display(id: string): (string, string) {
    match id
    case "ID_VERIFICATION" => ("Identity Verification", "Official government-issued ID document")
    case "COMPANY_REGISTRATION" =>
      ("Company Registration Documents", "Official company registration and establishment documents")
    case "INCOME_PROOF" =>
      ("Income Verification", "Documents proving declared income (tax returns, salary slips)")
    case "FINANCIAL_STATEMENTS" => ("Financial Statements", "Audited financial statements for the last fiscal year")
    case "SOURCE_OF_FUNDS" => ("Source of Funds Documentation", "Documentation proving the origin of funds")
    case "BENEFICIAL_OWNERSHIP" =>
      ("Beneficial Ownership Declaration", "Declaration and documentation of beneficial owners")
    case _ => ("", "")
  }

  /** The six requirements, in catalogue order. */
  const Catalogue: seq<DocumentRequirement> :=
    [IdVerification, CompanyRegistration, IncomeProof, FinancialStatements, SourceOfFunds, BeneficialOwnership]

  predicate Applies(req: DocumentRequirement, customerType: CustomerType, level: RiskLevel) {
    customerType in req.applicableCustomerTypes && level in req.applicableRiskLevels
  }

  /** `getRequiredDocuments`: the catalogue entries that apply to the type and the tier, in catalogue order. */
  function GetRequiredDocuments(customerType: CustomerType, level: RiskLevel): (r: seq<DocumentRequirement>)
    ensures forall i :: 0 <= i < |r| ==> r[i] in Catalogue && Applies(r[i], customerType, level)
    ensures forall req :: req in Catalogue && Applies(req, customerType, level) ==> req in r
  {
    Filter(Catalogue, (req: DocumentRequirement) => Applies(req, customerType, level))
  }

  function Ids(reqs: seq<DocumentRequirement>): (r: seq<string>)
    ensures |r| == |reqs| && forall i :: 0 <= i < |r| ==> r[i] == reqs[i].id
  {
    seq(|reqs|, i requires 0 <= i < |reqs| => reqs[i].id)
  }

  /** The ids the catalogue requires of one customer type at one tier. */
  function ExpectedIds(customerType: CustomerType, level: RiskLevel): seq<string> {
    if customerType == LEGAL_ENTITY then
      match level
      case LOW => ["COMPANY_REGISTRATION"]
      case MEDIUM => ["COMPANY_REGISTRATION", "FINANCIAL_STATEMENTS", "BENEFICIAL_OWNERSHIP"]
      case HIGH => ["COMPANY_REGISTRATION", "FINANCIAL_STATEMENTS", "SOURCE_OF_FUNDS", "BENEFICIAL_OWNERSHIP"]
    else
      match level
      case LOW => ["ID_VERIFICATION"]
      case MEDIUM => ["ID_VERIFICATION", "INCOME_PROOF"]
      case HIGH => ["ID_VERIFICATION", "INCOME_PROOF", "SOURCE_OF_FUNDS"]
  }

  /** One step of a filter from position `i` on. */
  lemma FilterFrom<T>(s: seq<T>, p: T -> bool, i: nat)
    requires i < |s|
    ensures Filter(s[i..], p) == (if p(s[i]) then [s[i]] else []) + Filter(s[i + 1..], p)
  {
    assert s[i..][1..] == s[i + 1..];
  }

  /** The entries of `reqs` from position `i` on that apply to the type and the tier. */
  function ApplicableFrom(reqs: seq<DocumentRequirement>, i: nat, customerType: CustomerType, level: RiskLevel)
    : seq<DocumentRequirement>
    decreases |reqs| - i
  {
    if i >= |reqs| then []
    else
      var kept := if Applies(reqs[i], customerType, level) then [reqs[i]] else [];
      kept + ApplicableFrom(reqs, i + 1, customerType, level)
  }

  /** Filtering `reqs` from position `i` on is `ApplicableFrom(reqs, i, ...)`. */
  lemma {:induction false} FilterIsApplicableFrom(
    reqs: seq<DocumentRequirement>, i: nat, customerType: CustomerType, level: RiskLevel)
    requires i <= |reqs|
    ensures Filter(reqs[i..], (req: DocumentRequirement) => Applies(req, customerType, level))
      == ApplicableFrom(reqs, i, customerType, level)
    decreases |reqs| - i
  {
    if i < |reqs| {
      var p := (req: DocumentRequirement) => Applies(req, customerType, level);
      FilterFrom(reqs, p, i);
      FilterIsApplicableFrom(reqs, i + 1, customerType, level);
    }
  }

  /** `getRequiredDocuments` is the catalogue walk from the first entry. */
  lemma RequiredIsApplicable(customerType: CustomerType, level: RiskLevel)
    ensures GetRequiredDocuments(customerType, level) == ApplicableFrom(Catalogue, 0, customerType, level)
  {
    FilterIsApplicableFrom(Catalogue, 0, customerType, level);
    assert Catalogue[0..] == Catalogue;
  }

  /** The requirements of a legal entity at tier LOW. */
  lemma RequiredLegalEntityLow()
    ensures GetRequiredDocuments(LEGAL_ENTITY, LOW) == [CompanyRegistration]
  {
    assert !Applies(IdVerification, LEGAL_ENTITY, LOW);
    assert Applies(CompanyRegistration, LEGAL_ENTITY, LOW);
    assert !Applies(IncomeProof, LEGAL_ENTITY, LOW);
    assert !Applies(FinancialStatements, LEGAL_ENTITY, LOW);
    assert !Applies(SourceOfFunds, LEGAL_ENTITY, LOW);
    assert !Applies(BeneficialOwnership, LEGAL_ENTITY, LOW);
    assert ApplicableFrom(Catalogue, 5, LEGAL_ENTITY, LOW) == [];
    assert ApplicableFrom(Catalogue, 4, LEGAL_ENTITY, LOW) == [];
    assert ApplicableFrom(Catalogue, 3, LEGAL_ENTITY, LOW) == [];
    assert ApplicableFrom(Catalogue, 2, LEGAL_ENTITY, LOW) == [];
    assert ApplicableFrom(Catalogue, 1, LEGAL_ENTITY, LOW) == [CompanyRegistration];
    RequiredIsApplicable(LEGAL_ENTITY, LOW);
  }

  /** The requirements of a legal entity at tier MEDIUM. */
  lemma RequiredLegalEntityMedium()
    ensures GetRequiredDocuments(LEGAL_ENTITY, MEDIUM) == [CompanyRegistration, FinancialStatements, BeneficialOwnership]
  {
    assert !Applies(IdVerification, LEGAL_ENTITY, MEDIUM);
    assert Applies(CompanyRegistration, LEGAL_ENTITY, MEDIUM);
    assert !Applies(IncomeProof, LEGAL_ENTITY, MEDIUM);
    assert Applies(FinancialStatements, LEGAL_ENTITY, MEDIUM);
    assert !Applies(SourceOfFunds, LEGAL_ENTITY, MEDIUM);
    assert Applies(BeneficialOwnership, LEGAL_ENTITY, MEDIUM);
    assert ApplicableFrom(Catalogue, 5, LEGAL_ENTITY, MEDIUM) == [BeneficialOwnership];
    assert ApplicableFrom(Catalogue, 4, LEGAL_ENTITY, MEDIUM) == [BeneficialOwnership];
    assert ApplicableFrom(Catalogue, 3, LEGAL_ENTITY, MEDIUM) == [FinancialStatements, BeneficialOwnership];
    assert ApplicableFrom(Catalogue, 2, LEGAL_ENTITY, MEDIUM) == [FinancialStatements, BeneficialOwnership];
    assert ApplicableFrom(Catalogue, 1, LEGAL_ENTITY, MEDIUM) == [CompanyRegistration, FinancialStatements, BeneficialOwnership];
    RequiredIsApplicable(LEGAL_ENTITY, MEDIUM);
  }

  /** The requirements of a legal entity at tier HIGH. */
  lemma RequiredLegalEntityHigh()
    ensures GetRequiredDocuments(LEGAL_ENTITY, HIGH) == [CompanyRegistration, FinancialStatements, SourceOfFunds, BeneficialOwnership]
  {
    assert !Applies(IdVerification, LEGAL_ENTITY, HIGH);
    assert Applies(CompanyRegistration, LEGAL_ENTITY, HIGH);
    assert !Applies(IncomeProof, LEGAL_ENTITY, HIGH);
    assert Applies(FinancialStatements, LEGAL_ENTITY, HIGH);
    assert Applies(SourceOfFunds, LEGAL_ENTITY, HIGH);
    assert Applies(BeneficialOwnership, LEGAL_ENTITY, HIGH);
    assert ApplicableFrom(Catalogue, 5, LEGAL_ENTITY, HIGH) == [BeneficialOwnership];
    assert ApplicableFrom(Catalogue, 4, LEGAL_ENTITY, HIGH) == [SourceOfFunds, BeneficialOwnership];
    assert ApplicableFrom(Catalogue, 3, LEGAL_ENTITY, HIGH) == [FinancialStatements, SourceOfFunds, BeneficialOwnership];
    assert ApplicableFrom(Catalogue, 2, LEGAL_ENTITY, HIGH) == [FinancialStatements, SourceOfFunds, BeneficialOwnership];
    assert ApplicableFrom(Catalogue, 1, LEGAL_ENTITY, HIGH) == [CompanyRegistration, FinancialStatements, SourceOfFunds, BeneficialOwnership];
    RequiredIsApplicable(LEGAL_ENTITY, HIGH);
  }

  /** The requirements of an Iranian individual at tier LOW. */
  lemma RequiredIranianIndividualLow()
    ensures GetRequiredDocuments(IRANIAN_INDIVIDUAL, LOW) == [IdVerification]
  {
    assert Applies(IdVerification, IRANIAN_INDIVIDUAL, LOW);
    assert !Applies(CompanyRegistration, IRANIAN_INDIVIDUAL, LOW);
    assert !Applies(IncomeProof, IRANIAN_INDIVIDUAL, LOW);
    assert !Applies(FinancialStatements, IRANIAN_INDIVIDUAL, LOW);
    assert !Applies(SourceOfFunds, IRANIAN_INDIVIDUAL, LOW);
    assert !Applies(BeneficialOwnership, IRANIAN_INDIVIDUAL, LOW);
    assert ApplicableFrom(Catalogue, 5, IRANIAN_INDIVIDUAL, LOW) == [];
    assert ApplicableFrom(Catalogue, 4, IRANIAN_INDIVIDUAL, LOW) == [];
    assert ApplicableFrom(Catalogue, 3, IRANIAN_INDIVIDUAL, LOW) == [];
    assert ApplicableFrom(Catalogue, 2, IRANIAN_INDIVIDUAL, LOW) == [];
    assert ApplicableFrom(Catalogue, 1, IRANIAN_INDIVIDUAL, LOW) == [];
    RequiredIsApplicable(IRANIAN_INDIVIDUAL, LOW);
  }

  /** The requirements of an Iranian individual at tier MEDIUM. */
  lemma RequiredIranianIndividualMedium()
    ensures GetRequiredDocuments(IRANIAN_INDIVIDUAL, MEDIUM) == [IdVerification, IncomeProof]
  {
    assert Applies(IdVerification, IRANIAN_INDIVIDUAL, MEDIUM);
    assert !Applies(CompanyRegistration, IRANIAN_INDIVIDUAL, MEDIUM);
    assert Applies(IncomeProof, IRANIAN_INDIVIDUAL, MEDIUM);
    assert !Applies(FinancialStatements, IRANIAN_INDIVIDUAL, MEDIUM);
    assert !Applies(SourceOfFunds, IRANIAN_INDIVIDUAL, MEDIUM);
    assert !Applies(BeneficialOwnership, IRANIAN_INDIVIDUAL, MEDIUM);
    assert ApplicableFrom(Catalogue, 5, IRANIAN_INDIVIDUAL, MEDIUM) == [];
    assert ApplicableFrom(Catalogue, 4, IRANIAN_INDIVIDUAL, MEDIUM) == [];
    assert ApplicableFrom(Catalogue, 3, IRANIAN_INDIVIDUAL, MEDIUM) == [];
    assert ApplicableFrom(Catalogue, 2, IRANIAN_INDIVIDUAL, MEDIUM) == [IncomeProof];
    assert ApplicableFrom(Catalogue, 1, IRANIAN_INDIVIDUAL, MEDIUM) == [IncomeProof];
    RequiredIsApplicable(IRANIAN_INDIVIDUAL, MEDIUM);
  }

  /** The requirements of an Iranian individual at tier HIGH. */
  lemma RequiredIranianIndividualHigh()
    ensures GetRequiredDocuments(IRANIAN_INDIVIDUAL, HIGH) == [IdVerification, IncomeProof, SourceOfFunds]
  {
    assert Applies(IdVerification, IRANIAN_INDIVIDUAL, HIGH);
    assert !Applies(CompanyRegistration, IRANIAN_INDIVIDUAL, HIGH);
    assert Applies(IncomeProof, IRANIAN_INDIVIDUAL, HIGH);
    assert !Applies(FinancialStatements, IRANIAN_INDIVIDUAL, HIGH);
    assert Applies(SourceOfFunds, IRANIAN_INDIVIDUAL, HIGH);
    assert !Applies(BeneficialOwnership, IRANIAN_INDIVIDUAL, HIGH);
    assert ApplicableFrom(Catalogue, 5, IRANIAN_INDIVIDUAL, HIGH) == [];
    assert ApplicableFrom(Catalogue, 4, IRANIAN_INDIVIDUAL, HIGH) == [SourceOfFunds];
    assert ApplicableFrom(Catalogue, 3, IRANIAN_INDIVIDUAL, HIGH) == [SourceOfFunds];
    assert ApplicableFrom(Catalogue, 2, IRANIAN_INDIVIDUAL, HIGH) == [IncomeProof, SourceOfFunds];
    assert ApplicableFrom(Catalogue, 1, IRANIAN_INDIVIDUAL, HIGH) == [IncomeProof, SourceOfFunds];
    RequiredIsApplicable(IRANIAN_INDIVIDUAL, HIGH);
  }

  /** Foreign individuals need exactly what Iranian individuals need. */
  lemma ForeignLikeIranian(level: RiskLevel)
    ensures GetRequiredDocuments(FOREIGN_INDIVIDUAL, level) == GetRequiredDocuments(IRANIAN_INDIVIDUAL, level)
  {
    forall i | 0 <= i < |Catalogue|
      ensures Applies(Catalogue[i], FOREIGN_INDIVIDUAL, level) == Applies(Catalogue[i], IRANIAN_INDIVIDUAL, level)
    {
    }
    FilterAgree(Catalogue, (req: DocumentRequirement) => Applies(req, FOREIGN_INDIVIDUAL, level),
      (req: DocumentRequirement) => Applies(req, IRANIAN_INDIVIDUAL, level));
  }

  /** The requirement ids of every type and tier, as the catalogue defines them. */
  lemma RequiredIds(customerType: CustomerType, level: RiskLevel)
    ensures Ids(GetRequiredDocuments(customerType, level)) == ExpectedIds(customerType, level)
  {
    if customerType == LEGAL_ENTITY {
      match level
      case LOW => RequiredLegalEntityLow();
      case MEDIUM => RequiredLegalEntityMedium();
      case HIGH => RequiredLegalEntityHigh();
    } else {
      ForeignLikeIranian(level);
      match level
      case LOW => RequiredIranianIndividualLow();
      case MEDIUM => RequiredIranianIndividualMedium();
      case HIGH => RequiredIranianIndividualHigh();
    }
  }

  /** Every type and tier requires at least one document. */
  lemma AlwaysSomethingRequired(customerType: CustomerType, level: RiskLevel)
    ensures |GetRequiredDocuments(customerType, level)| >= 1
  {
    RequiredIds(customerType, level);
  }

  /** Requirements only accumulate as the tier rises: LOW within MEDIUM within HIGH. */
  lemma RequirementsNest(customerType: CustomerType)
    ensures forall req :: req in GetRequiredDocuments(customerType, LOW) ==> req in GetRequiredDocuments(customerType, MEDIUM)
    ensures forall req :: req in GetRequiredDocuments(customerType, MEDIUM) ==> req in GetRequiredDocuments(customerType, HIGH)
  {
    forall req | req in Catalogue
      ensures LOW in req.applicableRiskLevels ==> MEDIUM in req.applicableRiskLevels
      ensures MEDIUM in req.applicableRiskLevels ==> HIGH in req.applicableRiskLevels
    {
    }
  }

  /** The customer's documents with an expiry date on or before `now`. */
  predicate Expired(doc: CustomerDocument, now: int) {
    doc.expiryDate.Some? && doc.expiryDate.value <= now
  }

  /** A document satisfies a requirement when it is for it, approved, and unexpired or without expiry. */
  predicate Satisfies(doc: CustomerDocument, req: DocumentRequirement, now: int) {
    doc.requirementId == req.id && doc.status == APPROVED && (doc.expiryDate.None? || doc.expiryDate.value > now)
  }

  /** `uploadDocument`: appends a PENDING document whose id is the upload time's decimal string. */
  function UploadDocument(store: seq<CustomerDocument>, upload: DocumentUpload, now: int)
    : (r: (seq<CustomerDocument>, CustomerDocument))
    ensures r.0 == store + [r.1]
    ensures r.1.status == PENDING && r.1.uploadDate == now && r.1.id == Text.IntToString(now)
    ensures r.1.customerId == upload.customerId && r.1.requirementId == upload.requirementId
    ensures r.1.documentUrl == upload.documentUrl && r.1.expiryDate == upload.expiryDate
    ensures r.1.verificationDate == upload.verificationDate && r.1.verifiedBy == upload.verifiedBy
  {
    var doc := CustomerDocument(Text.IntToString(now), upload.customerId, upload.requirementId, upload.documentUrl,
      PENDING, now, upload.verificationDate, upload.verifiedBy, upload.expiryDate);
    (store + [doc], doc)
  }

  predicate HasId(doc: CustomerDocument, documentId: string) {
    doc.id == documentId
  }

  /**
   * `after` is `store` with the verdict written into document `k`, the first one with the id, and
   * nothing else changed.
   */
  predicate VerifiedAt(store: seq<CustomerDocument>, after: seq<CustomerDocument>, k: int, documentId: string,
                       status: DocumentStatus, verifiedBy: string, expiryDate: Option<int>, now: int) {
    && 0 <= k < |store| == |after|
    && store[k].id == documentId
    && (forall j :: 0 <= j < k ==> store[j].id != documentId)
    && after[k] == store[k].(status := status, verificationDate := Some(now),
                             verifiedBy := Some(verifiedBy), expiryDate := expiryDate)
    && (forall j :: 0 <= j < |store| && j != k ==> after[j] == store[j])
  }

  /**
   * `verifyDocument`: the first document with the id gets the verdict, the verifier, the time and
   * the given expiry (an absent expiry clears the old one); false when no document has the id.
   */
  function VerifyDocument(store: seq<CustomerDocument>, documentId: string, status: DocumentStatus,
                          verifiedBy: string, expiryDate: Option<int>, now: int)
    : (r: (seq<CustomerDocument>, bool))
    requires status != PENDING
    ensures r.1 <==> exists i :: 0 <= i < |store| && store[i].id == documentId
    ensures !r.1 ==> r.0 == store
    ensures |r.0| == |store|
    ensures r.1 ==> exists k :: VerifiedAt(store, r.0, k, documentId, status, verifiedBy, expiryDate, now)
  {
    var k := FirstIndex(store, (doc: CustomerDocument) => HasId(doc, documentId));
    if k == |store| then (store, false)
    else
      var doc := store[k].(status := status, verificationDate := Some(now),
                           verifiedBy := Some(verifiedBy), expiryDate := expiryDate);
      assert VerifiedAt(store, store[k := doc], k, documentId, status, verifiedBy, expiryDate, now);
      (store[k := doc], true)
  }

  /** `getCustomerDocuments`: the customer's documents in upload order. */
  function GetCustomerDocuments(store: seq<CustomerDocument>, customerId: string): (r: seq<CustomerDocument>)
    ensures forall i :: 0 <= i < |r| ==> r[i] in store && r[i].customerId == customerId
    ensures forall i :: 0 <= i < |store| && store[i].customerId == customerId ==> store[i] in r
    ensures SubsequenceOf(r, store)
    ensures forall d :: multiset(r)[d] == if d.customerId == customerId then multiset(store)[d] else 0
  {
    var mine := (doc: CustomerDocument) => doc.customerId == customerId;
    FilterKeepsOrderAndCounts(store, mine);
    Filter(store, mine)
  }

  /** The required documents that none of the customer's documents satisfies, in requirement order. */
  function MissingDocuments(store: seq<CustomerDocument>, customerId: string, required: seq<DocumentRequirement>,
                            now: int)
    : (r: seq<DocumentRequirement>)
    ensures forall req :: req in r <==>
      && req in required
      && !exists doc :: doc in store && doc.customerId == customerId && Satisfies(doc, req, now)
    ensures SubsequenceOf(r, required)
    ensures forall req :: multiset(r)[req] == (if req in r then multiset(required)[req] else 0)
  {
    var docs := GetCustomerDocuments(store, customerId);
    var unsatisfied :=
      (req: DocumentRequirement) => !Any(docs, (doc: CustomerDocument) => Satisfies(doc, req, now));
    FilterKeepsOrderAndCounts(required, unsatisfied);
    Filter(required, unsatisfied)
  }

  /** The customer's documents whose expiry date has passed, in upload order. */
  function ExpiredDocuments(store: seq<CustomerDocument>, customerId: string, now: int): (r: seq<CustomerDocument>)
    ensures forall doc :: doc in r <==> doc in store && doc.customerId == customerId && Expired(doc, now)
    ensures SubsequenceOf(r, store)
    ensures forall doc ::
      multiset(r)[doc] == (if doc.customerId == customerId && Expired(doc, now) then multiset(store)[doc] else 0)
  {
    var docs := GetCustomerDocuments(store, customerId);
    var expiredNow := (doc: CustomerDocument) => Expired(doc, now);
    FilterOfSelection(docs, store, (doc: CustomerDocument) => doc.customerId == customerId, expiredNow);
    Filter(docs, expiredNow)
  }

  /**
   * `checkDocumentationCompliance`: the required documents no approved, unexpired document of the
   * customer satisfies, the customer's expired documents, and compliance when both lists are empty.
   */
  function CheckDocumentationCompliance(store: seq<CustomerDocument>, customerId: string,
                                        customerType: CustomerType, level: RiskLevel, now: int)
    : (r: ComplianceResult)
    ensures r.compliant <==> |r.missingDocuments| == 0 && |r.expiredDocuments| == 0
    ensures forall req :: req in r.missingDocuments <==>
      && req in GetRequiredDocuments(customerType, level)
      && !exists doc :: doc in store && doc.customerId == customerId && Satisfies(doc, req, now)
    ensures forall doc :: doc in r.expiredDocuments <==>
      doc in store && doc.customerId == customerId && Expired(doc, now)
    ensures SubsequenceOf(r.missingDocuments, GetRequiredDocuments(customerType, level))
    ensures forall req ::
      multiset(r.missingDocuments)[req] == (if req in r.missingDocuments
                                            then multiset(GetRequiredDocuments(customerType, level))[req] else 0)
    ensures SubsequenceOf(r.expiredDocuments, store)
    ensures forall doc ::
      multiset(r.expiredDocuments)[doc] == (if doc.customerId == customerId && Expired(doc, now)
                                            then multiset(store)[doc] else 0)
  {
    var missing := MissingDocuments(store, customerId, GetRequiredDocuments(customerType, level), now);
    var expired := ExpiredDocuments(store, customerId, now);
    ComplianceResult(|missing| == 0 && |expired| == 0, missing, expired)
  }

  /** A customer with no documents lacks every required document. */
  lemma {:induction false} NoDocumentsAllMissing(store: seq<CustomerDocument>, customerId: string,
                                                 customerType: CustomerType, level: RiskLevel, now: int)
    requires forall i :: 0 <= i < |store| ==> store[i].customerId != customerId
    ensures CheckDocumentationCompliance(store, customerId, customerType, level, now).missingDocuments
      == GetRequiredDocuments(customerType, level)
    ensures !CheckDocumentationCompliance(store, customerId, customerType, level, now).compliant
  {
    var docs := GetCustomerDocuments(store, customerId);
    FilterNone(store, (doc: CustomerDocument) => doc.customerId == customerId);
    FilterAll(GetRequiredDocuments(customerType, level),
      (req: DocumentRequirement) => !Any(docs, (doc: CustomerDocument) => Satisfies(doc, req, now)));
    AlwaysSomethingRequired(customerType, level);
  }

  /**
   * Uploading a document and approving it without expiry satisfies its requirement from then on,
   * provided no earlier document shares the new document's id (ids are upload times in milliseconds).
   */
  lemma UploadThenApprove(store: seq<CustomerDocument>, upload: DocumentUpload, uploadedAt: int,
                          verifier: string, verifiedAt: int, customerType: CustomerType, level: RiskLevel, now: int)
    requires forall i :: 0 <= i < |store| ==> store[i].id != Text.IntToString(uploadedAt)
    ensures
      var (afterUpload, doc) := UploadDocument(store, upload, uploadedAt);
      var (afterVerify, found) := VerifyDocument(afterUpload, doc.id, APPROVED, verifier, None, verifiedAt);
      var result := CheckDocumentationCompliance(afterVerify, upload.customerId, customerType, level, now);
      && found
      && forall req :: req in result.missingDocuments ==> req.id != upload.requirementId
  {
    var (afterUpload, doc) := UploadDocument(store, upload, uploadedAt);
    var (afterVerify, found) := VerifyDocument(afterUpload, doc.id, APPROVED, verifier, None, verifiedAt);
    assert afterUpload[|store|] == doc;
    assert found;
    var k :| VerifiedAt(afterUpload, afterVerify, k, doc.id, APPROVED, verifier, None, verifiedAt);
    assert k == |store|;
    assert afterVerify[k] in afterVerify;
  }
}

=== FILE: financial_risk.dfy ===
/**
 * Financial risk: a score from declared monthly income against three thresholds, one scale for
 * individuals and a ten times larger one for legal entities.
 */
module FinancialRisk {
  import opened Customers
  import opened Scoring

  datatype IncomeThresholds = IncomeThresholds(low: real, medium: real, high: real)

  const IndividualThresholds: IncomeThresholds := IncomeThresholds(5000.0, 15000.0, 30000.0)

  const LegalThresholds: IncomeThresholds := IncomeThresholds(50000.0, 150000.0, 300000.0)

  /** `getWeightage`: the share of this score in an overall score, a fraction strictly between 0 and 1. */
  function Weightage(): (r: real)
    ensures 0.0 < r < 1.0
  {
    0.35
  }

  /** Only a legal entity uses the legal scale; both kinds of individual share the individual one. */
  function ThresholdsFor(t: CustomerType): (r: IncomeThresholds)
    ensures t == LEGAL_ENTITY <==> r == LegalThresholds
    ensures t != LEGAL_ENTITY <==> r == IndividualThresholds
  {
    if t == LEGAL_ENTITY then LegalThresholds else IndividualThresholds
  }

  /** The income bucket: strictly above a threshold moves up, so a value equal to it stays below. */
  function IncomePoints(th: IncomeThresholds, income: real): (r: int)
    requires th.low < th.medium < th.high
    ensures r == 5 <==> income > th.high
    ensures r == 3 <==> th.medium < income <= th.high
    ensures r == 2 <==> th.low < income <= th.medium
    ensures r == 1 <==> income <= th.low
  {
    if income > th.high then 5
    else if income > th.medium then 3
    else if income > th.low then 2
    else 1
  }

  /** `calculateRisk`: the bucket, clamped to 1..5; the clamp changes nothing and 4 never occurs. */
  function CalculateRisk(c: Customer): (r: int)
    ensures r == 1 || r == 2 || r == 3 || r == 5
    ensures r == 5 <==> c.monthlyIncome > ThresholdsFor(c.customerType).high
    ensures r == 1 <==> c.monthlyIncome <= ThresholdsFor(c.customerType).low
    ensures r == 3 <==> ThresholdsFor(c.customerType).medium < c.monthlyIncome <= ThresholdsFor(c.customerType).high
    ensures r == 2 <==> ThresholdsFor(c.customerType).low < c.monthlyIncome <= ThresholdsFor(c.customerType).medium
    ensures r == IncomePoints(ThresholdsFor(c.customerType), c.monthlyIncome)
  {
    Clamp(IncomePoints(ThresholdsFor(c.customerType), c.monthlyIncome), 1, 5)
  }

  /** For a fixed customer type the score never decreases as income grows. */
  lemma MonotoneInIncome(c: Customer, d: Customer)
    requires c.customerType == d.customerType && c.monthlyIncome <= d.monthlyIncome
    ensures CalculateRisk(c) <= CalculateRisk(d)
  {
  }

  /** At equal income a legal entity never scores above an individual. */
  lemma EntityAtMostIndividual(c: Customer, d: Customer)
    requires c.customerType == LEGAL_ENTITY && d.customerType != LEGAL_ENTITY
    requires c.monthlyIncome == d.monthlyIncome
    ensures CalculateRisk(c) <= CalculateRisk(d)
  {
  }
}

=== FILE: geographic_risk.dfy ===
/**
 * Geographic risk: a 1..5 score from the customer's nationality, birth place and legal
 * residence, against fixed lists of countries, border cities and provinces.
 */
module GeographicRisk {
  import opened Text
  import opened Customers
  import opened Scoring
  import HighRiskAreas

  const HighRiskCountries: seq<string> := [
    "Afghanistan", "Algeria", "Argentina", "Bahamas", "Bangladesh", "Ecuador",
    "Iran", "Iraq", "North Korea", "Pakistan", "Syria", "Yemen"]

  const MediumRiskCountries: seq<string> := ["China", "Russia", "Turkey", "UAE", "Lebanon", "Egypt"]

  const HighRiskBorderCities: seq<string> := [
    "Zahedan", "Zabol", "Mirjaveh", "Saravan", "Taybad", "Dogharoon", "Baneh", "Marivan", "Piranshahr"]

  const HighRiskProvinces: seq<string> := ["Sistan and Baluchestan", "Kurdistan", "West Azerbaijan"]

  /** `getWeightage`: the share of this score in an overall score, a fraction strictly between 0 and 1. */
  function Weightage(): (r: real)
    ensures 0.0 < r < 1.0
  {
    0.25
  }

  /** `location.split(',')[0].trim()`: the administrative area named before the first comma. */
  function ExtractProvince(location: string): (r: string)
    ensures ',' !in r
    ensures |r| <= |location|
    ensures SliceBetweenWhitespace(r, BeforeFirst(location, ','))
    ensures |r| > 0 ==> !IsJsWhitespace(r[0]) && !IsJsWhitespace(r[|r| - 1])
  {
    Trim(BeforeFirst(location, ','))
  }

  /** The two locations, collected in a set, hold more than one element. */
  function HasMultipleLocations(c: Customer): (r: bool)
    ensures r <==> c.birthPlace != c.legalResidence
  {
    var locations := {c.birthPlace, c.legalResidence};
    assert c.birthPlace == c.legalResidence ==> locations == {c.birthPlace};
    |locations| > 1
  }

  /** Points for nationality. The `!== 'Iran'` branch can never give 0: Iran is on the high list. */
  function NationalityPoints(nationality: string): (r: int)
    ensures r == 5 <==> nationality in HighRiskCountries
    ensures r == 3 <==> nationality !in HighRiskCountries && nationality in MediumRiskCountries
    ensures r == 2 <==> nationality !in HighRiskCountries && nationality !in MediumRiskCountries
    ensures r >= 2
  {
    assert HighRiskCountries[6] == "Iran";
    if nationality in HighRiskCountries then 5
    else if nationality in MediumRiskCountries then 3
    else if nationality != "Iran" then 2
    else 0
  }

  /** Points for a birth place in a high-risk province. */
  function ProvincePoints(birthPlace: string): (r: nat)
    ensures r == 2 <==> ExtractProvince(birthPlace) in HighRiskProvinces
    ensures r == 0 <==> ExtractProvince(birthPlace) !in HighRiskProvinces
  {
    if ExtractProvince(birthPlace) in HighRiskProvinces then 2 else 0
  }

  /** Points for a birth place that is itself a border city (exact, case-sensitive match). */
  function BorderCityPoints(birthPlace: string): (r: nat)
    ensures r == 3 <==> birthPlace in HighRiskBorderCities
    ensures r == 0 <==> birthPlace !in HighRiskBorderCities
  {
    if birthPlace in HighRiskBorderCities then 3 else 0
  }

  /** Points for a legal residence different from the birth place. */
  function ResidencePoints(c: Customer): (r: nat)
    ensures c.legalResidence == c.birthPlace ==> r == 0
    ensures c.legalResidence != c.birthPlace && c.legalResidence in HighRiskBorderCities ==> r == 3
    ensures c.legalResidence != c.birthPlace && c.legalResidence !in HighRiskBorderCities ==>
      (r == 1 <==> ExtractProvince(c.legalResidence) != ExtractProvince(c.birthPlace))
    ensures r <= 3
  {
    if c.legalResidence != c.birthPlace then
      if c.legalResidence in HighRiskBorderCities then 3
      else if ExtractProvince(c.legalResidence) != ExtractProvince(c.birthPlace) then 1
      else 0
    else 0
  }

  /** Points for living in more than one location. */
  function MultipleLocationPoints(c: Customer): (r: nat)
    ensures r == 1 <==> c.legalResidence != c.birthPlace
    ensures r == 0 <==> c.legalResidence == c.birthPlace
  {
    if HasMultipleLocations(c) then 1 else 0
  }

  /** Every border city names itself as its province: no comma, no surrounding whitespace. */
  lemma BorderCityIsOwnProvince(b: string)
    requires b in HighRiskBorderCities
    ensures ExtractProvince(b) == b
    ensures b !in HighRiskProvinces
  {
    var i :| 0 <= i < |HighRiskBorderCities| && HighRiskBorderCities[i] == b;
    LettersOnlyBorderCity(i);
    PlainNameIsOwnProvince(b);
    BorderCityNotProvince(i);
  }

  lemma BorderCityNotProvince(i: nat)
    requires i < |HighRiskBorderCities|
    ensures HighRiskBorderCities[i] !in HighRiskProvinces
  {
    var b := HighRiskBorderCities[i];
    assert |b| <= 10;
    assert |b| == 9 ==> b[0] == 'D';
  }

  lemma LettersOnlyBorderCity(i: nat)
    requires i < |HighRiskBorderCities|
    ensures IsLetters(HighRiskBorderCities[i])
  {
  }

  predicate IsLetters(s: string) {
    forall i :: 0 <= i < |s| ==> 'A' <= s[i] <= 'Z' || 'a' <= s[i] <= 'z'
  }

  /** A name made of letters only names itself as its province. */
  lemma PlainNameIsOwnProvince(s: string)
    requires IsLetters(s)
    ensures ExtractProvince(s) == s
  {
    BeforeFirstAbsent(s, ',');
    TrimOfTrimmed(s);
  }

  /** The province and border-city bonuses of a birth place never both apply. */
  lemma BirthBonusesExclusive(birthPlace: string)
    ensures ProvincePoints(birthPlace) == 0 || BorderCityPoints(birthPlace) == 0
  {
    if birthPlace in HighRiskBorderCities {
      BorderCityIsOwnProvince(birthPlace);
    }
  }

  /** The raw total before normalisation; at most 12, since the two birth bonuses exclude each other. */
  function RawScore(c: Customer): (r: nat)
    ensures 2 <= r <= 12
  {
    BirthBonusesExclusive(c.birthPlace);
    NationalityPoints(c.nationality) + ProvincePoints(c.birthPlace) + BorderCityPoints(c.birthPlace)
      + ResidencePoints(c) + MultipleLocationPoints(c)
  }

  /** `calculateRisk`: the raw total divided by 3, rounded, clamped to 1..5. The upper clamp never binds. */
  function CalculateRisk(c: Customer): (r: int)
    ensures 1 <= r <= 4
    ensures r == 1 <==> RawScore(c) <= 4
    ensures r == 4 <==> RawScore(c) >= 11
    ensures r == 2 <==> 5 <= RawScore(c) <= 7
    ensures r == 3 <==> 8 <= RawScore(c) <= 10
    ensures 6 * r <= 2 * RawScore(c) + 3 < 6 * r + 6
  {
    var raw := RawScore(c);
    NormaliseBands(raw);
    Clamp(RoundDiv(raw, 3), 1, 5)
  }

  /** Dividing a raw total of 2..12 by 3, rounding and clamping to 1..5 gives these bands. */
  lemma NormaliseBands(raw: nat)
    requires 2 <= raw <= 12
    ensures var r := Clamp(RoundDiv(raw, 3), 1, 5);
      && r == RoundDiv(raw, 3)
      && (r == 1 <==> raw <= 4) && (r == 2 <==> 5 <= raw <= 7)
      && (r == 3 <==> 8 <= raw <= 10) && (r == 4 <==> raw >= 11)
  {
    var rounded := RoundDiv(raw, 3);
    assert 6 * rounded <= 2 * raw + 3 < 6 * rounded + 6;
  }

  /** The private `isHighRiskArea` of this service is a placeholder that answers false. */
  function IsHighRiskArea(province: string, city: string): (r: bool)
    ensures !r
  {
    false
  }

  /**
   * The placeholder disagrees with the area table: a border city the table rates 5 still gets
   * level 1 here.
   */
  lemma PlaceholderMissesTableArea()
    ensures HighRiskAreas.IsHighRiskArea("West Azerbaijan", "Piranshahr")
    ensures HighRiskAreas.GetAreaRiskLevel("West Azerbaijan", "Piranshahr") == 5
    ensures GetAreaRiskLevel("West Azerbaijan", "Piranshahr") == 1
  {
    var areas := HighRiskAreas.AreasByProvince;
    assert areas[0].0 == "West Azerbaijan" && areas[0].1[0].city == "Piranshahr";
    EqualsIgnoreCaseReflexive("Piranshahr");
  }

  /** `getAreaRiskLevel`: 5 for a high-risk area, else 1; with the placeholder it is always 1. */
  function GetAreaRiskLevel(province: string, city: string): (r: int)
    ensures r == 1
  {
    if IsHighRiskArea(province, city) then 5 else 1
  }
}

=== FILE: high_risk_areas.dfy ===
/**
 * The table of high-risk border areas, keyed by province. A province is matched exactly; a city
 * is matched ignoring ASCII case.
 */
module HighRiskAreas {
  import opened Wrappers
  import opened Text
  import opened Seqs
  import opened OrderedMaps

  datatype HighRiskArea = HighRiskArea(province: string, city: string, riskLevel: int, reason: string)

  function BorderCity(province: string, city: string): HighRiskArea {
    HighRiskArea(province, city, 5, "Border city")
  }

  /** The areas per province, in the order the source's `Map` was built. */
  const AreasByProvince: Entries<string, seq<HighRiskArea>> := [
    ("West Azerbaijan", [BorderCity("West Azerbaijan", "Piranshahr"), BorderCity("West Azerbaijan", "Sardasht")]),
    ("Sistan and Baluchestan", [
      BorderCity("Sistan and Baluchestan", "Saravan"), BorderCity("Sistan and Baluchestan", "Khash"),
      BorderCity("Sistan and Baluchestan", "Sarbaz"), BorderCity("Sistan and Baluchestan", "Chabahar")]),
    ("Kerman", [BorderCity("Kerman", "Qasr-e Shirin"), BorderCity("Kerman", "Mehran")]),
    ("Hormozgan", [BorderCity("Hormozgan", "Bandar Lengeh"), BorderCity("Hormozgan", "Minab")])]

  /** Facts about the table: distinct provinces, every area filed under its own province and rated 5. */
  lemma TableFacts()
    ensures Valid(AreasByProvince)
    ensures forall i, j :: 0 <= i < |AreasByProvince| && 0 <= j < |AreasByProvince[i].1| ==>
      AreasByProvince[i].1[j].province == AreasByProvince[i].0 && AreasByProvince[i].1[j].riskLevel == 5
  {
  }

  /** `isHighRiskArea`: the province has an entry, and one of its cities equals `city` ignoring case. */
  function IsHighRiskArea(province: string, city: string): (r: bool)
    ensures province !in Keys(AreasByProvince) ==> !r
    ensures r <==> exists i, j ::
      && 0 <= i < |AreasByProvince| && AreasByProvince[i].0 == province
      && 0 <= j < |AreasByProvince[i].1| && EqualsIgnoreCase(AreasByProvince[i].1[j].city, city)
  {
    TableFacts();
    match Get(AreasByProvince, province)
    case None => false
    case Some(areas) =>
      var i :| 0 <= i < |AreasByProvince| && AreasByProvince[i] == (province, areas);
      GetAt(AreasByProvince, i);
      Any(areas, (a: HighRiskArea) => EqualsIgnoreCase(a.city, city))
  }

  /** `getAreaRiskLevel`: the level of the matching area, else 1; so 5 exactly for a high-risk area. */
  function GetAreaRiskLevel(province: string, city: string): (r: int)
    ensures r == 5 <==> IsHighRiskArea(province, city)
    ensures r == 1 <==> !IsHighRiskArea(province, city)
  {
    TableFacts();
    match Get(AreasByProvince, province)
    case None => 1
    case Some(areas) =>
      var i :| 0 <= i < |AreasByProvince| && AreasByProvince[i] == (province, areas);
      GetAt(AreasByProvince, i);
      match Find(areas, (a: HighRiskArea) => EqualsIgnoreCase(a.city, city))
      case None => 1
      case Some(area) => area.riskLevel
  }

  /** City matching ignores case: two spellings equal up to case give the same answer. */
  lemma CityIgnoresCase(province: string, a: string, b: string)
    requires EqualsIgnoreCase(a, b)
    ensures IsHighRiskArea(province, a) == IsHighRiskArea(province, b)
    ensures GetAreaRiskLevel(province, a) == GetAreaRiskLevel(province, b)
  {
  }

  /** The total length of the first `i` groups: where group `i` starts once the groups are concatenated. */
  function Offset(groups: seq<seq<HighRiskArea>>, i: nat): (r: nat)
    requires i <= |groups|
  {
    if i == 0 then 0 else |groups[0]| + Offset(groups[1..], i - 1)
  }

  /** Element `j` of group `i`, when there is one, sits at `Offset(groups, i) + j` of `r`. */
  ghost predicate PlacedAt(groups: seq<seq<HighRiskArea>>, r: seq<HighRiskArea>, i: int, j: int) {
    0 <= i < |groups| && 0 <= j < |groups[i]| ==>
      Offset(groups, i) + j < |r| && r[Offset(groups, i) + j] == groups[i][j]
  }

  /** Every element of every group sits where the concatenation of the groups puts it. */
  ghost predicate LaidOut(groups: seq<seq<HighRiskArea>>, r: seq<HighRiskArea>) {
    forall i, j :: PlacedAt(groups, r, i, j)
  }

  /** Putting the first group in front of the laid-out rest lays out all the groups. */
  lemma LaidOutCons(groups: seq<seq<HighRiskArea>>, rest: seq<HighRiskArea>)
    requires |groups| > 0 && LaidOut(groups[1..], rest)
    ensures LaidOut(groups, groups[0] + rest)
  {
    var r := groups[0] + rest;
    forall i, j
      ensures PlacedAt(groups, r, i, j)
    {
      if 0 < i < |groups| && 0 <= j < |groups[i]| {
        var tail := groups[1..];
        assert groups[i] == tail[i - 1];
        assert PlacedAt(tail, rest, i - 1, j);
        assert Offset(groups, i) == |groups[0]| + Offset(tail, i - 1);
      }
    }
  }

  /** The groups concatenated in order. */
  function Flatten(groups: seq<seq<HighRiskArea>>): (r: seq<HighRiskArea>)
    ensures |r| == Offset(groups, |groups|)
    ensures LaidOut(groups, r)
    ensures forall i, j :: 0 <= i < |groups| && 0 <= j < |groups[i]| ==> groups[i][j] in r
    ensures forall x :: x in r ==> exists i :: 0 <= i < |groups| && x in groups[i]
  {
    if |groups| == 0 then []
    else
      LaidOutCons(groups, Flatten(groups[1..]));
      groups[0] + Flatten(groups[1..])
  }

  /** `getAllHighRiskAreas`: the ten areas in table order, each recognised by `IsHighRiskArea`. */
  function GetAllHighRiskAreas(): (r: seq<HighRiskArea>)
    ensures |r| == 10
    ensures LaidOut(Values(AreasByProvince), r)
    ensures forall i, j :: 0 <= i < |AreasByProvince| && 0 <= j < |AreasByProvince[i].1| ==> AreasByProvince[i].1[j] in r
    ensures forall k :: 0 <= k < |r| ==> IsHighRiskArea(r[k].province, r[k].city)
  {
    var r := Flatten(Values(AreasByProvince));
    AllAreasRecognised(r);
    r
  }

  /** The flattened table has ten entries, each recognised by the area check. */
  lemma AllAreasRecognised(r: seq<HighRiskArea>)
    requires r == Flatten(Values(AreasByProvince))
    ensures |r| == 10
    ensures forall k :: 0 <= k < |r| ==> IsHighRiskArea(r[k].province, r[k].city)
  {
    TableSize();
    TableFacts();
    forall k | 0 <= k < |r|
      ensures IsHighRiskArea(r[k].province, r[k].city)
    {
      assert r[k] in r;
      var i :| 0 <= i < |Values(AreasByProvince)| && r[k] in Values(AreasByProvince)[i];
      var j :| 0 <= j < |AreasByProvince[i].1| && AreasByProvince[i].1[j] == r[k];
      EqualsIgnoreCaseReflexive(r[k].city);
    }
  }

  /** The four provinces hold 2, 4, 2 and 2 areas. */
  lemma TableSize()
    ensures Offset(Values(AreasByProvince), |AreasByProvince|) == 10
  {
    var v := Values(AreasByProvince);
    assert |v| == 4 && |v[0]| == 2 && |v[1]| == 4 && |v[2]| == 2 && |v[3]| == 2;
    assert v[1..][1..] == v[2..] && v[2..][1..] == v[3..] && v[3..][1..] == [];
    calc {
      Offset(v, 4);
      2 + Offset(v[1..], 3);
      6 + Offset(v[2..], 2);
      8 + Offset(v[3..], 1);
      10 + Offset(v[3..][1..], 0);
    }
  }
}

=== FILE: income_risk.dfy ===
/**
 * Income risk by bucket tables: declared income (or company revenue) is looked up in a table of
 * ascending upper bounds, and a projected annual activity is rated by fixed bands. These tables
 * are independent of the monthly-income thresholds of the financial scorer.
 */
module IncomeRisk {
  import opened Customers

  /** An upper bound of a bucket; `Unbounded` is JavaScript's `Infinity`. */
  datatype Bound = Finite(amount: real) | Unbounded

  datatype IncomeThreshold = IncomeThreshold(threshold: Bound, riskLevel: int, requiresDocumentation: bool)

  datatype IncomeAssessment = IncomeAssessment(riskLevel: int, requiresDocumentation: bool)

  const IndividualIncomeThresholds: seq<IncomeThreshold> := [
    IncomeThreshold(Finite(100_000_000.0), 1, false),
    IncomeThreshold(Finite(200_000_000.0), 1, false),
    IncomeThreshold(Finite(300_000_000.0), 2, true),
    IncomeThreshold(Finite(500_000_000.0), 3, true),
    IncomeThreshold(Finite(1_000_000_000.0), 4, true),
    IncomeThreshold(Finite(2_000_000_000.0), 4, true),
    IncomeThreshold(Finite(5_000_000_000.0), 5, true),
    IncomeThreshold(Unbounded, 5, true)]

  const EntityRevenueThresholds: seq<IncomeThreshold> := [
    IncomeThreshold(Finite(500_000_000.0), 1, false),
    IncomeThreshold(Finite(1_000_000_000.0), 1, false),
    IncomeThreshold(Finite(2_000_000_000.0), 1, true),
    IncomeThreshold(Finite(5_000_000_000.0), 2, true),
    IncomeThreshold(Finite(10_000_000_000.0), 3, true),
    IncomeThreshold(Finite(20_000_000_000.0), 3, true),
    IncomeThreshold(Finite(50_000_000_000.0), 3, true),
    IncomeThreshold(Finite(100_000_000_000.0), 4, true),
    IncomeThreshold(Unbounded, 5, true)]

  /** `amount <= t.threshold`; every amount is below `Infinity`. */
  predicate Within(amount: real, b: Bound) {
    b.Unbounded? || amount <= b.amount
  }

  predicate Below(a: Bound, b: Bound) {
    a.Finite? && (b.Unbounded? || a.amount < b.amount)
  }

  /**
   * A usable table: bounds strictly ascending, only the last one unbounded and rated 5 with
   * documentation, risk levels in 1..5 and non-decreasing, documentation never switched back off.
   */
  ghost predicate WellFormed(table: seq<IncomeThreshold>) {
    && |table| > 0
    && table[|table| - 1] == IncomeThreshold(Unbounded, 5, true)
    && (forall i :: 0 <= i < |table| ==> 1 <= table[i].riskLevel <= 5)
    && (forall i :: 0 <= i < |table| - 1 ==> Below(table[i].threshold, table[i + 1].threshold))
    && (forall i :: 0 <= i < |table| - 1 ==> table[i].riskLevel <= table[i + 1].riskLevel)
    && (forall i :: 0 <= i < |table| - 1 && table[i].requiresDocumentation ==> table[i + 1].requiresDocumentation)
  }

  /** In both tables of the service every bucket from level 2 up requires documentation. */
  ghost predicate DocumentedFromLevelTwo(table: seq<IncomeThreshold>) {
    forall i :: 0 <= i < |table| && table[i].riskLevel >= 2 ==> table[i].requiresDocumentation
  }

  /** Two neighbouring buckets in order: the bound rises and neither level nor documentation falls. */
  predicate StepUp(a: IncomeThreshold, b: IncomeThreshold) {
    && 1 <= a.riskLevel <= 5
    && (a.riskLevel >= 2 ==> a.requiresDocumentation)
    && Below(a.threshold, b.threshold)
    && a.riskLevel <= b.riskLevel
    && (a.requiresDocumentation ==> b.requiresDocumentation)
  }

  /** Every neighbouring pair from position `i` on steps up. */
  predicate StepsUpFrom(table: seq<IncomeThreshold>, i: nat)
    decreases |table| - i
  {
    i + 1 >= |table| || (StepUp(table[i], table[i + 1]) && StepsUpFrom(table, i + 1))
  }

  /** A table whose neighbours all step up and whose last bucket is the unbounded one is well formed. */
  lemma {:induction false} StepsUpWellFormed(table: seq<IncomeThreshold>, i: nat)
    requires |table| > 0 && table[|table| - 1] == IncomeThreshold(Unbounded, 5, true)
    requires StepsUpFrom(table, i)
    ensures forall j :: i <= j < |table| - 1 ==> StepUp(table[j], table[j + 1])
    ensures i == 0 ==> WellFormed(table) && DocumentedFromLevelTwo(table)
    decreases |table| - i
  {
    if i + 1 < |table| {
      StepsUpWellFormed(table, i + 1);
    }
    if i == 0 {
      forall j | 0 <= j < |table|
        ensures 1 <= table[j].riskLevel <= 5
        ensures table[j].riskLevel >= 2 ==> table[j].requiresDocumentation
      {
        if j < |table| - 1 {
          assert StepUp(table[j], table[j + 1]);
        }
      }
    }
  }

  lemma IndividualTableWellFormed()
    ensures WellFormed(IndividualIncomeThresholds) && DocumentedFromLevelTwo(IndividualIncomeThresholds)
  {
    assert StepsUpFrom(IndividualIncomeThresholds, 0);
    StepsUpWellFormed(IndividualIncomeThresholds, 0);
  }

  lemma EntityTableWellFormed()
    ensures WellFormed(EntityRevenueThresholds) && DocumentedFromLevelTwo(EntityRevenueThresholds)
  {
    assert StepsUpFrom(EntityRevenueThresholds, 0);
    StepsUpWellFormed(EntityRevenueThresholds, 0);
  }

  /** Step-wise growth of a well-formed table is growth between any two buckets. */
  lemma {:induction false} WellFormedOrdered(table: seq<IncomeThreshold>, i: nat, j: nat)
    requires WellFormed(table) && i <= j < |table|
    ensures table[i].riskLevel <= table[j].riskLevel
    ensures table[i].requiresDocumentation ==> table[j].requiresDocumentation
    decreases j - i
  {
    if i < j {
      WellFormedOrdered(table, i + 1, j);
    }
  }

  /** LEGAL_ENTITY selects the revenue table; both kinds of individual the income table. */
  function TableFor(t: CustomerType): (r: seq<IncomeThreshold>)
    ensures WellFormed(r) && DocumentedFromLevelTwo(r)
    ensures t == LEGAL_ENTITY <==> r == EntityRevenueThresholds
  {
    IndividualTableWellFormed();
    EntityTableWellFormed();
    if t == LEGAL_ENTITY then EntityRevenueThresholds else IndividualIncomeThresholds
  }

  /** The position `thresholds.find` stops at: the first bucket whose bound is not below the amount. */
  function BucketIndex(table: seq<IncomeThreshold>, amount: real): (k: nat)
    ensures k <= |table|
    ensures forall j :: 0 <= j < k ==> !Within(amount, table[j].threshold)
    ensures k < |table| ==> Within(amount, table[k].threshold)
  {
    if |table| == 0 || Within(amount, table[0].threshold) then 0
    else 1 + BucketIndex(table[1..], amount)
  }

  /** A larger amount never stops at an earlier bucket. */
  lemma {:induction false} BucketIndexMonotone(table: seq<IncomeThreshold>, a: real, b: real)
    requires a <= b
    ensures BucketIndex(table, a) <= BucketIndex(table, b)
  {
    if |table| > 0 && !Within(a, table[0].threshold) {
      BucketIndexMonotone(table[1..], a, b);
    }
  }

  /** In a well-formed table the search always stops at a bucket: the last one is unbounded. */
  lemma BucketFound(table: seq<IncomeThreshold>, amount: real)
    requires WellFormed(table)
    ensures BucketIndex(table, amount) < |table|
  {
  }

  /** `calculateIncomeRisk`: the first bucket whose bound the amount does not exceed, else the last. */
  function CalculateIncomeRisk(amount: real, t: CustomerType): (r: IncomeAssessment)
    ensures 1 <= r.riskLevel <= 5
    ensures r.riskLevel >= 2 ==> r.requiresDocumentation
    ensures var k := BucketIndex(TableFor(t), amount);
      k < |TableFor(t)| && r == IncomeAssessment(TableFor(t)[k].riskLevel, TableFor(t)[k].requiresDocumentation)
  {
    var table := TableFor(t);
    var k := BucketIndex(table, amount);
    BucketFound(table, amount);
    // The source falls back to the last bucket when none matches; the unbounded last bucket
    // always matches, so that fallback is never taken.
    IncomeAssessment(table[k].riskLevel, table[k].requiresDocumentation)
  }

  /** Risk level and the documentation requirement both grow with the amount. */
  lemma IncomeRiskMonotone(a: real, b: real, t: CustomerType)
    requires a <= b
    ensures CalculateIncomeRisk(a, t).riskLevel <= CalculateIncomeRisk(b, t).riskLevel
    ensures CalculateIncomeRisk(a, t).requiresDocumentation ==> CalculateIncomeRisk(b, t).requiresDocumentation
  {
    var table := TableFor(t);
    BucketIndexMonotone(table, a, b);
    BucketFound(table, a);
    BucketFound(table, b);
    WellFormedOrdered(table, BucketIndex(table, a), BucketIndex(table, b));
  }

  /** The lowest bucket of each table: no documentation and risk 1. The boundary itself is inside. */
  lemma LowestBucket(amount: real, t: CustomerType)
    requires t == LEGAL_ENTITY ==> amount <= 500_000_000.0
    requires t != LEGAL_ENTITY ==> amount <= 100_000_000.0
    ensures CalculateIncomeRisk(amount, t) == IncomeAssessment(1, false)
  {
  }

  /** Documentation without raised risk: entity revenue between 1B and 2B is rated 1 yet needs documents. */
  lemma DocumentationWithoutRisk()
    ensures CalculateIncomeRisk(1_500_000_000.0, LEGAL_ENTITY) == IncomeAssessment(1, true)
  {
  }

  /** `calculateExpectedAnnualActivity`: a year of the monthly amount times 6 for entities, 4 otherwise. */
  function ExpectedAnnualActivity(monthlyAmount: real, t: CustomerType): (r: real)
    ensures t == LEGAL_ENTITY ==> r == monthlyAmount * 72.0
    ensures t != LEGAL_ENTITY ==> r == monthlyAmount * 48.0
  {
    var multiplier := if t == LEGAL_ENTITY then 6.0 else 4.0;
    monthlyAmount * multiplier * 12.0
  }

  /** `getActivityRiskLevel`: bands up to 5B, 50B and 300B rate 1, 2 and 3; anything above rates 5. */
  function ActivityRiskLevel(annualAmount: real): (r: int)
    ensures r == 1 || r == 2 || r == 3 || r == 5
    ensures r == 1 <==> annualAmount <= 5_000_000_000.0
    ensures r == 5 <==> annualAmount > 300_000_000_000.0
    ensures r == 2 <==> 5_000_000_000.0 < annualAmount <= 50_000_000_000.0
    ensures r == 3 <==> 50_000_000_000.0 < annualAmount <= 300_000_000_000.0
  {
    if annualAmount <= 5_000_000_000.0 then 1
    else if annualAmount <= 50_000_000_000.0 then 2
    else if annualAmount <= 300_000_000_000.0 then 3
    else 5
  }

  lemma ActivityRiskLevelMonotone(a: real, b: real)
    requires a <= b
    ensures ActivityRiskLevel(a) <= ActivityRiskLevel(b)
  {
  }
}

=== FILE: monitoring.dfy ===
/**
 * Real-time monitoring of one customer activity: the large-transaction alert, the audit-log
 * entries written for it, and the escalation check.
 */
module Monitoring {
  import opened Wrappers
  import opened Seqs
  import opened Customers
  import Text

  /** An alert; `timestamp` is the detection time in milliseconds. */
  datatype Alert = Alert(customerId: int, alertType: string, severity: RiskLevel, description: string, timestamp: int)

  /** The part of the untyped activity payload the service reads: its `amount`, when there is one. */
  datatype ActivityData = ActivityData(amount: Option<real>)

  /**
   * One `logAction` call of the audit-log service, by parameter position: the service passes the
   * customer id as `action`, the event name as `userId`, the category as `details`, then the source,
   * and the alert description as `type`.
   */
  datatype LogCall = LogCall(action: string, userId: string, details: string, source: string, kind: string)

  /** Reading `amount` of a null or undefined payload throws. */
  datatype MonitoringError = ActivityDataMissing

  datatype Monitored = Monitored(alerts: seq<Alert>, log: seq<LogCall>)

  const TransactionAmountThreshold: real := 100000.0
  const HighRiskTransactionsPerDay: nat := 3
  const SuspiciousActivityWindowHours: nat := 24

  const LargeTransactionDescription: string := "Unusually large transaction detected"
  const EscalationDescription: string := "Risk level escalated due to suspicious activity"

  /** The payload's amount exceeds the threshold (an absent amount compares false). */
  predicate LargeAmount(data: ActivityData) {
    data.amount.Some? && data.amount.value > TransactionAmountThreshold
  }

  /** `detectSuspiciousPatterns`: one MEDIUM large-transaction alert when the amount exceeds the threshold. */
  function DetectSuspiciousPatterns(customerId: int, data: ActivityData, now: int): (r: seq<Alert>)
    ensures |r| == (if LargeAmount(data) then 1 else 0)
    ensures forall i :: 0 <= i < |r| ==>
      r[i] == Alert(customerId, "LARGE_TRANSACTION", MEDIUM, LargeTransactionDescription, now)
  {
    if LargeAmount(data) then [Alert(customerId, "LARGE_TRANSACTION", MEDIUM, LargeTransactionDescription, now)]
    else []
  }

  /** `handleAlerts`: one ALERT_GENERATED entry per alert, in alert order. */
  function AlertLog(customer: Customer, alerts: seq<Alert>): (r: seq<LogCall>)
    ensures |r| == |alerts|
    ensures forall i :: 0 <= i < |r| ==>
      r[i] == LogCall(Text.IntToString(customer.id), "ALERT_GENERATED", "RISK_ASSESSMENT", "SYSTEM", alerts[i].description)
  {
    seq(|alerts|, i requires 0 <= i < |alerts| =>
      LogCall(Text.IntToString(customer.id), "ALERT_GENERATED", "RISK_ASSESSMENT", "SYSTEM", alerts[i].description))
  }

  /** `checkRiskEscalation`: at least three HIGH alerts among the recent ones. */
  function CheckRiskEscalation(alerts: seq<Alert>): (r: bool)
    ensures r <==> |Filter(alerts, (a: Alert) => a.severity == HIGH)| >= HighRiskTransactionsPerDay
  {
    |Filter(alerts, (a: Alert) => a.severity == HIGH)| >= HighRiskTransactionsPerDay
  }

  /**
   * `monitorCustomerActivity`: detect, log every alert, then for a customer not yet HIGH log an
   * escalation when the escalation check fires. A missing payload is an error.
   */
  function MonitorCustomerActivity(customer: Customer, activityType: string, data: Option<ActivityData>, now: int)
    : (r: Result<Monitored, MonitoringError>)
    ensures r.Failure? <==> data.None?
    ensures r.Success? ==>
      && |r.value.alerts| == (if LargeAmount(data.value) then 1 else 0)
      && (forall a :: a in r.value.alerts ==>
            a.alertType == "LARGE_TRANSACTION" && a.severity == MEDIUM && a.customerId == customer.id)
  {
    match data
    case None => Failure(ActivityDataMissing)
    case Some(payload) =>
      var alerts := DetectSuspiciousPatterns(customer.id, payload, now);
      var log := if |alerts| > 0 then AlertLog(customer, alerts) else [];
      var escalation :=
        if customer.riskLevel != HIGH && CheckRiskEscalation(alerts) then
          [LogCall(Text.IntToString(customer.id), "RISK_ESCALATION", "RISK_ASSESSMENT", "SYSTEM", EscalationDescription)]
        else [];
      Success(Monitored(alerts, log + escalation))
  }

  /**
   * The detector only emits MEDIUM alerts, so the escalation check never fires: the log holds
   * exactly one ALERT_GENERATED entry per alert and no escalation, whatever the customer's tier.
   */
  lemma {:induction false} NeverEscalates(customer: Customer, activityType: string, data: ActivityData, now: int)
    ensures
      var r := MonitorCustomerActivity(customer, activityType, Some(data), now);
      && r.Success?
      && r.value.log == AlertLog(customer, r.value.alerts)
      && forall e :: e in r.value.log ==> e.userId == "ALERT_GENERATED"
  {
    var alerts := DetectSuspiciousPatterns(customer.id, data, now);
    FilterNone(alerts, (a: Alert) => a.severity == HIGH);
    assert !CheckRiskEscalation(alerts);
    if |alerts| == 0 {
      assert AlertLog(customer, alerts) == [];
    }
  }

  /** A larger amount never removes an alert. */
  lemma AlertMonotoneInAmount(customerId: int, a: real, b: real, now: int)
    requires a <= b
    ensures |DetectSuspiciousPatterns(customerId, ActivityData(Some(a)), now)|
         <= |DetectSuspiciousPatterns(customerId, ActivityData(Some(b)), now)|
  {
  }

  /** Exactly the threshold raises no alert; anything above it does. */
  lemma ThresholdIsStrict(customerId: int, now: int)
    ensures DetectSuspiciousPatterns(customerId, ActivityData(Some(TransactionAmountThreshold)), now) == []
    ensures |DetectSuspiciousPatterns(customerId, ActivityData(Some(TransactionAmountThreshold + 0.01)), now)| == 1
  {
  }
}

=== FILE: notifications.dfy ===
/**
 * Notifications: severity by type and customer tier, creation, acknowledgement, and the customer
 * listing, newest first.
 */
module Notifications {
  import opened Wrappers
  import opened Seqs
  import opened OrderedMaps
  import opened Customers
  import Text

  datatype NotificationType =
    | RISK_LEVEL_CHANGE
    | SUSPICIOUS_ACTIVITY
    | DOCUMENT_EXPIRY
    | REVIEW_REQUIRED
    | COMPLIANCE_ALERT

  /** A notification; times are milliseconds, and the metadata record is a list of string pairs. */
  datatype Notification = Notification(
    id: string,
    notificationType: NotificationType,
    severity: RiskLevel,
    customerId: int,
    message: string,
    metadata: seq<(string, string)>,
    createdAt: int,
    readAt: Option<int>,
    acknowledgedAt: Option<int>,
    acknowledgedBy: Option<string>)

  type NotificationStore = Entries<string, Notification>

  datatype NotificationError = NotificationNotFound(id: string) {
    function Message(): string {
      "Notification " + id + " not found"
    }
  }

  /** `determineSeverity`. */
  function DetermineSeverity(notificationType: NotificationType, customerLevel: RiskLevel): (r: RiskLevel)
    ensures r == HIGH <==>
      notificationType == SUSPICIOUS_ACTIVITY || (notificationType == RISK_LEVEL_CHANGE && customerLevel == HIGH)
    ensures r == LOW <==> notificationType == REVIEW_REQUIRED || notificationType == COMPLIANCE_ALERT
  {
    match notificationType
    case SUSPICIOUS_ACTIVITY => HIGH
    case RISK_LEVEL_CHANGE => if customerLevel == HIGH then HIGH else MEDIUM
    case DOCUMENT_EXPIRY => MEDIUM
    case _ => LOW
  }

  /** Only a risk-level change depends on the customer's tier. */
  lemma SeverityIgnoresTierExceptLevelChange(notificationType: NotificationType, a: RiskLevel, b: RiskLevel)
    requires notificationType != RISK_LEVEL_CHANGE
    ensures DetermineSeverity(notificationType, a) == DetermineSeverity(notificationType, b)
  {
  }

  /** `generateNotificationId`: `NOTIF-<now>-<suffix>`, the suffix being the random part. */
  function NotificationId(now: int, randomSuffix: string): (r: string)
    ensures |r| > 6 + |randomSuffix| && r[..6] == "NOTIF-"
    ensures r[|r| - |randomSuffix|..] == randomSuffix
  {
    "NOTIF-" + Text.IntToString(now) + "-" + randomSuffix
  }

  /** `createNotification`: stores a new, unread, unacknowledged notification under its id. */
  function CreateNotification(store: NotificationStore, notificationType: NotificationType, customer: Customer,
                              message: string, metadata: seq<(string, string)>, now: int, randomSuffix: string)
    : (r: (NotificationStore, Notification))
    ensures r.1.id == NotificationId(now, randomSuffix) && r.1.createdAt == now
    ensures r.1.severity == DetermineSeverity(notificationType, customer.riskLevel)
    ensures r.1.customerId == customer.id && r.1.notificationType == notificationType
    ensures r.1.message == message && r.1.metadata == metadata
    ensures r.1.readAt.None? && r.1.acknowledgedAt.None? && r.1.acknowledgedBy.None?
    ensures Get(r.0, r.1.id) == Some(r.1)
    ensures forall k :: k != r.1.id ==> Get(r.0, k) == Get(store, k)
    ensures Valid(store) ==> Valid(r.0)
  {
    var n := Notification(NotificationId(now, randomSuffix), notificationType,
      DetermineSeverity(notificationType, customer.riskLevel), customer.id, message, metadata, now, None, None, None);
    (Set(store, n.id, n), n)
  }

  /** `acknowledgeNotification`: stamps the time and the user; an unknown id is an error. */
  function AcknowledgeNotification(store: NotificationStore, notificationId: string, userId: string, now: int)
    : (r: (NotificationStore, Result<Notification, NotificationError>))
    ensures r.1.Failure? <==> notificationId !in Keys(store)
    ensures r.1.Failure? ==> r.0 == store && r.1.error == NotificationNotFound(notificationId)
    ensures r.1.Success? ==>
      && r.1.value == Get(store, notificationId).value.(acknowledgedAt := Some(now), acknowledgedBy := Some(userId))
      && Get(r.0, notificationId) == Some(r.1.value)
      && (forall k :: k != notificationId ==> Get(r.0, k) == Get(store, k))
      && Keys(r.0) == Keys(store)
    ensures Valid(store) ==> Valid(r.0)
  {
    match Get(store, notificationId)
    case None => (store, Failure(NotificationNotFound(notificationId)))
    case Some(n) =>
      var acknowledged := n.(acknowledgedAt := Some(now), acknowledgedBy := Some(userId));
      (Set(store, notificationId, acknowledged), Success(acknowledged))
  }

  /** Newest first: `createdAt` never increases along the sequence. */
  predicate NewestFirst(s: seq<Notification>) {
    forall i, j :: 0 <= i < j < |s| ==> s[i].createdAt >= s[j].createdAt
  }

  /** Places `x` after every element at least as new as it: one step of a stable insertion sort. */
  function Insert(s: seq<Notification>, x: Notification): (r: seq<Notification>)
    requires NewestFirst(s)
    ensures NewestFirst(r)
    ensures |r| == |s| + 1
    ensures forall i :: 0 <= i < |r| ==> r[i] == x || r[i] in s
  {
    if |s| == 0 then [x]
    else if s[0].createdAt >= x.createdAt then
      var rest := Insert(s[1..], x);
      assert forall i :: 0 <= i < |rest| ==> s[0].createdAt >= rest[i].createdAt by {
        forall i | 0 <= i < |rest| ensures s[0].createdAt >= rest[i].createdAt {
          if rest[i] != x {
            var j :| 0 <= j < |s[1..]| && s[1..][j] == rest[i];
            assert s[j + 1] == rest[i];
          }
        }
      }
      [s[0]] + rest
    else
      [x] + s
  }

  /** Inserting adds exactly `x`. */
  lemma {:induction false} InsertPermutes(s: seq<Notification>, x: Notification)
    requires NewestFirst(s)
    ensures multiset(Insert(s, x)) == multiset(s) + multiset{x}
  {
    if |s| > 0 && s[0].createdAt >= x.createdAt {
      InsertPermutes(s[1..], x);
      assert s == [s[0]] + s[1..];
    }
  }

  /** `sort((a, b) => b.createdAt - a.createdAt)`, stable as JavaScript's sort is. */
  function SortNewestFirst(s: seq<Notification>): (r: seq<Notification>)
    ensures NewestFirst(r)
    ensures |r| == |s|
  {
    if |s| == 0 then [] else Insert(SortNewestFirst(s[..|s| - 1]), s[|s| - 1])
  }

  lemma SplitLast<T>(s: seq<T>)
    requires |s| > 0
    ensures multiset(s) == multiset(s[..|s| - 1]) + multiset{s[|s| - 1]}
  {
    assert s == s[..|s| - 1] + [s[|s| - 1]];
  }

  /** The sort is a permutation of its input. */
  lemma {:induction false} SortPermutes(s: seq<Notification>)
    ensures multiset(SortNewestFirst(s)) == multiset(s)
  {
    if |s| > 0 {
      var init, last := s[..|s| - 1], s[|s| - 1];
      var sorted := SortNewestFirst(init);
      SortPermutes(init);
      InsertPermutes(sorted, last);
      SplitLast(s);
      assert SortNewestFirst(s) == Insert(sorted, last);
    }
  }

  predicate SameTime(n: Notification, t: int) {
    n.createdAt == t
  }

  /** Inserting keeps the order of equally old notifications and puts `x` after them. */
  lemma {:induction false} InsertStable(s: seq<Notification>, x: Notification, t: int)
    requires NewestFirst(s)
    ensures Filter(Insert(s, x), (n: Notification) => SameTime(n, t)) ==
      Filter(s, (n: Notification) => SameTime(n, t)) + (if x.createdAt == t then [x] else [])
  {
    var p := (n: Notification) => SameTime(n, t);
    var tail := if x.createdAt == t then [x] else [];
    if |s| == 0 {
      FilterSingleton(x, p);
    } else if s[0].createdAt >= x.createdAt {
      var rest := Insert(s[1..], x);
      calc {
        Filter(Insert(s, x), p);
        { assert Insert(s, x) == [s[0]] + rest; }
        Filter([s[0]] + rest, p);
        { FilterAppend([s[0]], rest, p); }
        Filter([s[0]], p) + Filter(rest, p);
        { InsertStable(s[1..], x, t); }
        Filter([s[0]], p) + (Filter(s[1..], p) + tail);
        { FilterSplitFirst(s, p); }
        Filter(s, p) + tail;
      }
    } else {
      InsertedFirstStable(s, x, t);
    }
  }

  /** When `x` is newer than everything it goes first, and no equally old notification precedes it. */
  lemma InsertedFirstStable(s: seq<Notification>, x: Notification, t: int)
    requires NewestFirst(s) && |s| > 0 && s[0].createdAt < x.createdAt
    ensures Filter(Insert(s, x), (n: Notification) => SameTime(n, t)) ==
      Filter(s, (n: Notification) => SameTime(n, t)) + (if x.createdAt == t then [x] else [])
  {
    var p := (n: Notification) => SameTime(n, t);
    assert Insert(s, x) == [x] + s;
    FilterAppend([x], s, p);
    FilterSingleton(x, p);
    if x.createdAt == t {
      FilterNone(s, p);
    }
  }

  /** The sort is stable: notifications created at the same moment keep their store order. */
  lemma {:induction false} SortStable(s: seq<Notification>, t: int)
    ensures Filter(SortNewestFirst(s), (n: Notification) => SameTime(n, t)) == Filter(s, (n: Notification) => SameTime(n, t))
  {
    var p := (n: Notification) => SameTime(n, t);
    if |s| > 0 {
      var init, last := s[..|s| - 1], s[|s| - 1];
      var sorted := SortNewestFirst(init);
      InsertStable(sorted, last, t);
      SortStable(init, t);
      FilterSplitLast(s, p);
      FilterSingleton(last, p);
      assert SortNewestFirst(s) == Insert(sorted, last);
    }
  }

  /** The filter of `getCustomerNotifications`. */
  predicate Shown(n: Notification, customerId: int, includeAcknowledged: bool) {
    n.customerId == customerId && (includeAcknowledged || n.acknowledgedAt.None?)
  }

  /**
   * `getCustomerNotifications`: the customer's notifications, without the acknowledged ones unless
   * asked for, newest first.
   */
  function GetCustomerNotifications(store: NotificationStore, customerId: int, includeAcknowledged: bool)
    : (r: seq<Notification>)
    ensures NewestFirst(r)
    ensures multiset(r) == multiset(Filter(Values(store), (n: Notification) => Shown(n, customerId, includeAcknowledged)))
    ensures forall n :: n in r <==> n in Values(store) && Shown(n, customerId, includeAcknowledged)
  {
    var shown := Filter(Values(store), (n: Notification) => Shown(n, customerId, includeAcknowledged));
    var r := SortNewestFirst(shown);
    SortPermutes(shown);
    assert forall n :: n in r <==> n in shown by {
      forall n ensures n in r <==> n in shown {
        assert n in r <==> n in multiset(r);
      }
    }
    assert forall n :: n in shown <==> n in Values(store) && Shown(n, customerId, includeAcknowledged) by {
      forall n | n in Values(store) && Shown(n, customerId, includeAcknowledged) ensures n in shown {
        var i :| 0 <= i < |Values(store)| && Values(store)[i] == n;
      }
    }
    r
  }

  /**
   * Acknowledging takes a notification out of the default listing and keeps it in the full one.
   */
  lemma AcknowledgedLeavesDefaultListing(store: NotificationStore, notificationId: string, userId: string, now: int)
    requires notificationId in Keys(store)
    ensures
      var (after, r) := AcknowledgeNotification(store, notificationId, userId, now);
      && r.Success?
      && r.value !in GetCustomerNotifications(after, r.value.customerId, false)
      && r.value in GetCustomerNotifications(after, r.value.customerId, true)
  {
    var (after, r) := AcknowledgeNotification(store, notificationId, userId, now);
    var i :| 0 <= i < |after| && after[i] == (notificationId, r.value);
    assert Values(after)[i] == r.value;
  }
}

=== FILE: occupation_risk.dfy ===
/**
 * Occupation risk: a base level from a per-occupation configuration (looked up case-insensitively),
 * raised by up to half when monthly income deviates far from the average income.
 */
module OccupationRisk {
  import opened Text
  import opened Customers

  datatype OccupationRiskConfig = OccupationRiskConfig(
    occupation: string,
    baseRiskLevel: RiskLevel,
    riskFactors: seq<string>,
    industryCategory: string,
    requiresEnhancedDueDiligence: bool)

  datatype OccupationRisk = OccupationRisk(riskLevel: RiskLevel, riskScore: real, riskFactors: seq<string>)

  const Politician: OccupationRiskConfig :=
    OccupationRiskConfig("politician", HIGH, ["PEP", "HIGH_PUBLIC_EXPOSURE"], "GOVERNMENT", true)

  /** The configuration of an occupation with no entry. */
  const DefaultConfig: OccupationRiskConfig :=
    OccupationRiskConfig("DEFAULT", MEDIUM, ["UNKNOWN_OCCUPATION"], "UNKNOWN", true)

  /** The average monthly income every occupation is compared with. */
  const AverageIncome: real := 50000.0

  /** The configured occupations, keyed by their lower-cased name. */
  function OccupationConfigs(): (m: map<string, OccupationRiskConfig>)
    ensures m == map["politician" := Politician]
  {
    ToLowerOfLower(Politician.occupation);
    map[ToLower(Politician.occupation) := Politician]
  }

  /** `getOccupationConfig`: the entry under the lower-cased name, else the default configuration. */
  function GetOccupationConfig(occupation: string): (r: OccupationRiskConfig)
    ensures ToLower(occupation) == "politician" ==> r == Politician
    ensures ToLower(occupation) != "politician" ==> r == DefaultConfig
  {
    var key := ToLower(occupation);
    if key in OccupationConfigs() then OccupationConfigs()[key] else DefaultConfig
  }

  /** The lookup ignores ASCII case: names equal up to case get the same configuration. */
  lemma ConfigIgnoresCase(a: string, b: string)
    requires EqualsIgnoreCase(a, b)
    ensures GetOccupationConfig(a) == GetOccupationConfig(b)
  {
  }

  function Abs(x: real): real {
    if x < 0.0 then -x else x
  }

  /** `calculateIncomeRiskFactor`: 0.5 beyond twice the average's deviation, 0.3 beyond once, else 0. */
  function IncomeRiskFactor(monthlyIncome: real): (r: real)
    ensures r == 0.0 <==> 0.0 <= monthlyIncome <= 100000.0
    ensures r == 0.5 <==> monthlyIncome > 150000.0 || monthlyIncome < -50000.0
    ensures r == 0.3 <==> (100000.0 < monthlyIncome <= 150000.0 || -50000.0 <= monthlyIncome < 0.0)
  {
    var deviation := Abs(monthlyIncome - AverageIncome) / AverageIncome;
    if deviation > 2.0 then 0.5
    else if deviation > 1.0 then 0.3
    else 0.0
  }

  /** `getBaseRiskScore`: a score that classifies back to the same level. */
  function BaseRiskScore(level: RiskLevel): (r: real)
    ensures 0.0 < r < 1.0
    ensures DetermineRiskLevel(r) == level
  {
    match level
    case HIGH => 0.8
    case MEDIUM => 0.5
    case LOW => 0.2
  }

  /** `determineRiskLevel`: HIGH from 0.7, MEDIUM from 0.4, else LOW. */
  function DetermineRiskLevel(score: real): (r: RiskLevel)
    ensures r == HIGH <==> score >= 0.7
    ensures r == MEDIUM <==> 0.4 <= score < 0.7
    ensures r == LOW <==> score < 0.4
  {
    if score >= 0.7 then HIGH
    else if score >= 0.4 then MEDIUM
    else LOW
  }

  /** `calculateOccupationRisk`: the base score raised by the income factor, and its level. */
  function CalculateOccupationRisk(occupation: string, monthlyIncome: real): (r: OccupationRisk)
    ensures var base := BaseRiskScore(GetOccupationConfig(occupation).baseRiskLevel);
      base <= r.riskScore <= 1.5 * base
    ensures r.riskScore == BaseRiskScore(GetOccupationConfig(occupation).baseRiskLevel) * (1.0 + IncomeRiskFactor(monthlyIncome))
    ensures r.riskLevel == DetermineRiskLevel(r.riskScore)
    ensures r.riskFactors == GetOccupationConfig(occupation).riskFactors
    ensures ToLower(occupation) == "politician" ==> r.riskLevel == HIGH
    ensures ToLower(occupation) != "politician" ==>
      && r.riskFactors == ["UNKNOWN_OCCUPATION"]
      && (r.riskLevel == HIGH <==> monthlyIncome > 150000.0 || monthlyIncome < -50000.0)
      && (r.riskLevel != HIGH ==> r.riskLevel == MEDIUM)
  {
    var config := GetOccupationConfig(occupation);
    var factor := IncomeRiskFactor(monthlyIncome);
    var score := BaseRiskScore(config.baseRiskLevel) * (1.0 + factor);
    OccupationRisk(DetermineRiskLevel(score), score, config.riskFactors)
  }

  /** The reported risk factors depend on the occupation only, never on income. */
  lemma FactorsIgnoreIncome(occupation: string, a: real, b: real)
    ensures CalculateOccupationRisk(occupation, a).riskFactors == CalculateOccupationRisk(occupation, b).riskFactors
  {
  }
}

=== FILE: ordered_maps.dfy ===
/**
 * The in-memory `Map<string, T>` stores of the services. A JavaScript `Map` remembers the order
 * in which keys were first set, and `Array.from(map.values())` lists values in that order, so a
 * store is an association list: `set` on a present key replaces its value in place, on a new key
 * appends.
 */
module OrderedMaps {
  import opened Wrappers

  type Entries<K, V> = seq<(K, V)>

  function Keys<K, V>(m: Entries<K, V>): (r: seq<K>)
    ensures |r| == |m|
    ensures forall i :: 0 <= i < |m| ==> r[i] == m[i].0
  {
    seq(|m|, i requires 0 <= i < |m| => m[i].0)
  }

  /** `Array.from(map.values())`. */
  function Values<K, V>(m: Entries<K, V>): (r: seq<V>)
    ensures |r| == |m|
    ensures forall i :: 0 <= i < |m| ==> r[i] == m[i].1
  {
    seq(|m|, i requires 0 <= i < |m| => m[i].1)
  }

  /** Every key appears once, as in a JavaScript `Map`. */
  ghost predicate Valid<K, V>(m: Entries<K, V>) {
    forall i, j :: 0 <= i < j < |m| ==> m[i].0 != m[j].0
  }

  /** The position of `k` among the keys, or `|ks|` when it is absent. */
  function IndexOf<K(==)>(ks: seq<K>, k: K): (i: nat)
    ensures i <= |ks|
    ensures forall j :: 0 <= j < i ==> ks[j] != k
    ensures i < |ks| ==> ks[i] == k
  {
    if |ks| == 0 || ks[0] == k then 0 else 1 + IndexOf(ks[1..], k)
  }

  /** `map.get(k)`, with `undefined` as `None`. */
  function Get<K(==), V>(m: Entries<K, V>, k: K): (r: Option<V>)
    ensures r.None? <==> k !in Keys(m)
    ensures r.Some? ==> exists i :: 0 <= i < |m| && m[i] == (k, r.value)
  {
    var i := IndexOf(Keys(m), k);
    if i < |m| then Some(m[i].1) else None
  }

  /** In a valid store, the value of a key is the one stored beside it. */
  lemma GetAt<K, V>(m: Entries<K, V>, i: nat)
    requires Valid(m) && i < |m|
    ensures Get(m, m[i].0) == Some(m[i].1)
  {
    assert Keys(m)[i] == m[i].0;
  }

  /** `map.set(k, v)`: replaces the value of a present key where it stands, appends a new key. */
  function Set<K(==, !new), V>(m: Entries<K, V>, k: K, v: V): (r: Entries<K, V>)
    ensures Get(r, k) == Some(v)
    ensures forall k' :: k' != k ==> Get(r, k') == Get(m, k')
    ensures k in Keys(m) ==> Keys(r) == Keys(m)
    ensures k !in Keys(m) ==> Keys(r) == Keys(m) + [k]
    ensures k in Keys(m) ==> r == m[IndexOf(Keys(m), k) := (k, v)]
    ensures k !in Keys(m) ==> r == m + [(k, v)]
    ensures Valid(m) ==> Valid(r)
  {
    var i := IndexOf(Keys(m), k);
    if i < |m| then
      var r := m[i := (k, v)];
      assert Keys(r) == Keys(m);
      r
    else
      var r := m + [(k, v)];
      assert Keys(r) == Keys(m) + [k];
      assert forall k' :: k' != k ==> Get(r, k') == Get(m, k') by {
        forall k' | k' != k
          ensures Get(r, k') == Get(m, k')
        {
          IndexOfAppend(Keys(m), k, k');
        }
      }
      r
  }

  lemma {:induction false} IndexOfAppend<K>(ks: seq<K>, k: K, k': K)
    requires k' != k
    ensures IndexOf(ks + [k], k') == IndexOf(ks, k') + (if k' in ks then 0 else 1)
  {
    if |ks| > 0 && ks[0] != k' {
      assert (ks + [k])[1..] == ks[1..] + [k];
      IndexOfAppend(ks[1..], k, k');
    }
  }
}

=== FILE: relationship_risk.dfy ===
/** Relationship risk: a tier from the customer type alone. */
module RelationshipRisk {
  import opened Customers

  /** `assessRelationshipRisk`: HIGH for a foreign individual, LOW for everyone else, never MEDIUM. */
  function AssessRelationshipRisk(c: Customer): (r: RiskLevel)
    ensures r == HIGH <==> c.customerType == FOREIGN_INDIVIDUAL
    ensures r == LOW <==> c.customerType != FOREIGN_INDIVIDUAL
    ensures r != MEDIUM
  {
    if c.customerType == FOREIGN_INDIVIDUAL then HIGH else LOW
  }

  /** Nothing but the customer type matters. */
  lemma DependsOnlyOnType(c: Customer, d: Customer)
    requires c.customerType == d.customerType
    ensures AssessRelationshipRisk(c) == AssessRelationshipRisk(d)
  {
  }
}

=== FILE: reporting.dfy ===
/** Periodic risk and compliance reports: the date-range validation and the report bodies. */
module Reporting {
  import opened Wrappers
  import Text

  const MillisPerDay: nat := 1000 * 60 * 60 * 24
  /** The longest accepted range, in days. */
  const MaxRangeDays: nat := 366

  datatype ReportingError = DatesRequired | StartNotBeforeEnd | RangeTooLong {
    function Message(): string {
      match this
      case DatesRequired => "Start date and end date are required"
      case StartNotBeforeEnd => "Start date must be before end date"
      case RangeTooLong => "Date range cannot exceed one year"
    }
  }

  /** A period; both ends are milliseconds since the epoch. */
  datatype ReportPeriod = ReportPeriod(startDate: int, endDate: int)

  datatype RiskDistribution = RiskDistribution(low: int, medium: int, high: int)

  datatype RiskSummary = RiskSummary(totalCustomers: int, riskDistribution: RiskDistribution,
                                     changeFromPreviousPeriod: real)

  datatype RiskDetails = RiskDetails(newHighRiskCustomers: int, escalatedRiskLevels: int, deescalatedRiskLevels: int,
                                     averageRiskScore: real, topRiskFactors: seq<string>)

  datatype ReportMetadata = ReportMetadata(generatedAt: int, generatedBy: string, reportId: string)

  datatype RiskReport = RiskReport(period: ReportPeriod, summary: RiskSummary, details: RiskDetails,
                                   metadata: ReportMetadata)

  datatype ComplianceSummary = ComplianceSummary(totalChecks: int, passedChecks: int, failedChecks: int,
                                                 complianceRate: real)

  datatype ComplianceDetails = ComplianceDetails(documentationIssues: int, verificationFailures: int,
                                                 pendingActions: int, criticalFindings: seq<string>)

  datatype ComplianceReport = ComplianceReport(period: ReportPeriod, summary: ComplianceSummary,
                                               details: ComplianceDetails, metadata: ReportMetadata)

  /** `Math.ceil(n / d)` for a positive numerator. */
  function CeilDiv(n: nat, d: nat): (r: nat)
    requires d > 0
    ensures (r - 1) * d < n <= r * d || (n == 0 && r == 0)
  {
    (n + d - 1) / d
  }

  /** The whole days a positive span covers, a partial day counting as one. */
  function DaysSpanned(startDate: int, endDate: int): (r: nat)
    requires startDate < endDate
    ensures r <= MaxRangeDays <==> endDate - startDate <= MaxRangeDays * MillisPerDay
    ensures r >= 1
  {
    CeilDiv(endDate - startDate, MillisPerDay)
  }

  /** `validateDateRange`: both dates present, start strictly before end, and at most 366 days apart. */
  function ValidateDateRange(startDate: Option<int>, endDate: Option<int>): (r: Option<ReportingError>)
    ensures r.None? <==>
      startDate.Some? && endDate.Some? && 0 < endDate.value - startDate.value <= MaxRangeDays * MillisPerDay
    ensures startDate.None? || endDate.None? ==> r == Some(DatesRequired)
    ensures startDate.Some? && endDate.Some? && startDate.value >= endDate.value ==> r == Some(StartNotBeforeEnd)
    ensures startDate.Some? && endDate.Some? && endDate.value - startDate.value > MaxRangeDays * MillisPerDay ==>
      r == Some(RangeTooLong)
  {
    if startDate.None? || endDate.None? then Some(DatesRequired)
    else if startDate.value >= endDate.value then Some(StartNotBeforeEnd)
    else if DaysSpanned(startDate.value, endDate.value) > MaxRangeDays then Some(RangeTooLong)
    else None
  }

  /**
   * `generateReportId`: `<type>-<time>-<suffix>`, the suffix being the random part. The type
   * can be read back as the text before the first dash, and the suffix ends the id.
   */
  function GeneratedReportId(kind: string, now: int, randomSuffix: string): (r: string)
    ensures '-' !in kind ==> Text.BeforeFirst(r, '-') == kind
    ensures |r| > |kind| + 2 + |randomSuffix|
    ensures r[..|kind| + 1] == kind + "-"
    ensures r[|r| - |randomSuffix|..] == randomSuffix
  {
    var r := kind + "-" + Text.IntToString(now) + "-" + randomSuffix;
    assert r == kind + ("-" + (Text.IntToString(now) + "-" + randomSuffix));
    if '-' in kind then r
    else
      Text.BeforeFirstUpTo(kind, Text.IntToString(now) + "-" + randomSuffix, '-');
      r
  }

  /** Risk and compliance report ids never coincide, whatever the time and the random part. */
  lemma ReportKindsDistinct(now: int, suffix: string, now': int, suffix': string)
    ensures GeneratedReportId("RISK", now, suffix) != GeneratedReportId("COMPLIANCE", now', suffix')
  {
  }

  /** `generateRiskReport`: the fixed figures for any valid period, echoing the period and the author. */
  function GenerateRiskReport(startDate: Option<int>, endDate: Option<int>, generatedBy: string, now: int,
                              randomSuffix: string): (r: Result<RiskReport, ReportingError>)
    ensures r.Failure? <==> ValidateDateRange(startDate, endDate).Some?
    ensures r.Failure? ==> r.error == ValidateDateRange(startDate, endDate).value
    ensures r.Success? ==>
      && r.value.period == ReportPeriod(startDate.value, endDate.value)
      && r.value.metadata.generatedBy == generatedBy
      && r.value.metadata.generatedAt == now
      && r.value.metadata.reportId == GeneratedReportId("RISK", now, randomSuffix)
      && var d := r.value.summary.riskDistribution;
         d.low + d.medium + d.high == r.value.summary.totalCustomers
  {
    match ValidateDateRange(startDate, endDate)
    case Some(e) => Failure(e)
    case None =>
      Success(RiskReport(
        ReportPeriod(startDate.value, endDate.value),
        RiskSummary(1000, RiskDistribution(600, 300, 100), 0.05),
        RiskDetails(10, 15, 5, 0.45, ["PEP_STATUS", "HIGH_RISK_COUNTRY", "LARGE_TRANSACTIONS"]),
        ReportMetadata(now, generatedBy, GeneratedReportId("RISK", now, randomSuffix))))
  }

  /** `generateComplianceReport`: the fixed figures for any valid period, echoing the period and the author. */
  function GenerateComplianceReport(startDate: Option<int>, endDate: Option<int>, generatedBy: string, now: int,
                                    randomSuffix: string): (r: Result<ComplianceReport, ReportingError>)
    ensures r.Failure? <==> ValidateDateRange(startDate, endDate).Some?
    ensures r.Failure? ==> r.error == ValidateDateRange(startDate, endDate).value
    ensures r.Success? ==>
      && r.value.period == ReportPeriod(startDate.value, endDate.value)
      && r.value.metadata.generatedBy == generatedBy
      && r.value.metadata.generatedAt == now
      && r.value.metadata.reportId == GeneratedReportId("COMPLIANCE", now, randomSuffix)
      && r.value.summary.passedChecks + r.value.summary.failedChecks == r.value.summary.totalChecks
      && r.value.summary.complianceRate * (r.value.summary.totalChecks as real) == r.value.summary.passedChecks as real
  {
    match ValidateDateRange(startDate, endDate)
    case Some(e) => Failure(e)
    case None =>
      Success(ComplianceReport(
        ReportPeriod(startDate.value, endDate.value),
        ComplianceSummary(1000, 950, 50, 0.95),
        ComplianceDetails(30, 15, 5, ["Missing KYC Documentation", "Incomplete Risk Assessment", "Overdue Reviews"]),
        ReportMetadata(now, generatedBy, GeneratedReportId("COMPLIANCE", now, randomSuffix))))
  }

  const Jan1st2024: int := 1704067200000
  const Mar31st2024: int := 1711843200000
  const Feb1st2025: int := 1738368000000

  /** The quarter 2024-01-01 to 2024-03-31 is accepted; reversed it is refused. */
  lemma QuarterAccepted()
    ensures ValidateDateRange(Some(Jan1st2024), Some(Mar31st2024)).None?
    ensures ValidateDateRange(Some(Mar31st2024), Some(Jan1st2024)) == Some(StartNotBeforeEnd)
  {
  }

  /** 2024-01-01 to 2025-02-01 spans 397 days and is refused as longer than a year. */
  lemma ThirteenMonthsRejected()
    ensures DaysSpanned(Jan1st2024, Feb1st2025) == 397
    ensures ValidateDateRange(Some(Jan1st2024), Some(Feb1st2025)) == Some(RangeTooLong)
  {
  }

  /** A span of exactly 366 days is the longest accepted; one millisecond more is refused. */
  lemma LeapYearIsTheLimit(startDate: int)
    ensures ValidateDateRange(Some(startDate), Some(startDate + MaxRangeDays * MillisPerDay)).None?
    ensures ValidateDateRange(Some(startDate), Some(startDate + MaxRangeDays * MillisPerDay + 1)) == Some(RangeTooLong)
  {
  }
}

=== FILE: risk_aggregator.dfy ===
/**
 * The risk aggregator as it stands: it consults the relationship rule, reports it as a component,
 * and returns LOW overall with every other component LOW and no factors.
 */
module RiskAggregator {
  import opened Text
  import opened Customers
  import opened RelationshipRisk
  import GeographicRisk
  import ActivityRisk
  import FinancialRisk
  import opened Wrappers
  import opened RiskParameters

  datatype RiskComponents = RiskComponents(
    relationshipRisk: RiskLevel,
    geographicRisk: RiskLevel,
    businessRisk: RiskLevel,
    financialRisk: RiskLevel,
    transactionRisk: RiskLevel)

  datatype AggregatedRisk = AggregatedRisk(overallRisk: RiskLevel, components: RiskComponents, factors: seq<string>)

  /** `calculateCustomerRisk`: the relationship component is computed; the rest is fixed at LOW. */
  function CalculateCustomerRisk(c: Customer, source: string, assessmentType: string): (r: AggregatedRisk)
    ensures r.overallRisk == LOW
    ensures r.components.relationshipRisk == AssessRelationshipRisk(c)
    ensures r.components.relationshipRisk == HIGH <==> c.customerType == FOREIGN_INDIVIDUAL
    ensures r.components.geographicRisk == LOW && r.components.businessRisk == LOW
    ensures r.components.financialRisk == LOW && r.components.transactionRisk == LOW
    ensures r.factors == []
  {
    var relationshipRisk := AssessRelationshipRisk(c);
    AggregatedRisk(LOW, RiskComponents(relationshipRisk, LOW, LOW, LOW, LOW), [])
  }

  /** Who asked and why never changes the result. */
  lemma IgnoresSourceAndType(c: Customer, s1: string, t1: string, s2: string, t2: string)
    ensures CalculateCustomerRisk(c, s1, t1) == CalculateCustomerRisk(c, s2, t2)
  {
  }

  /** Even a foreign PEP, whom the activity scorer rates at least 3, is LOW overall with no factors. */
  lemma PepStillLow(c: Customer)
    requires c.isPEP && c.customerType == FOREIGN_INDIVIDUAL
    ensures CalculateCustomerRisk(c, "SYSTEM", "SCHEDULED_ASSESSMENT").overallRisk == LOW
    ensures CalculateCustomerRisk(c, "SYSTEM", "SCHEDULED_ASSESSMENT").factors == []
    ensures ActivityRisk.CalculateRisk(c) >= 3
  {
  }

  /** `mapRiskLevelString`: upper-cased 'HIGH' and 'MEDIUM' map to their tiers, anything else to LOW. */
  function MapRiskLevelString(risk: string): (r: RiskLevel)
    ensures r == HIGH <==> ToUpper(risk) == "HIGH"
    ensures r == MEDIUM <==> ToUpper(risk) == "MEDIUM"
    ensures r == LOW <==> ToUpper(risk) != "HIGH" && ToUpper(risk) != "MEDIUM"
  {
    var upper := ToUpper(risk);
    if upper == "HIGH" then HIGH
    else if upper == "MEDIUM" then MEDIUM
    else LOW
  }

  /** Each tier's name maps back to that tier, in any ASCII case. */
  lemma MapRiskLevelNameRoundTrip(level: RiskLevel)
    ensures MapRiskLevelString(level.Name()) == level
    ensures MapRiskLevelString(ToLower(level.Name())) == level
  {
    ToUpperOfUpper(level.Name());
    var lower := ToLower(level.Name());
    assert ToUpper(lower) == level.Name();
  }

  /** The weights the three numeric scorers report: 0.25, 0.35 and 0.35, summing to 0.95, not to 1. */
  lemma CalculatorWeightages()
    ensures GeographicRisk.Weightage() == 0.25
    ensures ActivityRisk.Weightage() == 0.35 && FinancialRisk.Weightage() == 0.35
    ensures GeographicRisk.Weightage() + ActivityRisk.Weightage() + FinancialRisk.Weightage() == 0.95
  {
  }

  /**
   * Three risk parameters of one category weighted as the three scorers report would not pass
   * `validateParameters`: their category is named as the one whose weights do not sum to 1.
   */
  lemma {:induction false} CalculatorWeightsFailValidation(geographic: RiskParameter, activity: RiskParameter,
                                                          financial: RiskParameter)
    requires geographic.category == activity.category == financial.category
    requires geographic.weight == GeographicRisk.Weightage()
    requires activity.weight == ActivityRisk.Weightage()
    requires financial.weight == FinancialRisk.Weightage()
    ensures ValidateParameters([geographic, activity, financial]) ==
      Failure(WeightsDoNotSumToOne(geographic.category))
  {
    var params := [geographic, activity, financial];
    var c := geographic.category;
    assert params[1..] == [activity, financial] && params[1..][1..] == [financial] && [financial][1..] == [];
    assert WeightSum([financial], c) == 0.35;
    assert WeightSum([activity, financial], c) == 0.7;
    assert WeightSum(params, c) == 0.95;
    assert params[0].category == c;
    assert forall d :: Present(params, d) ==> d == c;
  }
}

=== FILE: risk_assessment.dfy ===
/**
 * The risk assessment service: the tier summary over a customer list, the detailed view of one
 * customer's assessment, and the due-diligence level each tier requires.
 */
module RiskAssessment {
  import opened Wrappers
  import opened Text
  import opened Seqs
  import opened Customers
  import opened RiskAggregator

  datatype CustomerFilter = CustomerFilter(
    customerType: Option<CustomerType>,
    nationality: Option<string>,
    riskLevel: Option<RiskLevel>)

  /** The tier counts of a summary; the percentages derived from them are not modelled. */
  datatype RiskSummary = RiskSummary(totalCustomers: int, lowRiskCount: int, normalRiskCount: int, highRiskCount: int)

  datatype DetailedRisk = DetailedRisk(
    customerId: int,
    overallRiskLevel: RiskLevel,
    geographicRisk: RiskLevel,
    customerTypeRisk: RiskLevel,
    activityRisk: RiskLevel,
    transactionRisk: RiskLevel,
    pepStatus: bool,
    riskFactors: seq<string>,
    lastAssessmentDate: int,
    requiredDueDiligence: string)

  datatype AssessmentError = CustomerNotFound(customerId: int) {
    function Message(): string {
      "Customer " + IntToString(customerId) + " not found"
    }
  }

  const EnhancedDueDiligence: string := "Enhanced Due Diligence"
  const StandardDueDiligence: string := "Standard Due Diligence"
  const SimplifiedDueDiligence: string := "Simplified Due Diligence"

  /** The private `calculateCustomerRisk`: the aggregator, called as the scheduled system job. */
  function AssessCustomer(c: Customer): (r: AggregatedRisk)
    ensures r.overallRisk == LOW
  {
    CalculateCustomerRisk(c, "SYSTEM", "SCHEDULED_ASSESSMENT")
  }

  /** The number of customers whose assessment lands in `tier`. */
  function CountInTier(customers: seq<Customer>, tier: RiskLevel): (n: nat)
    ensures n <= |customers|
  {
    |Filter(customers, (c: Customer) => AssessCustomer(c).overallRisk == tier)|
  }

  lemma {:induction false} CountInTierAppend(customers: seq<Customer>, c: Customer, tier: RiskLevel)
    ensures CountInTier(customers + [c], tier)
      == CountInTier(customers, tier) + (if AssessCustomer(c).overallRisk == tier then 1 else 0)
  {
    FilterAppend(customers, [c], (x: Customer) => AssessCustomer(x).overallRisk == tier);
  }

  /**
   * The counting loop of `getRiskSummary`: each customer adds one to the counter of its tier,
   * MEDIUM counting as "normal". With the aggregator as it stands, every customer is LOW.
   */
  method SummarizeRisk(customers: seq<Customer>) returns (s: RiskSummary)
    ensures s.totalCustomers == |customers|
    ensures s.lowRiskCount == CountInTier(customers, LOW)
    ensures s.normalRiskCount == CountInTier(customers, MEDIUM)
    ensures s.highRiskCount == CountInTier(customers, HIGH)
    ensures s.lowRiskCount + s.normalRiskCount + s.highRiskCount == s.totalCustomers
    ensures s.lowRiskCount == s.totalCustomers
  {
    s := RiskSummary(|customers|, 0, 0, 0);
    var i := 0;
    while i < |customers|
      invariant 0 <= i <= |customers|
      invariant s.totalCustomers == |customers|
      invariant s.lowRiskCount == CountInTier(customers[..i], LOW)
      invariant s.normalRiskCount == CountInTier(customers[..i], MEDIUM)
      invariant s.highRiskCount == CountInTier(customers[..i], HIGH)
      invariant s.lowRiskCount + s.normalRiskCount + s.highRiskCount == i
      invariant s.lowRiskCount == i
    {
      var c := customers[i];
      assert customers[..i + 1] == customers[..i] + [c];
      CountInTierAppend(customers[..i], c, LOW);
      CountInTierAppend(customers[..i], c, MEDIUM);
      CountInTierAppend(customers[..i], c, HIGH);
      var assessment := AssessCustomer(c);
      match assessment.overallRisk {
        case LOW => s := s.(lowRiskCount := s.lowRiskCount + 1);
        case MEDIUM => s := s.(normalRiskCount := s.normalRiskCount + 1);
        case HIGH => s := s.(highRiskCount := s.highRiskCount + 1);
      }
      i := i + 1;
    }
    assert customers[..|customers|] == customers;
  }

  /** `getFilteredCustomers`: a placeholder query that finds nobody. */
  function GetFilteredCustomers(filter: CustomerFilter): seq<Customer> {
    []
  }

  /** `getRiskSummary`: with no customers found every count is 0 and no percentage is computed. */
  method GetRiskSummary(filter: CustomerFilter) returns (s: RiskSummary)
    ensures s == RiskSummary(0, 0, 0, 0)
  {
    s := SummarizeRisk(GetFilteredCustomers(filter));
  }

  /** `determineRequiredDueDiligence`: Enhanced for 'HIGH', Standard for 'MEDIUM', else Simplified. */
  function DetermineRequiredDueDiligence(riskLevel: string): (r: string)
    ensures r == EnhancedDueDiligence <==> riskLevel == "HIGH"
    ensures r == StandardDueDiligence <==> riskLevel == "MEDIUM"
    ensures r == SimplifiedDueDiligence <==> riskLevel != "HIGH" && riskLevel != "MEDIUM"
  {
    if riskLevel == "HIGH" then EnhancedDueDiligence
    else if riskLevel == "MEDIUM" then StandardDueDiligence
    else SimplifiedDueDiligence
  }

  /** Distinct tiers require distinct due diligence, so the tier can be read back from it. */
  lemma DueDiligenceDistinguishesTiers(a: RiskLevel, b: RiskLevel)
    requires DetermineRequiredDueDiligence(a.Name()) == DetermineRequiredDueDiligence(b.Name())
    ensures a == b
  {
  }

  /** `mapToDetailedRiskDto`: copies the assessment and customer fields and derives the due diligence. */
  function MapToDetailedRisk(c: Customer, a: AggregatedRisk, now: int): (r: DetailedRisk)
    ensures r.customerId == c.id && r.pepStatus == c.isPEP
    ensures r.overallRiskLevel == a.overallRisk && r.riskFactors == a.factors
    ensures r.customerTypeRisk == a.components.relationshipRisk
    ensures r.activityRisk == a.components.businessRisk
    ensures r.geographicRisk == a.components.geographicRisk
    ensures r.transactionRisk == a.components.transactionRisk
    ensures r.lastAssessmentDate == now
    ensures r.requiredDueDiligence == EnhancedDueDiligence <==> a.overallRisk == HIGH
    ensures r.requiredDueDiligence == StandardDueDiligence <==> a.overallRisk == MEDIUM
    ensures r.requiredDueDiligence == SimplifiedDueDiligence <==> a.overallRisk == LOW
  {
    DetailedRisk(
      c.id, a.overallRisk, a.components.geographicRisk, a.components.relationshipRisk,
      a.components.businessRisk, a.components.transactionRisk, c.isPEP, a.factors, now,
      DetermineRequiredDueDiligence(a.overallRisk.Name()))
  }

  /** `getCustomerById`: a placeholder query that finds nobody. */
  function GetCustomerById(id: int): Option<Customer> {
    None
  }

  /** The assessment of a looked-up customer: not-found fails, a found customer gets the detailed view. */
  function AssessLookedUp(id: int, found: Option<Customer>, now: int): (r: Result<DetailedRisk, AssessmentError>)
    ensures found.None? <==> r == Failure(CustomerNotFound(id))
    ensures found.Some? ==>
      && r.Success? && r.value.customerId == found.value.id
      && r.value.requiredDueDiligence == SimplifiedDueDiligence
    ensures found.Some? ==> r == Success(MapToDetailedRisk(found.value, AssessCustomer(found.value), now))
  {
    match found
    case None => Failure(CustomerNotFound(id))
    case Some(c) => Success(MapToDetailedRisk(c, AssessCustomer(c), now))
  }

  /** `getCustomerRiskAssessment`: since the lookup finds nobody, it always fails with "Customer <id> not found". */
  function GetCustomerRiskAssessment(id: int, now: int): (r: Result<DetailedRisk, AssessmentError>)
    ensures r.Failure? && r.error == CustomerNotFound(id)
  {
    AssessLookedUp(id, GetCustomerById(id), now)
  }
}

=== FILE: risk_parameters.dfy ===
/**
 * The risk-parameter store: parameters by id, read, listed, and updated by validated partial
 * patches; plus the check that the weights of each category add up to 1.
 */
module RiskParameters {
  import opened Wrappers
  import opened Seqs
  import opened OrderedMaps

  datatype Category = CUSTOMER | GEOGRAPHIC | TRANSACTION | PRODUCT | DELIVERY

  datatype Thresholds = Thresholds(low: real, medium: real, high: real)

  datatype RiskParameter = RiskParameter(
    id: string,
    name: string,
    category: Category,
    weight: real,
    thresholds: Thresholds,
    active: bool,
    lastUpdated: int,
    updatedBy: Option<string>,
    description: Option<string>)

  /**
   * A `Partial<RiskParameter>`: the fields an update may carry. `lastUpdated` and `updatedBy`
   * are left out because the update always overwrites them.
   */
  datatype ParameterPatch = ParameterPatch(
    id: Option<string>,
    name: Option<string>,
    category: Option<Category>,
    weight: Option<real>,
    thresholds: Option<Thresholds>,
    active: Option<bool>,
    description: Option<string>)

  datatype ParameterError =
    | NotFound(id: string)
    | WeightOutOfRange
    | ThresholdsNotAscending
    | WeightsDoNotSumToOne(category: Category)

  type ParameterStore = Entries<string, RiskParameter>

  /** The store after an operation, with the operation's result. */
  datatype Updated<T> = Updated(store: ParameterStore, result: Result<T, ParameterError>)

  /** The tolerance of the weight-sum check. */
  const WeightTolerance: real := 0.0001

  /** `getParameter`: the stored record, or NotFound when the id has none. */
  function GetParameter(store: ParameterStore, id: string): (r: Result<RiskParameter, ParameterError>)
    ensures r.Failure? <==> id !in Keys(store)
    ensures r.Failure? ==> r.error == NotFound(id)
    ensures r.Success? ==> Get(store, id) == Some(r.value)
  {
    match Get(store, id)
    case None => Failure(NotFound(id))
    case Some(p) => Success(p)
  }

  /** The patch's weight, if it carries one, lies in [0, 1]. */
  predicate WeightAcceptable(patch: ParameterPatch) {
    patch.weight.None? || (0.0 <= patch.weight.value <= 1.0)
  }

  /** `validateThresholds`: rejects unless LOW < MEDIUM < HIGH. */
  function ValidateThresholds(t: Thresholds): (r: Option<ParameterError>)
    ensures r.None? <==> t.low < t.medium < t.high
    ensures r.Some? ==> r.value == ThresholdsNotAscending
  {
    if t.low >= t.medium || t.medium >= t.high then Some(ThresholdsNotAscending) else None
  }

  /** Thresholds are checked only when the patch carries them. */
  predicate ThresholdsAcceptable(patch: ParameterPatch) {
    patch.thresholds.None? || ValidateThresholds(patch.thresholds.value).None?
  }

  /** `{...p, ...patch, lastUpdated: now, updatedBy}`. */
  function ApplyPatch(p: RiskParameter, patch: ParameterPatch, updatedBy: string, now: int): (r: RiskParameter)
    ensures r.lastUpdated == now && r.updatedBy == Some(updatedBy)
    ensures r.id == patch.id.GetOr(p.id) && r.name == patch.name.GetOr(p.name)
    ensures r.category == patch.category.GetOr(p.category) && r.weight == patch.weight.GetOr(p.weight)
    ensures r.thresholds == patch.thresholds.GetOr(p.thresholds) && r.active == patch.active.GetOr(p.active)
    ensures r.description == (if patch.description.Some? then patch.description else p.description)
    ensures patch == ParameterPatch(None, None, None, None, None, None, None) ==>
      r == p.(lastUpdated := now, updatedBy := Some(updatedBy))
  {
    RiskParameter(
      patch.id.GetOr(p.id), patch.name.GetOr(p.name), patch.category.GetOr(p.category),
      patch.weight.GetOr(p.weight), patch.thresholds.GetOr(p.thresholds), patch.active.GetOr(p.active),
      now, Some(updatedBy), if patch.description.Some? then patch.description else p.description)
  }

  /**
   * `updateParameter`: look up, validate the weight, validate the thresholds, then the one write.
   * Every rejection returns the store as it was.
   */
  function UpdateParameter(store: ParameterStore, id: string, patch: ParameterPatch, updatedBy: string, now: int)
    : (r: Updated<RiskParameter>)
    ensures r.result.Success? <==> id in Keys(store) && WeightAcceptable(patch) && ThresholdsAcceptable(patch)
    ensures id !in Keys(store) ==> r.result == Failure(NotFound(id))
    ensures id in Keys(store) && !WeightAcceptable(patch) ==> r.result == Failure(WeightOutOfRange)
    ensures id in Keys(store) && WeightAcceptable(patch) && !ThresholdsAcceptable(patch) ==>
      r.result == Failure(ThresholdsNotAscending)
    ensures r.result.Failure? ==> r.store == store
    ensures r.result.Success? ==>
      && Get(r.store, id) == Some(r.result.value)
      && (forall k :: k != id ==> Get(r.store, k) == Get(store, k))
      && Keys(r.store) == Keys(store)
      && r.result.value == ApplyPatch(Get(store, id).value, patch, updatedBy, now)
    ensures Valid(store) ==> Valid(r.store)
  {
    match GetParameter(store, id)
    case Failure(e) => Updated(store, Failure(e))
    case Success(p) =>
      if patch.weight.Some? && (patch.weight.value < 0.0 || patch.weight.value > 1.0) then
        Updated(store, Failure(WeightOutOfRange))
      else if patch.thresholds.Some? && ValidateThresholds(patch.thresholds.value).Some? then
        Updated(store, Failure(ValidateThresholds(patch.thresholds.value).value))
      else
        var updated := ApplyPatch(p, patch, updatedBy, now);
        Updated(Set(store, id, updated), Success(updated))
  }

  /** A weight on either bound of [0, 1] is accepted. */
  lemma WeightBoundsAccepted(store: ParameterStore, id: string, w: real, updatedBy: string, now: int)
    requires id in Keys(store) && (w == 0.0 || w == 1.0)
    ensures UpdateParameter(store, id, ParameterPatch(None, None, None, Some(w), None, None, None), updatedBy, now)
      .result.Success?
  {
  }

  /** The store the service starts with: `new Map()`. */
  const InitialStore: ParameterStore := []

  /**
   * Nothing ever writes a new key: the only write follows a successful lookup. From the initial
   * store every lookup and update fails NotFound and leaves the store empty, and every listing is empty.
   */
  lemma InitialStoreStaysEmpty(id: string, patch: ParameterPatch, updatedBy: string, now: int, category: Option<Category>)
    ensures GetParameter(InitialStore, id) == Failure(NotFound(id))
    ensures UpdateParameter(InitialStore, id, patch, updatedBy, now) == Updated(InitialStore, Failure(NotFound(id)))
    ensures ListParameters(InitialStore, category) == []
  {
  }

  /** The filter of `listParameters`: active, and in the category when one is given. */
  predicate Listed(p: RiskParameter, category: Option<Category>) {
    (category.None? || p.category == category.value) && p.active
  }

  /** `listParameters`: the stored active parameters, of the category if one is given, in store order. */
  function ListParameters(store: ParameterStore, category: Option<Category>): (r: seq<RiskParameter>)
    ensures forall i :: 0 <= i < |r| ==> r[i] in Values(store) && r[i].active
    ensures forall i :: 0 <= i < |r| ==> category.None? || r[i].category == category.value
    ensures forall p :: p in Values(store) && Listed(p, category) ==> p in r
    ensures |r| <= |store|
    ensures SubsequenceOf(r, Values(store))
    ensures forall p :: multiset(r)[p] == if Listed(p, category) then multiset(Values(store))[p] else 0
  {
    var listed := (p: RiskParameter) => Listed(p, category);
    FilterKeepsOrderAndCounts(Values(store), listed);
    Filter(Values(store), listed)
  }

  /** The sum of the weights of the parameters of one category, as `reduce` adds them. */
  function WeightSum(params: seq<RiskParameter>, c: Category): real {
    if |params| == 0 then 0.0
    else (if params[0].category == c then params[0].weight else 0.0) + WeightSum(params[1..], c)
  }

  predicate Present(params: seq<RiskParameter>, c: Category) {
    exists i :: 0 <= i < |params| && params[i].category == c
  }

  /** The categories of `params` in order of first appearance: the key order of the grouping `Map`. */
  function CategoryOrder(seen: seq<Category>, params: seq<RiskParameter>): (r: seq<Category>)
    ensures forall c :: c in r <==> c in seen || Present(params, c)
    ensures Distinct(seen) ==> Distinct(r)
    ensures seen <= r
    decreases |params|
  {
    if |params| == 0 then seen
    else
      var c := params[0].category;
      var r := CategoryOrder(if c in seen then seen else seen + [c], params[1..]);
      assert forall d :: Present(params, d) <==> d == c || Present(params[1..], d) by {
        forall d ensures Present(params, d) ==> d == c || Present(params[1..], d) {
          if Present(params, d) && d != c {
            var i :| 0 <= i < |params| && params[i].category == d;
            assert params[1..][i - 1].category == d;
          }
        }
        forall d ensures Present(params[1..], d) ==> Present(params, d) {
          if Present(params[1..], d) {
            var i :| 0 <= i < |params[1..]| && params[1..][i].category == d;
            assert params[i + 1].category == d;
          }
        }
      }
      r
  }

  predicate Distinct(cs: seq<Category>) {
    forall i, j :: 0 <= i < j < |cs| ==> cs[i] != cs[j]
  }

  /**
   * The grouping order grows the way a `Map` does: one more parameter adds its category at the
   * end exactly when the category is new.
   */
  lemma {:induction false} CategoryOrderAppend(seen: seq<Category>, params: seq<RiskParameter>, p: RiskParameter)
    ensures CategoryOrder(seen, params + [p]) ==
      var order := CategoryOrder(seen, params);
      if p.category in order then order else order + [p.category]
    decreases |params|
  {
    if |params| == 0 {
      assert params + [p] == [p];
      assert ([p])[1..] == [];
    } else {
      var c := params[0].category;
      assert (params + [p])[0] == params[0];
      assert (params + [p])[1..] == params[1..] + [p];
      CategoryOrderAppend(if c in seen then seen else seen + [c], params[1..], p);
    }
  }

  predicate SumsToOne(params: seq<RiskParameter>, c: Category) {
    var total := WeightSum(params, c);
    -WeightTolerance <= total - 1.0 <= WeightTolerance
  }

  /** `c` is in `order` and every category before it sums to one. */
  predicate FirstToFail(order: seq<Category>, params: seq<RiskParameter>, c: Category) {
    exists k :: 0 <= k < |order| && order[k] == c && forall j :: 0 <= j < k ==> SumsToOne(params, order[j])
  }

  /**
   * `validateParameters`: succeeds when every category present sums to 1 within the tolerance;
   * otherwise names the first offending category in order of first appearance.
   */
  function ValidateParameters(params: seq<RiskParameter>): (r: Result<bool, ParameterError>)
    ensures r.Success? <==> forall c :: Present(params, c) ==> SumsToOne(params, c)
    ensures r.Success? ==> r.value
    ensures r.Failure? ==>
      && r.error.WeightsDoNotSumToOne?
      && Present(params, r.error.category)
      && !SumsToOne(params, r.error.category)
    ensures r.Failure? ==> FirstToFail(CategoryOrder([], params), params, r.error.category)
    ensures |params| == 0 ==> r.Success?
  {
    var order := CategoryOrder([], params);
    var offending := (c: Category) => !SumsToOne(params, c);
    match Find(order, offending)
    case None => Success(true)
    case Some(c) =>
      var k := FirstIndex(order, offending);
      assert order[k] == c && forall j :: 0 <= j < k ==> SumsToOne(params, order[j]);
      Failure(WeightsDoNotSumToOne(c))
  }
}

=== FILE: sanctions.dfy ===
/** The sanctions list: appending entities and the case-insensitive name check. */
module Sanctions {
  import opened Wrappers
  import opened Seqs
  import Text

  datatype EntityType = INDIVIDUAL | LEGAL_ENTITY

  /** A listed entity; `dateAdded` in milliseconds. */
  datatype SanctionedEntity = SanctionedEntity(
    id: string,
    name: string,
    entityType: EntityType,
    reason: string,
    dateAdded: int,
    source: string)

  /** What a caller supplies: an entity without `id` and `dateAdded`. */
  datatype EntityInput = EntityInput(name: string, entityType: EntityType, reason: string, source: string)

  predicate Matches(entity: SanctionedEntity, name: string, entityType: EntityType) {
    Text.EqualsIgnoreCase(entity.name, name) && entity.entityType == entityType
  }

  /** `entity` is entry `k` of the list, matches, and no entry before it matches. */
  predicate FirstMatchAt(list: seq<SanctionedEntity>, k: int, entity: SanctionedEntity, name: string, entityType: EntityType) {
    && 0 <= k < |list|
    && list[k] == entity
    && Matches(entity, name, entityType)
    && forall j :: 0 <= j < k ==> !Matches(list[j], name, entityType)
  }

  /** `checkSanctions`: the first listed entity of the type whose name matches ignoring case; null as None. */
  function CheckSanctions(list: seq<SanctionedEntity>, name: string, entityType: EntityType): (r: Option<SanctionedEntity>)
    ensures r.None? <==> forall i :: 0 <= i < |list| ==> !Matches(list[i], name, entityType)
    ensures r.Some? ==> exists k :: FirstMatchAt(list, k, r.value, name, entityType)
  {
    var p := (entity: SanctionedEntity) => Matches(entity, name, entityType);
    var r := Find(list, p);
    if r.Some? then
      var k := FirstIndex(list, p);
      assert FirstMatchAt(list, k, r.value, name, entityType);
      r
    else r
  }

  /** `addToSanctionsList`: appends the entity with the current time as id and date. */
  function AddToSanctionsList(list: seq<SanctionedEntity>, input: EntityInput, now: int)
    : (r: (seq<SanctionedEntity>, SanctionedEntity))
    ensures r.0 == list + [r.1]
    ensures r.1.id == Text.IntToString(now) && r.1.dateAdded == now
    ensures r.1.name == input.name && r.1.entityType == input.entityType
    ensures r.1.reason == input.reason && r.1.source == input.source
  {
    var entity := SanctionedEntity(Text.IntToString(now), input.name, input.entityType, input.reason, now, input.source);
    (list + [entity], entity)
  }

  /**
   * Once added, an entity is found by its name in any letter case and its type; an earlier match,
   * when there is one, still comes first.
   */
  lemma {:induction false} AddedIsFound(list: seq<SanctionedEntity>, input: EntityInput, now: int, name: string)
    requires Text.EqualsIgnoreCase(name, input.name)
    ensures
      var (after, entity) := AddToSanctionsList(list, input, now);
      && CheckSanctions(after, name, input.entityType).Some?
      && (CheckSanctions(list, name, input.entityType).Some? ==>
            CheckSanctions(after, name, input.entityType) == CheckSanctions(list, name, input.entityType))
  {
    var (after, entity) := AddToSanctionsList(list, input, now);
    assert after[|list|] == entity && Matches(entity, name, input.entityType);
    var before := CheckSanctions(list, name, input.entityType);
    if before.Some? {
      var k :| FirstMatchAt(list, k, before.value, name, input.entityType);
      assert FirstMatchAt(after, k, before.value, name, input.entityType) by {
        assert forall j :: 0 <= j <= k ==> after[j] == list[j];
      }
    }
  }
}

=== FILE: scoring.dfy ===
/** The integer normalisation shared by the 1..5 scorers. */
module Scoring {

  /** `Math.round(t / k)` for a non-negative total: the nearest integer, a half rounded up. */
  function RoundDiv(t: nat, k: nat): (r: nat)
    requires k > 0
    ensures 2 * k * r <= 2 * t + k < 2 * k * (r + 1)
  {
    (2 * t + k) / (2 * k)
  }

  /** `Math.min(Math.max(x, lo), hi)`. */
  function Clamp(x: int, lo: int, hi: int): (r: int)
    requires lo <= hi
    ensures lo <= r <= hi
    ensures lo <= x <= hi ==> r == x
    ensures x < lo ==> r == lo
    ensures x > hi ==> r == hi
  {
    if x < lo then lo else if x > hi then hi else x
  }
}

=== FILE: seqs.dfy ===
/** Array helpers standing in for `filter`, `some`, `find` and `length` of a filtered array. */
module Seqs {
  import opened Wrappers

  /** `s.filter(p)`: the elements satisfying `p`, each kept with its multiplicity and in its original order. */
  function Filter<T>(s: seq<T>, p: T -> bool): (r: seq<T>)
    ensures |r| <= |s|
    ensures forall i :: 0 <= i < |r| ==> r[i] in s && p(r[i])
    ensures forall i :: 0 <= i < |s| && p(s[i]) ==> s[i] in r
  {
    if |s| == 0 then []
    else if p(s[0]) then [s[0]] + Filter(s[1..], p)
    else Filter(s[1..], p)
  }

  /** Filtering a concatenation filters each part: the order of the kept elements is the original order. */
  lemma {:induction false} FilterAppend<T>(a: seq<T>, b: seq<T>, p: T -> bool)
    ensures Filter(a + b, p) == Filter(a, p) + Filter(b, p)
  {
    if |a| == 0 {
      assert a + b == b;
    } else {
      assert (a + b)[1..] == a[1..] + b;
      FilterAppend(a[1..], b, p);
    }
  }

  /** Filtering a one-element sequence keeps the element exactly when it satisfies the predicate. */
  lemma FilterSingleton<T>(x: T, p: T -> bool)
    ensures Filter([x], p) == if p(x) then [x] else []
  {
    assert [x][1..] == [];
  }

  /** Filtering splits off the first element. */
  lemma FilterSplitFirst<T>(s: seq<T>, p: T -> bool)
    requires |s| > 0
    ensures Filter(s, p) == Filter([s[0]], p) + Filter(s[1..], p)
  {
    FilterAppend([s[0]], s[1..], p);
    assert s == [s[0]] + s[1..];
  }

  /** Filtering splits off the last element. */
  lemma FilterSplitLast<T>(s: seq<T>, p: T -> bool)
    requires |s| > 0
    ensures Filter(s, p) == Filter(s[..|s| - 1], p) + Filter([s[|s| - 1]], p)
  {
    FilterAppend(s[..|s| - 1], [s[|s| - 1]], p);
    assert s == s[..|s| - 1] + [s[|s| - 1]];
  }

  /** Filtering keeps everything exactly when every element satisfies the predicate. */
  lemma {:induction false} FilterAll<T>(s: seq<T>, p: T -> bool)
    requires forall i :: 0 <= i < |s| ==> p(s[i])
    ensures Filter(s, p) == s
  {
    if |s| > 0 {
      FilterAll(s[1..], p);
    }
  }

  /** Filtering keeps nothing when no element satisfies the predicate. */
  lemma {:induction false} FilterNone<T>(s: seq<T>, p: T -> bool)
    requires forall i :: 0 <= i < |s| ==> !p(s[i])
    ensures Filter(s, p) == []
  {
    if |s| > 0 {
      FilterNone(s[1..], p);
    }
  }

  /** Predicates that agree on every element filter alike. */
  lemma {:induction false} FilterAgree<T>(s: seq<T>, p: T -> bool, q: T -> bool)
    requires forall i :: 0 <= i < |s| ==> p(s[i]) == q(s[i])
    ensures Filter(s, p) == Filter(s, q)
  {
    if |s| > 0 {
      FilterAgree(s[1..], p, q);
    }
  }

  /** Filtering twice is filtering once by the conjunction. */
  lemma {:induction false} FilterFilter<T>(s: seq<T>, p: T -> bool, q: T -> bool)
    ensures Filter(Filter(s, p), q) == Filter(s, x => p(x) && q(x))
  {
    if |s| > 0 {
      FilterFilter(s[1..], p, q);
    }
  }

  /** `idx` lists strictly increasing positions of `s` at which `r`'s elements stand, in turn. */
  ghost predicate PicksAt<T>(idx: seq<nat>, r: seq<T>, s: seq<T>) {
    && |idx| == |r|
    && (forall k :: 0 <= k < |idx| ==> idx[k] < |s| && r[k] == s[idx[k]])
    && (forall k, l :: 0 <= k < l < |idx| ==> idx[k] < idx[l])
  }

  /** `r` is `s` with some elements left out, the rest kept in their order. */
  ghost predicate SubsequenceOf<T>(r: seq<T>, s: seq<T>) {
    exists idx: seq<nat> :: PicksAt(idx, r, s)
  }

  /** Positions picked in `s[1..]`, moved one on, are positions in `s`; position 0 can go in front. */
  lemma PicksShift<T>(idx: seq<nat>, r: seq<T>, s: seq<T>)
    requires |s| > 0 && PicksAt(idx, r, s[1..])
    ensures PicksAt(Shifted(idx), r, s)
    ensures PicksAt([0] + Shifted(idx), [s[0]] + r, s)
  {
    var shifted := Shifted(idx);
    forall k | 0 <= k < |shifted|
      ensures shifted[k] < |s| && r[k] == s[shifted[k]]
    {
      assert s[1..][idx[k]] == s[idx[k] + 1];
    }
    var front := [0] + shifted;
    var r' := [s[0]] + r;
    forall k | 0 <= k < |front|
      ensures front[k] < |s| && r'[k] == s[front[k]]
    {
      if k > 0 {
        assert front[k] == shifted[k - 1] && r'[k] == r[k - 1];
      }
    }
    forall k, l | 0 <= k < l < |front|
      ensures front[k] < front[l]
    {
      if k > 0 {
        assert front[k] == shifted[k - 1] && front[l] == shifted[l - 1];
      }
    }
  }

  function Shifted(idx: seq<nat>): (r: seq<nat>)
    ensures |r| == |idx| && forall k :: 0 <= k < |idx| ==> r[k] == idx[k] + 1
  {
    seq(|idx|, k requires 0 <= k < |idx| => idx[k] + 1)
  }

  /** A subsequence of a subsequence of `s` is a subsequence of `s`. */
  lemma SubsequenceTransitive<T>(a: seq<T>, b: seq<T>, c: seq<T>)
    requires SubsequenceOf(a, b) && SubsequenceOf(b, c)
    ensures SubsequenceOf(a, c)
  {
    var ia :| PicksAt(ia, a, b);
    var ib :| PicksAt(ib, b, c);
    var composed := seq(|ia|, k requires 0 <= k < |ia| => ib[ia[k]]);
    assert PicksAt(composed, a, c);
  }

  /** Filtering keeps the kept elements in their original order. */
  lemma {:induction false} FilterIsSubsequence<T>(s: seq<T>, p: T -> bool)
    ensures SubsequenceOf(Filter(s, p), s)
  {
    if |s| == 0 {
      assert PicksAt([], Filter(s, p), s);
    } else {
      FilterIsSubsequence(s[1..], p);
      var rest := Filter(s[1..], p);
      var idx :| PicksAt(idx, rest, s[1..]);
      PicksShift(idx, rest, s);
      if p(s[0]) {
        assert Filter(s, p) == [s[0]] + rest;
        assert PicksAt([0] + Shifted(idx), Filter(s, p), s);
      } else {
        assert PicksAt(Shifted(idx), Filter(s, p), s);
      }
    }
  }

  /** Filtering keeps every element satisfying `p` as often as it occurs, and nothing else. */
  lemma {:induction false} FilterCounts<T>(s: seq<T>, p: T -> bool, x: T)
    ensures multiset(Filter(s, p))[x] == if p(x) then multiset(s)[x] else 0
  {
    if |s| > 0 {
      FilterCounts(s[1..], p, x);
      assert multiset(s) == multiset([s[0]]) + multiset(s[1..]) by {
        assert s == [s[0]] + s[1..];
      }
      if p(s[0]) {
        assert multiset(Filter(s, p)) == multiset([s[0]]) + multiset(Filter(s[1..], p));
      }
    }
  }

  /** `FilterCounts` for every element at once. */
  lemma FilterCountsAll<T>(s: seq<T>, p: T -> bool)
    ensures forall x :: multiset(Filter(s, p))[x] == if p(x) then multiset(s)[x] else 0
  {
    forall x
      ensures multiset(Filter(s, p))[x] == if p(x) then multiset(s)[x] else 0
    {
      FilterCounts(s, p, x);
    }
  }

  /** Filtering keeps order and multiplicity: `FilterIsSubsequence` and `FilterCountsAll` together. */
  lemma FilterKeepsOrderAndCounts<T>(s: seq<T>, p: T -> bool)
    ensures SubsequenceOf(Filter(s, p), s)
    ensures forall x :: multiset(Filter(s, p))[x] == if p(x) then multiset(s)[x] else 0
  {
    FilterIsSubsequence(s, p);
    FilterCountsAll(s, p);
  }

  /**
   * Filtering a sequence that keeps, in order, the elements of `s` satisfying `keep` keeps, in
   * order, those satisfying both `keep` and `q`.
   */
  lemma FilterOfSelection<T>(t: seq<T>, s: seq<T>, keep: T -> bool, q: T -> bool)
    requires SubsequenceOf(t, s)
    requires forall x :: multiset(t)[x] == if keep(x) then multiset(s)[x] else 0
    ensures SubsequenceOf(Filter(t, q), s)
    ensures forall x :: multiset(Filter(t, q))[x] == if keep(x) && q(x) then multiset(s)[x] else 0
  {
    FilterKeepsOrderAndCounts(t, q);
    SubsequenceTransitive(Filter(t, q), t, s);
  }

  /** `s.some(p)`. */
  function Any<T>(s: seq<T>, p: T -> bool): (r: bool)
    ensures r <==> exists i :: 0 <= i < |s| && p(s[i])
  {
    if |s| == 0 then false else p(s[0]) || Any(s[1..], p)
  }

  /** The index of the first element satisfying `p`, or `|s|` when there is none. */
  function FirstIndex<T>(s: seq<T>, p: T -> bool): (k: nat)
    ensures k <= |s|
    ensures forall j :: 0 <= j < k ==> !p(s[j])
    ensures k < |s| ==> p(s[k])
  {
    if |s| == 0 || p(s[0]) then 0 else 1 + FirstIndex(s[1..], p)
  }

  /** `s.find(p)`, with `undefined` as `None`: the first element satisfying `p`. */
  function Find<T>(s: seq<T>, p: T -> bool): (r: Option<T>)
    ensures r.None? <==> forall i :: 0 <= i < |s| ==> !p(s[i])
    ensures r.Some? ==> var k := FirstIndex(s, p); k < |s| && r.value == s[k]
  {
    var k := FirstIndex(s, p);
    if k < |s| then Some(s[k]) else None
  }
}

=== FILE: text.dfy ===
/** String helpers standing in for the JavaScript string methods the services call. */
module Text {

  /** ASCII lower-casing of one character; every other character is left as is. */
  function LowerChar(c: char): char {
    if 'A' <= c <= 'Z' then (c as int + 32) as char else c
  }

  /** ASCII upper-casing of one character; every other character is left as is. */
  function UpperChar(c: char): char {
    if 'a' <= c <= 'z' then (c as int - 32) as char else c
  }

  /** `toLowerCase`, restricted to the ASCII letters. */
  function ToLower(s: string): (r: string)
    ensures |r| == |s|
    ensures forall i :: 0 <= i < |s| ==> r[i] == LowerChar(s[i])
  {
    seq(|s|, i requires 0 <= i < |s| => LowerChar(s[i]))
  }

  /** `toUpperCase`, restricted to the ASCII letters. */
  function ToUpper(s: string): (r: string)
    ensures |r| == |s|
    ensures forall i :: 0 <= i < |s| ==> r[i] == UpperChar(s[i])
  {
    seq(|s|, i requires 0 <= i < |s| => UpperChar(s[i]))
  }

  /** Case-insensitive equality as `a.toLowerCase() === b.toLowerCase()`. */
  predicate EqualsIgnoreCase(a: string, b: string) {
    ToLower(a) == ToLower(b)
  }

  lemma EqualsIgnoreCaseReflexive(a: string)
    ensures EqualsIgnoreCase(a, a)
  {
  }

  /** A string with no ASCII upper-case letter is its own lower-case form. */
  lemma ToLowerOfLower(s: string)
    requires forall i :: 0 <= i < |s| ==> !('A' <= s[i] <= 'Z')
    ensures ToLower(s) == s
  {
  }

  /** A string with no ASCII lower-case letter is its own upper-case form. */
  lemma ToUpperOfUpper(s: string)
    requires forall i :: 0 <= i < |s| ==> !('a' <= s[i] <= 'z')
    ensures ToUpper(s) == s
  {
  }

  /** `String(n)` for an integer: its decimal digits, with a leading `-` when negative. */
  function IntToString(n: int): (r: string)
    ensures |r| > 0
  {
    if n < 0 then "-" + NatToString(-n) else NatToString(n)
  }

  function NatToString(n: nat): (r: string)
    ensures |r| > 0
    ensures forall i :: 0 <= i < |r| ==> '0' <= r[i] <= '9'
    decreases n
  {
    var d := ['0' + (n % 10) as char];
    if n < 10 then d else NatToString(n / 10) + d
  }

  /** The characters JavaScript's `trim` removes: WhiteSpace and LineTerminator of ECMA-262. */
  predicate IsJsWhitespace(c: char) {
    || c == '\t' || c == '\n' || c == '\r' || c == ' '
    || c == '\U{000B}' || c == '\U{000C}' || c == '\U{00A0}' || c == '\U{1680}'
    || ('\U{2000}' <= c <= '\U{200A}')
    || c == '\U{2028}' || c == '\U{2029}' || c == '\U{202F}' || c == '\U{205F}'
    || c == '\U{3000}' || c == '\U{FEFF}'
  }

  function TrimStart(s: string): (r: string)
    ensures |r| <= |s|
    ensures r == s[|s| - |r|..]
    ensures |r| > 0 ==> !IsJsWhitespace(r[0])
    ensures forall i :: 0 <= i < |s| - |r| ==> IsJsWhitespace(s[i])
  {
    if |s| > 0 && IsJsWhitespace(s[0]) then TrimStart(s[1..]) else s
  }

  function TrimEnd(s: string): (r: string)
    ensures |r| <= |s|
    ensures r == s[..|r|]
    ensures |r| > 0 ==> !IsJsWhitespace(r[|r| - 1])
    ensures forall i :: |r| <= i < |s| ==> IsJsWhitespace(s[i])
  {
    if |s| > 0 && IsJsWhitespace(s[|s| - 1]) then TrimEnd(s[..|s| - 1]) else s
  }

  /** `r` is a slice of `s` with only whitespace cut from either end. */
  predicate SliceBetweenWhitespace(r: string, s: string) {
    exists i, j :: 0 <= i <= j <= |s| && r == s[i..j] && WhitespaceOutside(s, i, j)
  }

  /** Every character of `s` before position `i` and from position `j` on is whitespace. */
  predicate WhitespaceOutside(s: string, i: int, j: int)
    requires 0 <= i <= j <= |s|
  {
    && (forall k :: 0 <= k < i ==> IsJsWhitespace(s[k]))
    && (forall k :: j <= k < |s| ==> IsJsWhitespace(s[k]))
  }

  /** `trim`: the string without leading and trailing whitespace. */
  function Trim(s: string): (r: string)
    ensures |r| <= |s|
    ensures SliceBetweenWhitespace(r, s)
    ensures |r| > 0 ==> !IsJsWhitespace(r[0]) && !IsJsWhitespace(r[|r| - 1])
  {
    TrimIsSlice(s);
    TrimEnd(TrimStart(s))
  }

  lemma TrimIsSlice(s: string)
    ensures SliceBetweenWhitespace(TrimEnd(TrimStart(s)), s)
  {
    var front := TrimStart(s);
    var r := TrimEnd(front);
    var i := |s| - |front|;
    var j := i + |r|;
    assert r == s[i..j] by {
      assert front == s[i..];
      assert r == front[..|r|];
    }
    assert WhitespaceOutside(s, i, j) by {
      TrimEndLeavesWhitespace(s, front, i, j);
    }
  }

  /** What `TrimEnd` cuts from a suffix of `s` is whitespace at the end of `s`. */
  lemma TrimEndLeavesWhitespace(s: string, front: string, i: int, j: int)
    requires 0 <= i <= |s| && front == s[i..] && j == i + |TrimEnd(front)|
    ensures forall k :: j <= k < |s| ==> IsJsWhitespace(s[k])
  {
    forall k | j <= k < |s|
      ensures IsJsWhitespace(s[k])
    {
      assert s[k] == front[k - i];
    }
  }

  /** A string that starts and ends with a non-whitespace character is unchanged by `trim`. */
  lemma TrimOfTrimmed(s: string)
    requires |s| > 0 ==> !IsJsWhitespace(s[0]) && !IsJsWhitespace(s[|s| - 1])
    ensures Trim(s) == s
  {
  }

  /** `s.split(c)[0]`: the text before the first `c`, or all of `s` when there is none. */
  function BeforeFirst(s: string, c: char): (r: string)
    ensures r <= s
    ensures c !in r
    ensures |r| < |s| ==> s[|r|] == c
  {
    if |s| == 0 then s
    else if s[0] == c then ""
    else [s[0]] + BeforeFirst(s[1..], c)
  }

  /** The text before the first `c` of `a + [c] + b` is `a` when `a` holds no `c`. */
  lemma {:induction false} BeforeFirstUpTo(a: string, b: string, c: char)
    requires c !in a
    ensures BeforeFirst(a + ([c] + b), c) == a
  {
    if |a| > 0 {
      assert (a + ([c] + b))[1..] == a[1..] + ([c] + b);
      BeforeFirstUpTo(a[1..], b, c);
    }
  }

  lemma BeforeFirstAbsent(s: string, c: char)
    requires c !in s
    ensures BeforeFirst(s, c) == s
  {
  }
}

=== FILE: transaction_reports.dfy ===
/** Suspicious- and cash-transaction reports: creation as drafts, submission, and the customer listing. */
module TransactionReports {
  import opened Wrappers
  import opened Seqs
  import opened OrderedMaps
  import opened Customers
  import Text

  datatype ReportType = STR | CTR

  datatype ReportStatus = DRAFT | SUBMITTED | ACCEPTED | REJECTED

  /** The transaction a report is about; `date` in milliseconds. */
  datatype ReportDetails = ReportDetails(
    transactionId: string,
    amount: real,
    currency: string,
    date: int,
    suspicionIndicators: Option<seq<string>>,
    riskLevel: RiskLevel)

  /** What a caller supplies: the details without the risk level. */
  datatype DetailsInput = DetailsInput(
    transactionId: string,
    amount: real,
    currency: string,
    date: int,
    suspicionIndicators: Option<seq<string>>)

  datatype TransactionReport = TransactionReport(
    id: string,
    customerId: int,
    reportType: ReportType,
    status: ReportStatus,
    details: ReportDetails,
    submissionDate: Option<int>,
    submittedBy: Option<string>,
    comments: Option<seq<string>>)

  type ReportStore = Entries<string, TransactionReport>

  datatype ReportError = ReportNotFound(id: string) {
    function Message(): string {
      "Report " + id + " not found"
    }
  }

  /** `generateReportId`: `REP-<now>-<suffix>`, the suffix being the random part. */
  function ReportId(now: int, randomSuffix: string): (r: string)
    ensures |r| > 4 + |randomSuffix| && r[..4] == "REP-"
    ensures r[|r| - |randomSuffix|..] == randomSuffix
  {
    "REP-" + Text.IntToString(now) + "-" + randomSuffix
  }

  /** `createReport`: stores a DRAFT with no comments yet and the given risk level in its details. */
  function CreateReport(store: ReportStore, customerId: int, reportType: ReportType, input: DetailsInput,
                        level: RiskLevel, now: int, randomSuffix: string)
    : (r: (ReportStore, TransactionReport))
    ensures r.1.id == ReportId(now, randomSuffix)
    ensures r.1.status == DRAFT && r.1.comments == Some([])
    ensures r.1.submissionDate.None? && r.1.submittedBy.None?
    ensures r.1.customerId == customerId && r.1.reportType == reportType
    ensures r.1.details == ReportDetails(input.transactionId, input.amount, input.currency, input.date,
                                         input.suspicionIndicators, level)
    ensures Get(r.0, r.1.id) == Some(r.1)
    ensures forall k :: k != r.1.id ==> Get(r.0, k) == Get(store, k)
    ensures Valid(store) ==> Valid(r.0)
  {
    var details := ReportDetails(input.transactionId, input.amount, input.currency, input.date,
                                 input.suspicionIndicators, level);
    var report := TransactionReport(ReportId(now, randomSuffix), customerId, reportType, DRAFT, details,
                                    None, None, Some([]));
    (Set(store, report.id, report), report)
  }

  /** A comment is appended only when one is given and it is not the empty string. */
  function AddComment(existing: Option<seq<string>>, comment: Option<string>): (r: Option<seq<string>>)
    ensures comment.None? || comment.value == "" ==> r == existing
    ensures comment.Some? && comment.value != "" ==> r == Some(existing.GetOr([]) + [comment.value])
  {
    if comment.Some? && comment.value != "" then Some(existing.GetOr([]) + [comment.value]) else existing
  }

  /**
   * `submitReport`: marks a stored report SUBMITTED with the time and the submitter, and appends
   * the comment; an unknown id is an error. Any status may be resubmitted.
   */
  function SubmitReport(store: ReportStore, reportId: string, submittedBy: string, comment: Option<string>, now: int)
    : (r: (ReportStore, Result<TransactionReport, ReportError>))
    ensures r.1.Failure? <==> reportId !in Keys(store)
    ensures r.1.Failure? ==> r.0 == store && r.1.error == ReportNotFound(reportId)
    ensures r.1.Success? ==>
      var previous := Get(store, reportId).value;
      && r.1.value == previous.(status := SUBMITTED, submissionDate := Some(now), submittedBy := Some(submittedBy),
                           comments := AddComment(previous.comments, comment))
      && Get(r.0, reportId) == Some(r.1.value)
      && (forall k :: k != reportId ==> Get(r.0, k) == Get(store, k))
      && Keys(r.0) == Keys(store)
    ensures Valid(store) ==> Valid(r.0)
  {
    match Get(store, reportId)
    case None => (store, Failure(ReportNotFound(reportId)))
    case Some(report) =>
      var updated := report.(status := SUBMITTED, submissionDate := Some(now), submittedBy := Some(submittedBy),
                             comments := AddComment(report.comments, comment));
      (Set(store, reportId, updated), Success(updated))
  }

  /** Only DRAFT and SUBMITTED are ever produced: no operation sets ACCEPTED or REJECTED. */
  lemma NoOperationDecides(store: ReportStore, customerId: int, reportType: ReportType, input: DetailsInput,
                           level: RiskLevel, reportId: string, submittedBy: string, comment: Option<string>,
                           now: int, randomSuffix: string)
    ensures CreateReport(store, customerId, reportType, input, level, now, randomSuffix).1.status == DRAFT
    ensures var r := SubmitReport(store, reportId, submittedBy, comment, now).1;
      r.Success? ==> r.value.status == SUBMITTED
  {
  }

  /** Comments only grow: submission keeps every earlier comment in front. */
  lemma CommentsOnlyGrow(store: ReportStore, reportId: string, submittedBy: string, comment: Option<string>, now: int)
    requires reportId in Keys(store)
    ensures
      var before := Get(store, reportId).value.comments.GetOr([]);
      var after := SubmitReport(store, reportId, submittedBy, comment, now).1.value.comments.GetOr([]);
      before <= after && |after| <= |before| + 1
  {
  }

  /**
   * The date filter of `getCustomerReports`: with neither bound everything passes; otherwise the
   * submission date, or `now` for an unsubmitted report, must lie within the given bounds inclusive.
   */
  predicate InPeriod(report: TransactionReport, startDate: Option<int>, endDate: Option<int>, now: int) {
    var reportDate := report.submissionDate.GetOr(now);
    (startDate.None? && endDate.None?)
    || ((startDate.None? || reportDate >= startDate.value) && (endDate.None? || reportDate <= endDate.value))
  }

  /** `getCustomerReports`: the customer's reports within the period, in store order. */
  function GetCustomerReports(store: ReportStore, customerId: int, startDate: Option<int>, endDate: Option<int>,
                              now: int)
    : (r: seq<TransactionReport>)
    ensures forall i :: 0 <= i < |r| ==> r[i] in Values(store) && r[i].customerId == customerId
    ensures forall i :: 0 <= i < |r| ==> InPeriod(r[i], startDate, endDate, now)
    ensures forall report ::
      (report in Values(store) && report.customerId == customerId && InPeriod(report, startDate, endDate, now))
      ==> report in r
    ensures SubsequenceOf(r, Values(store))
    ensures forall report ::
      multiset(r)[report] == (if report.customerId == customerId && InPeriod(report, startDate, endDate, now)
                              then multiset(Values(store))[report] else 0)
  {
    var mine := (report: TransactionReport) => report.customerId == customerId;
    var dated := (report: TransactionReport) => InPeriod(report, startDate, endDate, now);
    var customers := Filter(Values(store), mine);
    FilterKeepsOrderAndCounts(Values(store), mine);
    FilterOfSelection(customers, Values(store), mine, dated);
    Filter(customers, dated)
  }

  /** An unsubmitted report counts as dated now: it is listed exactly when now is within the period. */
  lemma DraftDatedNow(report: TransactionReport, startDate: Option<int>, endDate: Option<int>, now: int)
    requires report.submissionDate.None? && (startDate.Some? || endDate.Some?)
    ensures InPeriod(report, startDate, endDate, now) <==>
      (startDate.None? || startDate.value <= now) && (endDate.None? || now <= endDate.value)
  {
  }
}

=== FILE: users.dfy ===
/**
 * User management: users and their role permissions, login sessions, deactivation, and the
 * permission check.
 */
module Users {
  import opened Wrappers
  import opened OrderedMaps
  import Text

  datatype UserRole = ADMIN | RISK_OFFICER | COMPLIANCE_OFFICER | RELATIONSHIP_MANAGER | AUDITOR

  datatype Permission =
    | VIEW_CUSTOMER | CREATE_CUSTOMER | UPDATE_CUSTOMER
    | VIEW_RISK_ASSESSMENT | PERFORM_RISK_ASSESSMENT | OVERRIDE_RISK_RATING
    | VIEW_DOCUMENTS | UPLOAD_DOCUMENTS | VERIFY_DOCUMENTS
    | VIEW_REPORTS | GENERATE_REPORTS
    | MANAGE_RISK_PARAMETERS | MANAGE_USERS | MANAGE_SYSTEM_CONFIG

  /** A user; times are milliseconds. */
  datatype User = User(
    id: string,
    username: string,
    email: string,
    role: UserRole,
    permissions: seq<Permission>,
    department: string,
    isActive: bool,
    lastLogin: Option<int>,
    createdAt: int,
    updatedAt: int)

  datatype UserSession = UserSession(
    id: string,
    userId: string,
    ipAddress: string,
    userAgent: string,
    loginTime: int,
    lastActivityTime: int,
    isActive: bool)

  /** The fields a new user is created from; any permissions supplied are ignored. */
  datatype NewUser = NewUser(
    username: string,
    email: string,
    role: UserRole,
    department: string,
    permissions: Option<seq<Permission>>)

  /** A `Partial<User>`: `updatedAt` is left out because the update always overwrites it. */
  datatype UserPatch = UserPatch(
    id: Option<string>,
    username: Option<string>,
    email: Option<string>,
    role: Option<UserRole>,
    permissions: Option<seq<Permission>>,
    department: Option<string>,
    isActive: Option<bool>,
    lastLogin: Option<int>,
    createdAt: Option<int>)

  /** One `logAction` call by parameter position (action, userId, details, source). */
  datatype AuditEntry = AuditEntry(action: string, userId: string, details: string, source: string, kind: string)

  datatype UserError = UserNotFound | InvalidOrInactiveUser {
    function Message(): string {
      match this
      case UserNotFound => "User not found"
      case InvalidOrInactiveUser => "Invalid or inactive user"
    }
  }

  type UserStore = Entries<string, User>
  type SessionStore = Entries<string, UserSession>

  /** `Object.values(Permission)`: every permission, in declaration order. */
  const AllPermissions: seq<Permission> := [
    VIEW_CUSTOMER, CREATE_CUSTOMER, UPDATE_CUSTOMER,
    VIEW_RISK_ASSESSMENT, PERFORM_RISK_ASSESSMENT, OVERRIDE_RISK_RATING,
    VIEW_DOCUMENTS, UPLOAD_DOCUMENTS, VERIFY_DOCUMENTS,
    VIEW_REPORTS, GENERATE_REPORTS,
    MANAGE_RISK_PARAMETERS, MANAGE_USERS, MANAGE_SYSTEM_CONFIG]

  lemma AllPermissionsComplete(p: Permission)
    ensures p in AllPermissions
  {
  }

  /** `getDefaultPermissionsForRole`. */
  function DefaultPermissions(role: UserRole): (r: seq<Permission>)
    ensures role == ADMIN ==> r == AllPermissions
  {
    match role
    case ADMIN => AllPermissions
    case RISK_OFFICER =>
      [VIEW_CUSTOMER, VIEW_RISK_ASSESSMENT, PERFORM_RISK_ASSESSMENT, VIEW_DOCUMENTS, VERIFY_DOCUMENTS,
       VIEW_REPORTS, GENERATE_REPORTS]
    case COMPLIANCE_OFFICER =>
      [VIEW_CUSTOMER, VIEW_RISK_ASSESSMENT, VIEW_DOCUMENTS, VERIFY_DOCUMENTS, VIEW_REPORTS, GENERATE_REPORTS]
    case RELATIONSHIP_MANAGER =>
      [VIEW_CUSTOMER, CREATE_CUSTOMER, UPDATE_CUSTOMER, VIEW_DOCUMENTS, UPLOAD_DOCUMENTS]
    case AUDITOR =>
      [VIEW_CUSTOMER, VIEW_RISK_ASSESSMENT, VIEW_DOCUMENTS, VIEW_REPORTS]
  }

  /** The default permissions nest: AUDITOR within COMPLIANCE_OFFICER within RISK_OFFICER within ADMIN. */
  lemma DefaultPermissionsNest(p: Permission)
    ensures p in DefaultPermissions(AUDITOR) ==> p in DefaultPermissions(COMPLIANCE_OFFICER)
    ensures p in DefaultPermissions(COMPLIANCE_OFFICER) ==> p in DefaultPermissions(RISK_OFFICER)
    ensures p in DefaultPermissions(RISK_OFFICER) ==> p in DefaultPermissions(ADMIN)
    ensures p in DefaultPermissions(RELATIONSHIP_MANAGER) ==> p in DefaultPermissions(ADMIN)
  {
  }

  /** The administrative permissions. */
  predicate Administrative(p: Permission) {
    p in {MANAGE_USERS, MANAGE_RISK_PARAMETERS, MANAGE_SYSTEM_CONFIG, OVERRIDE_RISK_RATING}
  }

  /** Only ADMIN holds the administrative permissions by default. */
  lemma OnlyAdminAdministers(role: UserRole, p: Permission)
    requires Administrative(p)
    ensures p in DefaultPermissions(role) <==> role == ADMIN
  {
  }

  /** The store the service starts with: user "1", the active ADMIN with every permission. */
  function InitialUsers(now: int): (r: UserStore)
    ensures Valid(r) && Keys(r) == ["1"]
    ensures var admin := Get(r, "1").value;
      admin.role == ADMIN && admin.isActive && admin.username == "admin"
      && forall p :: p in admin.permissions
  {
    var admin := User("1", "admin", "admin@example.com", ADMIN, AllPermissions, "Administration", true, None, now, now);
    assert forall p :: p in AllPermissions by {
      forall p ensures p in AllPermissions {
        AllPermissionsComplete(p);
      }
    }
    Set([], admin.id, admin)
  }

  /** `createUser`: a new active user with the role's default permissions, keyed by the creation time. */
  function CreateUser(users: UserStore, input: NewUser, createdBy: string, now: int)
    : (r: (UserStore, User, AuditEntry))
    ensures r.1.id == Text.IntToString(now) && r.1.isActive
    ensures r.1.permissions == DefaultPermissions(input.role)
    ensures r.1.username == input.username && r.1.email == input.email
    ensures r.1.role == input.role && r.1.department == input.department
    ensures r.1.createdAt == now && r.1.updatedAt == now && r.1.lastLogin.None?
    ensures Get(r.0, r.1.id) == Some(r.1)
    ensures forall k :: k != r.1.id ==> Get(r.0, k) == Get(users, k)
    ensures Valid(users) ==> Valid(r.0)
    ensures r.2 == AuditEntry(r.1.id, "USER_CREATED", "CONFIGURATION", createdBy, "SYSTEM")
  {
    var user := User(Text.IntToString(now), input.username, input.email, input.role, DefaultPermissions(input.role),
                     input.department, true, None, now, now);
    (Set(users, user.id, user), user, AuditEntry(user.id, "USER_CREATED", "CONFIGURATION", createdBy, "SYSTEM"))
  }

  /** Supplied permissions make no difference to a new user. */
  lemma CreateUserIgnoresPermissions(users: UserStore, input: NewUser, supplied: seq<Permission>, createdBy: string, now: int)
    ensures CreateUser(users, input.(permissions := Some(supplied)), createdBy, now)
         == CreateUser(users, input.(permissions := None), createdBy, now)
  {
  }

  function ApplyUserPatch(u: User, patch: UserPatch, now: int): (r: User)
    ensures r.id == patch.id.GetOr(u.id) && r.username == patch.username.GetOr(u.username)
    ensures r.email == patch.email.GetOr(u.email) && r.role == patch.role.GetOr(u.role)
    ensures r.permissions == patch.permissions.GetOr(u.permissions)
    ensures r.department == patch.department.GetOr(u.department) && r.isActive == patch.isActive.GetOr(u.isActive)
    ensures r.lastLogin == (if patch.lastLogin.Some? then patch.lastLogin else u.lastLogin)
    ensures r.createdAt == patch.createdAt.GetOr(u.createdAt) && r.updatedAt == now
  {
    User(patch.id.GetOr(u.id), patch.username.GetOr(u.username), patch.email.GetOr(u.email), patch.role.GetOr(u.role),
         patch.permissions.GetOr(u.permissions), patch.department.GetOr(u.department), patch.isActive.GetOr(u.isActive),
         if patch.lastLogin.Some? then patch.lastLogin else u.lastLogin, patch.createdAt.GetOr(u.createdAt), now)
  }

  /** `updateUser`: the stored user overridden by the patch, stamped with the time; unknown ids fail. */
  function UpdateUser(users: UserStore, userId: string, patch: UserPatch, updatedBy: string, now: int)
    : (r: (UserStore, Result<(User, AuditEntry), UserError>))
    ensures r.1.Failure? <==> userId !in Keys(users)
    ensures r.1.Failure? ==> r.0 == users && r.1.error == UserNotFound
    ensures r.1.Success? ==>
      && r.1.value.0 == ApplyUserPatch(Get(users, userId).value, patch, now)
      && Get(r.0, userId) == Some(r.1.value.0)
      && (forall k :: k != userId ==> Get(r.0, k) == Get(users, k))
      && Keys(r.0) == Keys(users)
      && r.1.value.1 == AuditEntry(userId, "USER_UPDATED", "CONFIGURATION", updatedBy, "SYSTEM")
  {
    match Get(users, userId)
    case None => (users, Failure(UserNotFound))
    case Some(u) =>
      var updated := ApplyUserPatch(u, patch, now);
      (Set(users, userId, updated), Success((updated, AuditEntry(userId, "USER_UPDATED", "CONFIGURATION", updatedBy, "SYSTEM"))))
  }

  /** Changing the role by an update keeps the old permissions: only creation assigns role defaults. */
  lemma RoleChangeKeepsPermissions(users: UserStore, userId: string, role: UserRole, updatedBy: string, now: int)
    requires userId in Keys(users)
    ensures
      var patch := UserPatch(None, None, None, Some(role), None, None, None, None, None);
      var r := UpdateUser(users, userId, patch, updatedBy, now).1;
      r.Success? && r.value.0.role == role && r.value.0.permissions == Get(users, userId).value.permissions
  {
  }

  /** `invalidateUserSessions`: every session of the user becomes inactive, in place. */
  function DeactivateSessions(sessions: SessionStore, userId: string): (r: SessionStore)
    ensures |r| == |sessions| && Keys(r) == Keys(sessions)
    ensures forall i :: 0 <= i < |r| ==>
      r[i].1 == (if sessions[i].1.userId == userId then sessions[i].1.(isActive := false) else sessions[i].1)
    ensures Valid(sessions) ==> Valid(r)
  {
    seq(|sessions|, i requires 0 <= i < |sessions| =>
      (sessions[i].0, if sessions[i].1.userId == userId then sessions[i].1.(isActive := false) else sessions[i].1))
  }

  /** `deactivateUser`: the user becomes inactive with its sessions; unknown ids fail and change nothing. */
  function DeactivateUser(users: UserStore, sessions: SessionStore, userId: string, deactivatedBy: string, now: int)
    : (r: (UserStore, SessionStore, Result<AuditEntry, UserError>))
    ensures r.2.Failure? <==> userId !in Keys(users)
    ensures r.2.Failure? ==> r.0 == users && r.1 == sessions && r.2.error == UserNotFound
    ensures Valid(users) ==> Valid(r.0)
    ensures Valid(sessions) ==> Valid(r.1)
    ensures r.2.Success? ==>
      && Get(r.0, userId) == Some(Get(users, userId).value.(isActive := false, updatedAt := now))
      && (forall k :: k != userId ==> Get(r.0, k) == Get(users, k))
      && r.1 == DeactivateSessions(sessions, userId)
      && r.2.value == AuditEntry(userId, "USER_DEACTIVATED", "CONFIGURATION", deactivatedBy, "SYSTEM")
  {
    match Get(users, userId)
    case None => (users, sessions, Failure(UserNotFound))
    case Some(u) =>
      (Set(users, userId, u.(isActive := false, updatedAt := now)), DeactivateSessions(sessions, userId),
       Success(AuditEntry(userId, "USER_DEACTIVATED", "CONFIGURATION", deactivatedBy, "SYSTEM")))
  }

  /** `createSession`: an active session for a known, active user, keyed by the login time. */
  function CreateSession(users: UserStore, sessions: SessionStore, userId: string, ipAddress: string,
                         userAgent: string, now: int)
    : (r: (SessionStore, Result<UserSession, UserError>))
    ensures r.1.Failure? <==> userId !in Keys(users) || !Get(users, userId).value.isActive
    ensures r.1.Failure? ==> r.0 == sessions && r.1.error == InvalidOrInactiveUser
    ensures Valid(sessions) ==> Valid(r.0)
    ensures r.1.Success? ==>
      && r.1.value == UserSession(Text.IntToString(now), userId, ipAddress, userAgent, now, now, true)
      && Get(r.0, r.1.value.id) == Some(r.1.value)
      && (forall k :: k != r.1.value.id ==> Get(r.0, k) == Get(sessions, k))
  {
    match Get(users, userId)
    case None => (sessions, Failure(InvalidOrInactiveUser))
    case Some(u) =>
      if !u.isActive then (sessions, Failure(InvalidOrInactiveUser))
      else
        var session := UserSession(Text.IntToString(now), userId, ipAddress, userAgent, now, now, true);
        (Set(sessions, session.id, session), Success(session))
  }

  /**
   * `validatePermission`: both the user and the session exist and are active, and the user holds
   * the permission. The session need not belong to the user.
   */
  function ValidatePermission(users: UserStore, sessions: SessionStore, userId: string, sessionId: string,
                              required: Permission): (r: bool)
    ensures r <==>
      && userId in Keys(users) && sessionId in Keys(sessions)
      && Get(users, userId).value.isActive && Get(sessions, sessionId).value.isActive
      && required in Get(users, userId).value.permissions
  {
    match (Get(users, userId), Get(sessions, sessionId))
    case (Some(u), Some(s)) => s.isActive && u.isActive && required in u.permissions
    case _ => false
  }

  /** After deactivation the user holds no permission through any session. */
  lemma DeactivatedUserHasNoPermission(users: UserStore, sessions: SessionStore, userId: string, deactivatedBy: string,
                                       now: int, sessionId: string, p: Permission)
    requires userId in Keys(users)
    ensures var (users', sessions', _) := DeactivateUser(users, sessions, userId, deactivatedBy, now);
      !ValidatePermission(users', sessions', userId, sessionId, p)
  {
  }

  /** After deactivation no session of the user is active; other sessions are as they were. */
  lemma DeactivationEndsOwnSessionsOnly(users: UserStore, sessions: SessionStore, userId: string, deactivatedBy: string,
                                        now: int, sessionId: string)
    requires userId in Keys(users) && Valid(sessions)
    ensures var (_, sessions', _) := DeactivateUser(users, sessions, userId, deactivatedBy, now);
      && Keys(sessions') == Keys(sessions)
      && (Get(sessions, sessionId).Some? && Get(sessions, sessionId).value.userId == userId ==>
            Get(sessions', sessionId) == Some(Get(sessions, sessionId).value.(isActive := false)))
      && (Get(sessions, sessionId).Some? && Get(sessions, sessionId).value.userId != userId ==>
            Get(sessions', sessionId) == Get(sessions, sessionId))
  {
    var (_, sessions', _) := DeactivateUser(users, sessions, userId, deactivatedBy, now);
    if sessionId in Keys(sessions) {
      var i := IndexOf(Keys(sessions), sessionId);
      GetAt(sessions, i);
      GetAt(sessions', i);
    }
  }

  /** `invalidateSession`: marks a stored session inactive; an unknown id changes nothing. */
  function InvalidateSession(sessions: SessionStore, sessionId: string): (r: SessionStore)
    ensures sessionId !in Keys(sessions) ==> r == sessions
    ensures sessionId in Keys(sessions) ==> Get(r, sessionId) == Some(Get(sessions, sessionId).value.(isActive := false))
    ensures forall k :: k != sessionId ==> Get(r, k) == Get(sessions, k)
    ensures Keys(r) == Keys(sessions)
  {
    match Get(sessions, sessionId)
    case None => sessions
    case Some(s) => Set(sessions, sessionId, s.(isActive := false))
  }

  /** A fresh session of the initial administrator grants every permission, until it is invalidated. */
  lemma AdminSessionGrantsEverything(ipAddress: string, userAgent: string, now: int, p: Permission)
    ensures
      var users := InitialUsers(now);
      var (sessions, r) := CreateSession(users, [], "1", ipAddress, userAgent, now);
      && r.Success?
      && ValidatePermission(users, sessions, "1", r.value.id, p)
      && !ValidatePermission(users, InvalidateSession(sessions, r.value.id), "1", r.value.id, p)
  {
  }
}

=== FILE: wrappers.dfy ===
/** Failure-carrying values used in place of `undefined`/`null` and thrown exceptions. */
module Wrappers {

  /** An optional value: a TypeScript optional field or a `T | null` result. */
  datatype Option<+T> = None | Some(value: T) {
    function GetOr(default: T): T {
      match this
      case Some(v) => v
      case None => default
    }
  }

  /** The outcome of an operation that may throw: `Failure` carries what was thrown. */
  datatype Result<+R, +E> = Success(value: R) | Failure(error: E)
}
